=== FILE: README.md ===
# pixelrushgames — a Dafny model of its decision logic

pixelrushgames is an Express/MongoDB site that lists downloadable games. Its
media are stored in an S3-compatible bucket (Cloudflare R2). A command-line
script backs up both the database and the bucket, and restores them.

This project models the logic that decides what happens once the I/O is
taken away:

- **Backups** (`backup.js`):
  - the artifact names;
  - the catalogue `listBackups` builds;
  - how `restoreFromBackup`, `restoreComplete` and `restoreFromDate` choose
    artifacts, and the order of their effects;
  - the gate order of `createFullBackup`;
  - `cleanOldBackups`' age test;
  - the `getContentType` table;
  - the object-store restore's calls;
  - how `restoreMongoDB` normalises ids.
- **Catalogue pages**:
  - the query, skip, limit and `totalPages` arithmetic;
  - page defaulting;
  - search;
  - recommendations;
  - the SEO data of the detail page.
- **The admin handlers**:
  - login checks;
  - upload, edit and delete, including the key extraction and failure policy
    of delete.
- **Request-level validators**:
  - the upload filter (MIME type, extension, size) and object-key naming;
  - the dangerous-suffix header override;
  - the browser-side form check;
  - the browser-side report quota;
  - the report route and its Discord embed;
  - the admin IP allow-list.

Effects are modelled as data:
- A restore is a plan, `Abort(reason)` or `Steps([Download, RestoreDatabase, RemoveLocal, …])`.
- A backup run is the list of calls it makes.
- An effect that may fail (a bucket probe, a password comparison, a URL
  parse, `new ObjectId`, a webhook call, a database save) is a parameter of
  the function that uses it.
- The database is a `seq<Game>` in insertion order. Its newest-first sort is a
  stable insertion sort on `createdAt`.

The modules are:

| module | source |
|---|---|
| `Js`, `Text`, `Seqs` | JavaScript semantics the handlers rely on |
| `Games` | `models/Game.js` and the record the controllers write |
| `Catalogue` | `controllers/homeController.js` |
| `GameManagement` | `controllers/gameController.js` |
| `GameDetail` | `controllers/gameDetailController.js` |
| `AdminPanel` | `controllers/adminController.js` |
| `UploadPolicy` | `middlewares/multer.js`, `middlewares/uploads.js` |
| `UploadValidation` | `public/js/upload-validation.js` |
| `ReportQuota` | `public/js/reports.js` |
| `ReportRoute` | `routes/report.routes.js` |
| `IpRestriction` | `middlewares/ipRestriction.js` |
| `BackupCatalogue`, `BackupCreate`, `BackupRestore`, `BackupDocuments`, `ObjectStoreRestore` | `backup.js` |

## Model

| member | source | states |
|---|---|---|
| Js.IntOr | controllers/gameController.js:7-8 | `parseInt(x) \|\| d`: NaN and 0 fall back to the default, and any other number is kept |
| Js.CeilDiv | controllers/homeController.js:14 | `Math.ceil(a / b)` is the least r with a <= r*b (for b > 0), which bounds the result from both sides |
| Text.ReplaceFirst | controllers/gameController.js:57 | `replace` with a string pattern: without an occurrence the text is unchanged; otherwise the first occurrence alone is replaced, the text around it kept |
| Text.IndexOf | middlewares/ipRestriction.js:8 | the position found is an occurrence, and no earlier position is one; None means there is no occurrence at all |
| Text.LastIndexOfChar | backup.js:87 | the last position holding the character, or None when the character does not occur |
| Text.ToLower | middlewares/multer.js:91 | lowercasing keeps the length and maps each character on its own |
| Text.BasenameIsLastSegment | backup.js:705 | `path.basename` holds no slash and ends the path once trailing slashes are dropped; a slash-free path is its own basename |
| Text.ExtnameIsLastDotPart | middlewares/multer.js:91 | `path.extname` is empty or a dot followed by no other dot, and is a proper suffix of the basename; a basename without a dot has no extension |
| Text.BasenameCommutesWithLower | backup.js:87 | `path.basename` of a lower-cased path is the lower-cased basename |
| Text.ExtnameCommutesWithLower | middlewares/multer.js:91 | `path.extname` then `toLowerCase` equals lowercasing first |
| Text.BasenameOfJoin | backup.js:705 | the basename of `dir/name` is `name` when the name holds no slash |
| Text.ExtnameOfPrefixed | middlewares/multer.js:81 | putting a slash-free prefix before a name that has an extension keeps the extension |
| Seqs.Filter | backup.js:84 | `filter` keeps exactly the elements satisfying the predicate and adds none |
| Seqs.FilterCounts | backup.js:84 | `filter` keeps every copy of an element that satisfies the predicate and no copy of any other |
| Seqs.FilterConcat | backup.js:84 | `filter` keeps the order: filtering a concatenation concatenates the filtered parts |
| Seqs.FilterSingle | backup.js:84 | a single element survives `filter` exactly when it satisfies the predicate |
| Seqs.SortByKeyDesc | controllers/homeController.js:11 | `sort({createdAt: -1})` yields a permutation of its input with keys non-increasing |
| Seqs.WindowKeepsOrder | controllers/homeController.js:11 | a `skip`/`limit` window of a sorted sequence is its contiguous slice, sorted, and invents nothing |
| Seqs.Find | backup.js:402 | `find` returns the first element satisfying the predicate, and None exactly when none does |
| Seqs.FindInFilter | backup.js:450-459 | `filter(p).find(q)` picks the same entry as a find on both conditions |
| Seqs.HeadOfFilter | backup.js:450-465 | `filter(p)[0]` is defined exactly when `find(p)` succeeds, and equals it |
| Seqs.RunUntilFailure | backup.js:494-516 | effects run in order, and the run stops right after the first one that throws |
| Seqs.RunStopsAtFailure | backup.js:514-516 | no effect after a failing one is attempted |
| Games.FindById | controllers/adminController.js:213-216 | `findById` finds the first record with that `_id`, and None when none has it |
| Catalogue.BuildQuery | controllers/homeController.js:5-7 | the title filter is present iff search is non-empty, the platform filter iff platform is non-empty, and each carries its text |
| Catalogue.Selected | controllers/homeController.js:11-12 | the games matched are exactly the stored games the query accepts, each with its multiplicity in the collection |
| Catalogue.SelectedConcat | controllers/homeController.js:11-12 | selection keeps storage order: selecting from two stretches of the collection is selecting from each in turn |
| Catalogue.Newest | controllers/homeController.js:11 | the listing is a permutation of the selection, newest first |
| Catalogue.NewestWindow | controllers/homeController.js:9-11 | the page is the sorted selection's slice starting at skip, of length min(limit, what remains), and sorted |
| Catalogue.PaginatedGames | controllers/homeController.js:4-17 | a negative skip is refused. Otherwise the page holds at most 10 matching games, newest first, from position (page-1)*10, and totalPages*10 is the least multiple of 10 covering the count |
| Catalogue.GetHome | controllers/homeController.js:20-58 | the page number is `parseInt \|\| 1`. A valid page shows the page-th run of 10 selected games, newest first, with a page count that covers the selection with no page to spare; a page below 1 renders the 500 page |
| Catalogue.GetAllGames | controllers/homeController.js:62-102 | renders the same listing as the home page for the same request |
| Catalogue.SearchGames | controllers/homeController.js:106-145 | the shown search text is `search`, else `q`, else empty; with `search` present it renders the home listing; a valid page shows the page-th run of 10 selected games, newest first |
| Catalogue.PageNumber | controllers/homeController.js:24 | the page is never 0: an absent or zero number becomes 1 and any other number is kept |
| Catalogue.PageDefaulting | controllers/homeController.js:24 | a missing, non-numeric or zero page becomes page 1, and any other number is kept |
| Catalogue.UnfilteredSelectsAll | controllers/homeController.js:5-7 | with no search and no platform, every stored game is selected |
| GameManagement.GetGames | controllers/gameController.js:5-32 | page and limit default to 1 and 10. A negative skip is an error. Otherwise the games are the newest-first slice at (page-1)*limit of length at most \|limit\|, and totalPages is ceil(total/limit) |
| GameManagement.SearchMatches | controllers/gameController.js:173-178 | a game matches iff q matches its title, description or genre |
| GameManagement.SearchGames | controllers/gameController.js:170-192 | at most 10 matching games, a prefix of all matches, and all of them when fewer than 10 match |
| GameManagement.BasicFields | controllers/gameController.js:46-59 | the eight body fields are kept and the five fields `createGame` does not read are empty |
| GameManagement.PublicUrls | controllers/gameController.js:57-58 | every capture path becomes its public URL, in order |
| GameManagement.CreateGame | controllers/gameController.js:44-78 | a game is created iff an image was uploaded, the four required form fields and the image's public URL are non-empty (models/Game.js:4-8), and the save succeeds. Its media are the public URLs, and no captures field means []. On failure every uploaded file is deleted |
| GameManagement.UpdateGame | controllers/gameController.js:103-144 | an unknown id changes nothing. The record is updated iff files were sent, the save succeeds and the revised record passes the `required` validators (models/Game.js:4-8): four filled form fields and a non-empty image URL, new or kept. Then only that record changes: the eight fields are overwritten, and the image and captures are replaced by the public URLs of the new uploads only when there are any. The old image and old captures are deleted from disk before the save, so they are gone even when the save fails or is refused |
| GameManagement.OnDiskUndoesPublicUrl | controllers/gameController.js:124-126 | the disk path an update deletes, `public` + URL, is the path the URL was made from |
| GameManagement.ReplacedFiles | controllers/gameController.js:123-134 | the files deleted before the save: the old image (first) exactly when a new image came, then every old capture in order exactly when new captures came, and nothing else |
| GameManagement.ReplacedFilesAreUploads | controllers/gameController.js:57-58 | deleting the media of a game built from uploads under `public/` removes exactly those upload paths, in order |
| GameManagement.SecondUpdateRemovesFirstUploads | controllers/gameController.js:123-134 | after one saved update with new files (its required fields filled), a second update with new files deletes exactly the files the first one uploaded |
| GameManagement.PublicUrl | controllers/gameController.js:57 | a path without `public` is its own URL, and a path starting with `public` loses exactly that prefix |
| GameManagement.PublicUrlRemovesFirstPublic | controllers/gameController.js:57 | `replace('public', '')` removes only the first occurrence, and a path without one is unchanged |
| GameManagement.PublicUrlExample | controllers/gameController.js:57 | `public/uploads/cover.png` is stored as `/uploads/cover.png` |
| GameDetail.FindBySlugIn | controllers/gameDetailController.js:5-6 | the first game with that slug, or None when no game has it |
| GameDetail.Candidates | controllers/gameDetailController.js:9-12 | the candidates are exactly the stored games on the same platform with another id |
| GameDetail.Recommendations | controllers/gameDetailController.js:9-14 | at most 6 games, all on the same platform and none the game itself, newest first: the first min(6, candidates) of the sorted candidates |
| GameDetail.SeoFor | controllers/gameDetailController.js:16-33 | the canonical URL is `/games/` + slug, the first keyword is the lower-cased title, and the og image is the game's image |
| GameDetail.CanonicalUrlLeadsBack | controllers/gameDetailController.js:3-33 | requesting the slug of a stored game whose slug no earlier game has shows that game, and its canonical URL is `/games/` followed by that same slug |
| GameDetail.FirstKeywordIsLowercase | controllers/gameDetailController.js:20 | the first keyword is already lower case and as long as the title |
| GameDetail.GetGameBySlug | controllers/gameDetailController.js:3-58 | an unknown slug answers 404 after the one lookup and no recommendation query. Otherwise the page shows that game and its recommendations |
| GameDetail.RecommendationsAreNewest | controllers/gameDetailController.js:13-14 | a candidate left out is no newer than any recommended game, and with fewer than 6 candidates all are recommended |
| AdminPanel.Login | controllers/adminController.js:24-68 | an empty field re-renders the form with no credential check. The password is compared iff the user name matches. A session cookie and redirect come only after a passing comparison |
| AdminPanel.AssetUrls | controllers/adminController.js:137-138 | every capture URL is the asset prefix + its object key, in upload order |
| AdminPanel.UploadGame | controllers/adminController.js:98-173 | a missing image or zero captures fails. An empty title, description or platform gives 400 with no save. A game is saved iff the files are there, the form's four required fields (models/Game.js:4-8; the image URL is never empty) are filled and the save succeeds; any other case is 500. A saved game satisfies every `required` validator and holds the form and the asset URLs of its files, in order |
| AdminPanel.EditGame | controllers/adminController.js:195-239 | an unknown id, a failed save, or a save the `required` validators refuse (models/Game.js:4-8: an empty required form field, or an empty stored image URL) changes nothing. A record is edited iff none of these happens. Then exactly that record gets the 13 form fields and updatedAt, stays schema-valid, and every other record is untouched |
| AdminPanel.KeyOf | controllers/adminController.js:294 | `pathname.slice(1)` drops the leading character: an empty pathname gives the empty key, and otherwise that character followed by the key is the pathname |
| AdminPanel.CaptureKeys | controllers/adminController.js:298-308 | capture URLs that fail to parse are dropped, so there are never more keys than URLs. When all parse, the i-th key is the i-th URL's pathname without `/` |
| AdminPanel.CaptureKeysSound | controllers/adminController.js:298-308 | every capture key is the key of some capture URL that parses |
| AdminPanel.CaptureKeysFollowParsedUrls | controllers/adminController.js:298-308 | the i-th capture key is the key of the i-th capture URL that parses: none is skipped and the order is kept |
| AdminPanel.CaptureKeysComplete | controllers/adminController.js:298-308 | every capture URL that parses contributes its key |
| AdminPanel.DeriveKeys | controllers/adminController.js:292-315 | the image key is the pathname without `/`. A main URL that fails to parse throws past the capture step and yields no keys |
| AdminPanel.StorageCalls | controllers/adminController.js:318-351 | every call, to the configured bucket, is either the delete of the image key or the batch delete of the capture keys, and no call is issued twice. The image is deleted iff its key is non-empty, and first; a throwing image delete leaves it the only call; the captures are batch-deleted iff there are some and the image delete did not throw |
| AdminPanel.RemoveAt | controllers/adminController.js:354 | the collection without the deleted record, others in order |
| AdminPanel.DeleteGame | controllers/adminController.js:266-372 | an unknown id or no bucket variable deletes nothing. Otherwise the storage calls are made and the record is removed iff the database deletion succeeds |
| AdminPanel.StorageFailureStillDeletesRecord | controllers/adminController.js:347-354 | a failing storage delete does not keep the record: the collection afterwards is the same as when storage succeeds |
| AdminPanel.UploadThenDeleteTargetsSameObjects | controllers/adminController.js:135-138 | for URL-safe keys, deleting a freshly uploaded game deletes exactly the object keys it was built from |
| AdminPanel.SpacedKeyMissesObject | controllers/adminController.js:292-296 | an image key holding a space is deleted under its percent-encoded form, which is a different key |
| UploadPolicy.FileFilter | middlewares/multer.js:86-98 | a non-image MIME type is refused before the extension is looked at. An image is accepted iff its lower-cased extension is .jpg, .jpeg, .png or .gif, and a refusal names that extension |
| UploadPolicy.ObjectKey | middlewares/multer.js:80-83 | the key is the decimal timestamp, a dash, then the original name, so it ends with that name |
| UploadPolicy.NameOfKey | middlewares/multer.js:81 | reads a key back: what follows its first dash, or None when it has no dash |
| UploadPolicy.KeyNameRoundTrip | middlewares/multer.js:80-83 | reading a key back gives the original name exactly |
| UploadPolicy.ObjectKeyKeepsSlashFree | middlewares/multer.js:81 | a key holds a slash only if the original name does |
| UploadPolicy.IsDangerousFile | middlewares/uploads.js:4-9 | a path is dangerous iff it ends with one of the eleven listed extensions |
| UploadPolicy.EndsWithAny | middlewares/uploads.js:4-9 | a path is dangerous iff it ends with one of the listed suffixes, compared exactly |
| UploadPolicy.SetHeaders | middlewares/uploads.js:12-16 | a dangerous path is answered as text/plain, and any other keeps its content type |
| UploadPolicy.FilterIgnoresNameCase | middlewares/multer.js:91 | lowercasing the file name never changes the filter's decision |
| UploadPolicy.LegacyCheckIsSubsumed | app.js:110-116 | every path the older `.js`/`.php` check forced to text is dangerous under the newer list |
| UploadPolicy.HtmlOnlyCoveredByNewerList | middlewares/uploads.js:5-7 | `page.html` is forced to text by the newer list and not by the older check |
| UploadPolicy.FilterAcceptsMixedCase | middlewares/multer.js:87-96 | `Cover.PNG` as image/png is accepted; a `.png` name sent as text/html is refused as not an image |
| UploadPolicy.FilterRefusesScript | middlewares/multer.js:91-93 | an image MIME type with a `.php` name is refused for its extension |
| UploadPolicy.FilterRefusesDotFile | middlewares/multer.js:91-93 | a name such as `.png` has no extension and is refused |
| UploadPolicy.UpperCaseScriptNotDangerous | middlewares/uploads.js:8 | the suffix test is case-sensitive: `evil.JS` is not dangerous |
| UploadPolicy.SizeLimitBoundary | middlewares/multer.js:85 | the limit is 5 MiB: exactly 5242880 bytes passes and one byte more does not |
| UploadValidation.FirstOversized | public/js/upload-validation.js:31-40 | the first capture over 5 MiB (every earlier one fits), or None when all fit |
| UploadValidation.Validate | public/js/upload-validation.js:12-40 | image size, then capture count (more than 5), then capture sizes. Only the first failure is reported, a missing image passes, and the form proceeds iff all pass |
| UploadValidation.Effect | public/js/upload-validation.js:15-43 | submission is prevented iff a check failed, and the button is disabled iff it was not |
| UploadValidation.ClientCheckImpliesServerLimit | public/js/upload-validation.js:12-40 | a form the page lets through sends no file over the server's limit and at most 5 captures |
| UploadValidation.CheckOrder | public/js/upload-validation.js:12-28 | an oversized image is reported even with too many captures; without an image, too many captures are reported |
| ReportQuota.CanSubmit | public/js/reports.js:55-66 | another day or nothing stored always allows. On the same day it allows iff fewer than 3 were sent |
| ReportQuota.Register | public/js/reports.js:69-81 | a new day (or nothing stored) restarts at {today, 1}, and the same day adds exactly one |
| ReportQuota.Submit | public/js/reports.js:3-52 | quota first, then the two required fields. Only a complete report within quota is posted and registered, even when sending fails |
| ReportQuota.Allowance | public/js/reports.js:55-66 | what remains of the day's quota lies between 0 and 3 |
| ReportQuota.SubmitConsumesAllowance | public/js/reports.js:6-27 | a complete submission uses one unit of the allowance if any remains, and is refused without change otherwise |
| ReportQuota.AtMostThreePerDay | public/js/reports.js:6-81 | from any well-formed state, a day's attempts, each with its own report and server answer, post exactly min(complete reports, remaining allowance) of them, so never more than 3; incomplete reports consume nothing |
| ReportQuota.IncompleteReportKeepsQuota | public/js/reports.js:21-25 | a report with an empty game name costs no quota and posts nothing |
| ReportRoute.BuildEmbed | routes/report.routes.js:11-19 | the title is the prefix + game name. The fields are, in order, Enlace roto, Notas (the note or `Ninguna`) and Fecha, and the color is 0xe74c3c |
| ReportRoute.HandleReport | routes/report.routes.js:4-32 | a missing field gives 400 and no webhook call. Otherwise the embed is sent, and the answer is success iff `fetch` resolves, else 500 |
| ReportRoute.PostedReportsReachWebhook | routes/report.routes.js:7-9 | every report the page posts passes the route's required-field check |
| ReportRoute.EmptyNoteShownAsNone | routes/report.routes.js:15 | an empty or absent note is shown as `Ninguna` |
| IpRestriction.ClientIp | middlewares/ipRestriction.js:4-5 | the address is req.ip, else x-forwarded-for, else remoteAddress |
| IpRestriction.Restrict | middlewares/ipRestriction.js:1-16 | next is called iff the cleaned address equals one of the two allowed addresses, and the answer is 403 otherwise |
| IpRestriction.CleanIp | middlewares/ipRestriction.js:8 | an address without `::ffff:` is unchanged, one starting with it loses exactly that prefix, and otherwise only the first occurrence is cut out |
| IpRestriction.MappedFormCleansToPlain | middlewares/ipRestriction.js:8 | an IPv4 address in IPv6-mapped form is cleaned to the plain address and decided identically |
| IpRestriction.EmptyAllowListRefusesAll | middlewares/ipRestriction.js:10-15 | with neither variable set, every request is refused |
| BackupCatalogue.KindOf | backup.js:90 | an entry is MongoDB iff its key contains `mongodb`, and R2 otherwise |
| BackupCatalogue.Entries | backup.js:85-91 | one entry per object, built from it in order |
| BackupCatalogue.ListBackups | backup.js:68-109 | a failed, absent or empty listing gives []. Otherwise the result is a permutation of the `.zip` objects' entries, newest first, each named by its key's basename and typed by its key |
| BackupCatalogue.ListBackupsKeepsArchives | backup.js:84 | every `.zip` object of the listing appears in the catalogue |
| BackupCatalogue.ListBackupsInventsNothing | backup.js:84-91 | every catalogue entry comes from a `.zip` object of the listing |
| BackupCatalogue.MongoArchiveIsMongoDB | backup.js:90 | the uploaded database archive is classified MongoDB |
| BackupCatalogue.ObjectStoreArchiveIsR2 | backup.js:90 | the uploaded object-store archive is classified R2 |
| BackupCatalogue.MongoArchiveName | backup.js:608 | the database archive is named `mongodb_`, the date, then `.zip`, with nothing else |
| BackupCatalogue.ObjectStoreArchiveName | backup.js:631 | the object-store archive is named `r2_`, the date, then `.zip`, with nothing else |
| BackupCatalogue.UploadKey | backup.js:713 | an uploaded archive is keyed `backups/` followed by its file name, unchanged |
| BackupCatalogue.ArchiveNamesHaveNoSlash | backup.js:608-631 | archive names for a `YYYY-MM-DD` date are plain file names |
| BackupCatalogue.ArchiveNamesAreBasenames | backup.js:703-713 | each uploaded archive is listed under its own file name |
| BackupCatalogue.ArchiveNamesCarryDate | backup.js:608-631 | both archive names contain the date they were taken on |
| BackupCatalogue.ArchiveKeysAreArchives | backup.js:713 | both uploaded keys end in `.zip`, so the catalogue keeps them |
| BackupCreate.EnsureBucketExists | backup.js:39-65 | the bucket is probed first, and every call names that bucket. It is created only when the probe says it is missing, and it is usable iff it existed or was created |
| BackupCreate.EnsureBucketIsIdempotent | backup.js:39-65 | checking a bucket that an earlier check made usable finds it with one probe and no creation |
| BackupCreate.BackupBucket | backup.js:26 | the backup bucket is `BACKUP_R2_BUCKET` when set, else `R2_BUCKET` |
| BackupCreate.CreateFullBackup | backup.js:773-817 | missing configuration ends the run before any call. Both buckets, and no other, are probed; a bucket is created only when it was missing and its probe answered, and no other bucket comes to exist. Steps run iff the source bucket and the backup bucket each answer the probe and either exist or are created. A run completes iff steps ran and none of them throws, and then it has made every step |
| BackupCreate.CheckBothBuckets | backup.js:789-795 | the source bucket is probed first and the backup bucket is probed too. The backup may proceed iff each bucket answers its probe and exists or is created (a backup bucket equal to the source counts as created). Only those two buckets are touched, a bucket is created only if it was missing and its probe answered, and no other bucket comes to exist |
| BackupCreate.ProbesStayOnBothBuckets | backup.js:789-791 | checking the source bucket, then the backup bucket, touches only those two, creates only a missing bucket whose probe answered, and adds no bucket but those two |
| BackupCreate.ArchivedKeys | backup.js:651-675 | the archive holds exactly the listed keys whose download succeeded; a failed download skips the object |
| BackupCreate.CleanOldBackups | backup.js:745-770 | a missing directory removes nothing. Otherwise the removed files are a prefix, in directory order, of the files older than daysToKeep days; a run that removes fewer than all of them stopped at the expired file whose unlink threw, and with no unlink throwing every expired file goes |
| BackupCreate.AgeTestInDays | backup.js:756-758 | the integer test `age > days*86400000` agrees with the source's real division by the length of a day |
| BackupCreate.DefaultWeekExample | backup.js:745-761 | with the default week, files 3, 7, 8 and 10 days old lose the 8 and 10 day ones (strict >) |
| BackupCreate.ExampleExpired | backup.js:756-758 | of files 3, 7, 8 and 10 days old, only the 8 and 10 day ones are past a week |
| BackupCreate.CompletedRunUploadsBothArchives | backup.js:801-806 | a completed run uploads `backups/mongodb_<date>.zip` and `backups/r2_<date>.zip` into the backup bucket |
| BackupCreate.PlannedUploads | backup.js:703-713 | each upload is keyed by its archive's own name under `backups/` |
| BackupCreate.FailedDumpUploadsNothing | backup.js:801-802 | when the dump throws, nothing is uploaded |
| BackupCreate.CompletedRunIsRestorableByDate | backup.js:801-806 | after a completed run, a restore by that date finds both archives |
| BackupDocuments.Normalise | backup.js:189-213 | keys are kept. A string `_id` and every `{$oid}` wrapper become ids when the conversion succeeds and stay as they were otherwise, and every other field is untouched |
| BackupDocuments.CollectionOps | backup.js:182-218 | a collection is cleared first, and its normalised documents are inserted, same count and order, iff there are any |
| BackupDocuments.RefillCollections | backup.js:175-234 | every insert follows the clearing of its own collection |
| BackupDocuments.RefillCoversEveryCollection | backup.js:175-234 | every collection is cleared, every non-empty one is refilled with its own normalised documents, and no other operation is issued |
| BackupDocuments.RefillReachesEveryCollection | backup.js:175-218 | no collection of `backup.json` is skipped: each is cleared, and each non-empty one gets its documents |
| BackupDocuments.RefillIssuesNothingElse | backup.js:175-218 | every operation is the clear or the insert of some collection of the file |
| BackupDocuments.RefillConcat | backup.js:175-218 | collections are handled one after the other in the file's order |
| BackupDocuments.RefillSingle | backup.js:175-218 | a single collection gets exactly its own clear and insert |
| BackupDocuments.RestoreMongoDB | backup.js:148-259 | `backup.json` chooses the export path. Its operations are exactly the collection-by-collection refill of the file: every collection is cleared, each non-empty one is refilled with its own normalised documents, nothing else is issued, and as many documents are inserted as the file holds. Otherwise mongorestore runs on the extracted directory |
| BackupDocuments.RefillUntilFailure | backup.js:175-234 | the operations attempted are a prefix of the refill in order; none but the last failed, a refill that stops short stops at a failing operation, and the whole refill runs iff none before the last fails |
| BackupDocuments.PartialRefillClearsFirst | backup.js:182-218 | however early a refill stops, every insert it attempted was preceded by the clearing of its own collection |
| BackupDocuments.RefillPreservesCount | backup.js:175-218 | the refill inserts as many documents as `backup.json` holds |
| BackupDocuments.InsertedCountConcat | backup.js:175-218 | inserted counts add up across collections |
| BackupDocuments.NormaliseIsIdempotent | backup.js:189-213 | normalising twice changes nothing more |
| BackupDocuments.ExportKeepsIds | backup.js:189-197 | through the export file and back, an ObjectId `_id` is restored as the same id |
| BackupDocuments.ExportTurnsDatesIntoText | backup.js:594-602 | through the export file and back, a Date field comes back as its ISO text, not a Date |
| BackupRestore.RestoreSteps | backup.js:414-425 | download, the one restore matching the entry's type, then removal of the copy |
| BackupRestore.RestoreFromBackup | backup.js:384-432 | an empty catalogue or an unknown name aborts with no effect. With no name the newest entry is restored, and with a name the entry of that name |
| BackupRestore.SelectOfKind | backup.js:450-485 | with a name, the first entry of that kind with that name; without one, the first entry of that kind |
| BackupRestore.RestoreComplete | backup.js:435-518 | both selections are made before any effect, and a missing one aborts with no effect. Otherwise the database download and restore run strictly before the object-store ones |
| BackupRestore.RestoreFromDate | backup.js:521-554 | aborts unless there is both a MongoDB and an R2 entry whose name contains the date; otherwise it is `restoreComplete` with those two names |
| BackupRestore.Run | backup.js:514-516 | an aborted plan does nothing. A plan runs in order: no attempted effect but the last failed, a run that stops short ends with the effect that failed, and the whole plan runs iff none before the last fails |
| BackupRestore.CatalogueNamesAreTruthy | backup.js:456-473 | every catalogue name is non-empty, so a name passed on is taken as given |
| BackupRestore.RestoreCompleteTakesNewest | backup.js:465-480 | without names, the newest backup of each kind is restored |
| BackupRestore.FirstOfKindIsNewest | backup.js:449-465 | in the newest-first catalogue, the first entry of a kind is at least as new as every entry of that kind |
| BackupRestore.RestoreFromDateDelegates | backup.js:528-549 | the date restore runs the same plan as `restoreComplete` with the two entries found |
| BackupRestore.DatabaseFailureStopsRestore | backup.js:494-508 | when a database step fails, no object-store restore is attempted |
| BackupRestore.DatabaseStepsComeFirst | backup.js:496-506 | a failure among the first three steps stops the run before any object-store step |
| BackupRestore.DayArchivesListed | backup.js:84-91 | after a day's backup, the listing holds a MongoDB entry and an R2 entry whose names contain that date |
| BackupRestore.BackupThenRestoreByDate | backup.js:528-549 | a listing holding that day's two archives lets the date restore proceed |
| ObjectStoreRestore.TypeOfExtension | backup.js:349-364 | an extension outside the table maps to application/octet-stream, and a listed one to the table's own entry, never the default |
| ObjectStoreRestore.GetContentType | backup.js:347-365 | a file gets the octet-stream default exactly when its lower-cased extension is not in the table, and otherwise the table's entry for that extension |
| ObjectStoreRestore.ContentTypeIgnoresCase | backup.js:348 | the lookup ignores the case of the file name |
| ObjectStoreRestore.JpgIsJpeg | backup.js:350 | `.jpg` maps to image/jpeg |
| ObjectStoreRestore.JpegIsJpeg | backup.js:351 | `.jpeg` maps to image/jpeg |
| ObjectStoreRestore.UpperCaseJpeg | backup.js:348-350 | `COVER.JPG` maps to image/jpeg |
| ObjectStoreRestore.NoExtensionIsOctetStream | backup.js:364 | a file with no extension is sent as application/octet-stream |
| ObjectStoreRestore.AllowedExtensionsAreImages | backup.js:350-353 | every extension the upload filter accepts has an image type in the table |
| ObjectStoreRestore.ExtensionSurvivesStorage | backup.js:348 | the extension of an extracted stored object is the uploaded name's extension |
| ObjectStoreRestore.UploadedImageRestoredAsImage | backup.js:319-325 | an image the upload filter accepted is put back with an `image/` content type |
| ObjectStoreRestore.NormaliseSeparators | backup.js:315 | every backslash becomes a slash and nothing else changes |
| ObjectStoreRestore.DeleteCalls | backup.js:276-304 | at most one batch delete per listing page, each non-empty and sent to the restored bucket; together they name every listed key, page after page |
| ObjectStoreRestore.DeleteCallsFollowNonEmptyPages | backup.js:276-304 | one batch delete per non-empty page and none for an empty one: the i-th batch names exactly the keys of the i-th non-empty page |
| ObjectStoreRestore.PutCalls | backup.js:308-334 | one put per extracted file, in order, keyed by its path with separators normalised and reading that file |
| ObjectStoreRestore.RestoreObjectStore | backup.js:262-344 | the calls begin with exactly the page-by-page batch deletes of the listed keys, sent to the restored bucket, and only then is each extracted file put back once |
| ObjectStoreRestore.RunRestore | backup.js:340-343 | the calls run in order. None attempted but the last failed, a restore that stops short ends with the call that failed, and every call is made iff none before the last fails |
| ObjectStoreRestore.BatchKeysConcat | backup.js:276-304 | the deleted keys of two call sequences add up |
| ObjectStoreRestore.NoBatchKeysInPuts | backup.js:311-334 | puts delete nothing |
| ObjectStoreRestore.PutKeys | backup.js:311-326 | the restore puts a key iff it is the normalised path of an extracted file |
| ObjectStoreRestore.CallAt | backup.js:276-334 | each call is a batch delete before the puts begin, and the put of its file after |
| ObjectStoreRestore.RestorePutsArchivedKeys | backup.js:311-326 | the restore puts back exactly the keys the backup archived |
| ObjectStoreRestore.PutKeyIsArchived | backup.js:311-326 | a key is put back iff the backup archived it |
| ObjectStoreRestore.PlainKeyUnchanged | backup.js:315 | an archived key without backslashes is its own normalised path |

## Left out

- I/O is not modelled. This covers the S3/R2 SDK calls, `execSync` of mongodump and mongorestore, zip and unzip (archiver, unzipper), `fs` reads and writes, console output, Express wiring, JWT signing and bcrypt. Each outcome that matters is a parameter: whether a probe, save, download or call fails, and what a parser returns. A restore or backup is a list of effects, not their execution.
- The archive round trip (zip, then unzip) belongs to the libraries. The object-store restore takes the extracted file list as given.
- `getAllFiles`' walk order and `path.join`/`path.relative` normalisation are not modelled. The extracted files are a given sequence of relative paths.
- The CLI `process.argv` dispatch, `process.exit`, `debugDatabase` and `downloadBackup` are not modelled; they are process control, console output and I/O only.
- `rmSync` and `unlinkSync` of the temporary copies are modelled only as the `RemoveLocal` effect, not as file system state.
- listBackups reads a single `ListObjectsV2` page, as the source does; the continuation token is ignored there. Modification times are integer milliseconds.
- BackupCatalogue.ListBackups: the source sorts on the `toLocaleString()` text re-parsed by `new Date`. The model sorts on the object's modification time, which is the intended order; locale formatting is not modelled. The size in MB (`toFixed(2)`) is not modelled, so entries carry the byte size.
- BackupCreate.CleanOldBackups: the floating-point day computation is replaced by the integer test `age > daysToKeep * 86400000`, which AgeTestInDays proves equal to the source's real division. Dates come from `new Date()`, so they are parameters. `IsDateText` describes the `YYYY-MM-DD` form that `toISOString().split('T')[0]` yields.
- BackupCreate.CreateFullBackup: each archive's date is a parameter of its own, because the two `new Date()` calls may fall on different days. Only the end-to-end lemma assumes they agree.
- BackupRestore.RestoreFromDate: the source lists the bucket again inside `restoreComplete`. The model passes the same listing to both selections, so a bucket changing between the two listings is not modelled.
- AdminPanel.DeleteGame: `deleteOne` answering `deletedCount === 0` and `deleteOne` throwing are both folded into `dbOk` = false; either way the record stays and the redirect carries an error.
- AdminPanel.Login: the user name match, the bcrypt outcome and the presence of `JWT_SECRET` are inputs. Token contents and the expiry inside the JWT are not modelled.
- MongoDB `$regex` matching is a parameter `(pattern, text) -> bool`. `new URL(...).pathname` and `new ObjectId(...)` are partial functions passed in.
- `Promise`-level concurrency and the uniqueness of `Date.now()` keys are not modelled.
- ReportQuota.AtMostThreePerDay: the stored record is assumed well-formed (a count of at least zero). `localStorage` holding arbitrary JSON is not modelled.
- ReportRoute.HandleReport: `fetch` resolves on an HTTP error status, so only a thrown `fetch` gives 500, exactly as in the source. The Discord response body is not modelled.
- AdminPanel.UploadThenDeleteTargetsSameObjects: the round trip is promised only for URL-safe keys (ASCII letters, digits, `-`, `_`, `.`, `~`). The key is `${Date.now()}-${originalname}`, and `new URL` rewrites spaces, non-ASCII letters, `#`, `?` and `\` in a path, so for such names the delete targets another key. SpacedKeyMissesObject shows this for a space.
- GameDetail.SeoFor: the first keyword is lowered with the ASCII-only `ToLower`; `toLowerCase` also lowers non-ASCII letters (`Á` to `á`), which the model leaves as they are.
- Catalogue.GetHome, Catalogue.GetAllGames, Catalogue.SearchGames: an invalid `$regex` pattern makes the query throw, and the handler renders the 500 page. Regex matching is a total parameter, so that error path is not modelled.
- A malformed id makes `findById` throw a CastError, which takes the handler's catch branch. Ids are modelled as numbers that are always well-formed, so that branch is reached only through the failure parameters (e.g. `saveOk`).
- Text.ToLower: lowercasing is ASCII-only. Non-ASCII case mappings of `toLowerCase` are not modelled, and none of the extensions or suffixes compared contains such a character.
- Games.SchemaValid: only the `required` validators of models/Game.js:4-8 are modelled, with an absent field written as the empty string. The `String` cast of non-string values and the `createdAt` default are not modelled; `createdAt` is a parameter.
- models/Game.js declares six fields; the controllers read and write more. The `Game` record carries every field the controllers use, and `slug` is optional since nothing in the modelled code assigns it.
- `gameController.deleteGame` and the render-only handlers (`showLogin`, `logout`, `getPanel`, the upload and edit form pages) are not modelled. They have no decision logic beyond a lookup that is already modelled.
- public/js/login.js and public/js/panel.js (DOM glue), the rate limiter, the S3 client configuration and the instrumentation file are not part of this model.
- BackupDocuments.RestoreMongoDB: after each `insertMany` the source reads `countDocuments()` and `find({}).limit(3)` for its log. Either read can throw and end the restore at that collection. The model treats these reads as never failing; only the clear and insert operations carry a failure.
- BackupDocuments.RestoreMongoDB: `insertMany` with `ordered: false` that throws (a duplicate key, say) may already have inserted part of its batch. The model treats each operation as a whole: RefillUntilFailure records which operations were attempted, not how many documents a failing one left behind.
- Seqs.SortByKeyDesc: games sharing a `createdAt` keep their storage order. MongoDB does not promise any order among equal sort keys, so the model fixes one of the orders the database may return, and Catalogue.Newest, GameManagement.GetGames and GameDetail.Recommendations inherit that choice.
- BackupDocuments.ExportTurnsDatesIntoText records a property of the fallback export rather than a defect: JSON turns Date fields into ISO text, and the restore does not convert them back.

=== FILE: admin.dfy ===
/** The administrator's handlers (controllers/adminController.js): login, and
    upload / edit / delete of games whose images are objects in the asset
    bucket. Password hashing, token signing, the database and the object store
    are parameters: their answers are inputs to these functions. */
module AdminPanel {
  import opened Js
  import opened Text
  import opened Games
  import Seqs

  /** Public address prefix of the asset bucket. */
  const AssetPrefix: string := "https://assets.pixelrushgames.xyz/"
  const OneDayMs: int := 24 * 60 * 60 * 1000
  const PanelPath: string := "/admin/panel"

  // ---------------------------------------------------------------------------
  // Login

  /** What `bcrypt.compare` does: resolve to true or false, or reject. */
  datatype PasswordCheck = PasswordMatches | PasswordMismatch | CompareError

  datatype Cookie = Cookie(name: string, token: string, httpOnly: bool, secure: bool, maxAge: int)

  datatype LoginOutcome =
    | MissingCredentials
    | WrongCredentials
    | LoggedIn(cookie: Cookie, redirect: string)
    | LoginServerError

  /** The outcome, and whether the password was compared at all. */
  datatype LoginResult = LoginResult(comparedPassword: bool, outcome: LoginOutcome)

  /** Environment the login reads: `ADMIN_USERNAME`, `JWT_SECRET`, and
      whether `NODE_ENV` is `production`. */
  datatype AdminEnv = AdminEnv(adminUsername: Option<string>, jwtSecret: Option<string>, production: bool)

  /** `login`: empty fields re-render the form before any check; the password
      is compared only when the user name matches (the `||` short-circuits);
      success sets an http-only `jwt` cookie for one day and redirects to the
      panel. `token` is what `jwt.sign` returns. */
  function Login(username: Option<string>, password: Option<string>, env: AdminEnv,
                 check: PasswordCheck, token: string): (r: LoginResult)
    ensures !Truthy(username) || !Truthy(password) ==> r == LoginResult(false, MissingCredentials)
    ensures r.comparedPassword <==> Truthy(username) && Truthy(password) && username == env.adminUsername
    ensures r.outcome.LoggedIn? <==>
      Truthy(username) && Truthy(password) && username == env.adminUsername
      && check == PasswordMatches && env.jwtSecret.Some?
    ensures r.outcome.LoggedIn? ==>
      && r.outcome.redirect == PanelPath
      && r.outcome.cookie == Cookie("jwt", token, true, env.production, OneDayMs)
  {
    if !Truthy(username) || !Truthy(password) then LoginResult(false, MissingCredentials)
    else if username != env.adminUsername then LoginResult(false, WrongCredentials)
    else match check
      case CompareError => LoginResult(true, LoginServerError)
      case PasswordMismatch => LoginResult(true, WrongCredentials)
      case PasswordMatches =>
        if env.jwtSecret.None? then LoginResult(true, LoginServerError)
        else LoginResult(true, LoggedIn(Cookie("jwt", token, true, env.production, OneDayMs), PanelPath))
  }

  // ---------------------------------------------------------------------------
  // Upload

  /** A file multer-s3 stored: its object key. */
  datatype StoredUpload = StoredUpload(key: string)

  /** The `image` and `captures` fields of `req.files`, each possibly absent. */
  datatype UploadFields = UploadFields(image: Option<seq<StoredUpload>>, captures: Option<seq<StoredUpload>>)

  datatype UploadOutcome =
    | UploadFailed       // 500: a thrown error, including a missing image or no captures
    | MissingFields      // 400: title, description or platform empty; nothing saved
    | Uploaded(game: Game)

  /** The public address of an object. */
  function AssetUrl(key: string): string {
    AssetPrefix + key
  }

  function AssetUrls(files: seq<StoredUpload>): (r: seq<string>)
    ensures |r| == |files|
    ensures forall i :: 0 <= i < |files| ==> r[i] == AssetUrl(files[i].key)
  {
    seq(|files|, i requires 0 <= i < |files| => AssetUrl(files[i].key))
  }

  function KeysOf(files: seq<StoredUpload>): (r: seq<string>)
    ensures |r| == |files|
    ensures forall i :: 0 <= i < |files| ==> r[i] == files[i].key
  {
    seq(|files|, i requires 0 <= i < |files| => files[i].key)
  }

  predicate HasImage(files: Option<UploadFields>) {
    files.Some? && files.value.image.Some? && |files.value.image.value| > 0
  }

  predicate HasCaptures(files: Option<UploadFields>) {
    files.Some? && files.value.captures.Some? && |files.value.captures.value| > 0
  }

  /** `uploadGame`: the file checks run first (and throw, so they answer 500),
      then the three fields the handler checks itself (400). The schema's
      `required` validators then reject an empty download link, and a
      rejected or failed save also answers 500. The saved game points at the
      asset addresses of its image and captures, in upload order. */
  function UploadGame(files: Option<UploadFields>, form: GameForm, id: nat, now: int, saveOk: bool): (r: UploadOutcome)
    ensures !HasImage(files) || !HasCaptures(files) ==> r.UploadFailed?
    ensures r.MissingFields? <==>
      HasImage(files) && HasCaptures(files) && (form.title == "" || form.description == "" || form.platform == "")
    ensures r.Uploaded? <==>
      HasImage(files) && HasCaptures(files) && RequiredFieldsFilled(form) && saveOk
    ensures r.Uploaded? ==>
      && SchemaValid(r.game)
      && FormOf(r.game) == form && r.game.id == id && r.game.createdAt == now
      && r.game.imageUrl == AssetUrl(files.value.image.value[0].key)
      && |r.game.captures| == |files.value.captures.value|
      && forall i :: 0 <= i < |r.game.captures| ==>
           r.game.captures[i] == AssetUrl(files.value.captures.value[i].key)
  {
    if !HasImage(files) || !HasCaptures(files) then UploadFailed
    else if form.title == "" || form.description == "" || form.platform == "" then MissingFields
    else
      var g := NewGame(id, form, AssetUrl(files.value.image.value[0].key),
                       AssetUrls(files.value.captures.value), now);
      if !saveOk || !SchemaValid(g) then UploadFailed else Uploaded(g)
  }

  // ---------------------------------------------------------------------------
  // Edit

  datatype EditStatus = Edited | EditNotFound | EditFailed

  /** The game after `editGame` assigned its thirteen form fields and `updatedAt`. */
  function WithEdits(g: Game, f: GameForm, now: int): Game {
    g.(title := f.title, description := f.description, platform := f.platform, genre := f.genre,
       langText := f.langText, langVoices := f.langVoices, fileSize := f.fileSize,
       downloadLink := f.downloadLink, minRequirements := f.minRequirements,
       recRequirements := f.recRequirements, releaseDate := f.releaseDate,
       lastUpdate := f.lastUpdate, details := f.details, updatedAt := Some(now))
  }

  /** `editGame`: an unknown id changes nothing, and neither does a save the
      schema's `required` validators reject (an empty title, description,
      platform or download link in the form, or an empty stored image
      address) or that fails. Otherwise exactly the thirteen form fields are
      overwritten and `updatedAt` set, while the id, slug, media and creation
      time are kept. */
  function EditGame(store: seq<Game>, id: nat, form: GameForm, now: int, saveOk: bool): (r: (seq<Game>, EditStatus))
    ensures FindById(store, id).None? ==> r == (store, EditNotFound)
    ensures r.1 != Edited ==> r.0 == store
    ensures r.1 == Edited <==>
      FindById(store, id).Some? && saveOk && RequiredFieldsFilled(form)
      && store[FindById(store, id).value].imageUrl != ""
    ensures |r.0| == |store|
    ensures r.1 == Edited ==>
      var k := FindById(store, id).value;
      && (forall j :: 0 <= j < |store| && j != k ==> r.0[j] == store[j])
      && SchemaValid(r.0[k])
      && FormOf(r.0[k]) == form
      && r.0[k].updatedAt == Some(now)
      && r.0[k].id == store[k].id && r.0[k].slug == store[k].slug
      && r.0[k].imageUrl == store[k].imageUrl && r.0[k].captures == store[k].captures
      && r.0[k].createdAt == store[k].createdAt
  {
    match FindById(store, id)
    case None => (store, EditNotFound)
    case Some(k) =>
      var edited := WithEdits(store[k], form, now);
      if !saveOk || !SchemaValid(edited) then (store, EditFailed)
      else (store[k := edited], Edited)
  }

  // ---------------------------------------------------------------------------
  // Delete

  /** `new URL(u).pathname`, or None when the constructor throws. */
  type UrlParser = string -> Option<string>

  datatype StorageCall = DeleteObject(bucket: string, key: string) | DeleteObjects(bucket: string, keys: seq<string>)

  datatype DeleteStatus = Deleted | DeleteNotFound | ConfigError | UnexpectedError

  /** The collection afterwards, the storage calls made in order, and the
      redirect taken. */
  datatype DeleteResult = DeleteResult(store: seq<Game>, calls: seq<StorageCall>, status: DeleteStatus)

  /** The object key behind a URL: its path without the leading `/`. */
  function KeyOf(pathname: string): (k: string)
    ensures |pathname| == 0 ==> k == ""
    ensures |pathname| > 0 ==> [pathname[0]] + k == pathname
  {
    Slice1(pathname)
  }

  /** `new URL(u)` does not throw. */
  function Parses(parse: UrlParser): string -> bool {
    u => parse(u).Some?
  }

  /** Capture keys: URLs that fail to parse are dropped, the rest give
      their keys in order. */
  function CaptureKeys(urls: seq<string>, parse: UrlParser): (r: seq<string>)
    ensures |r| <= |urls|
    ensures (forall i :: 0 <= i < |urls| ==> parse(urls[i]).Some?) ==>
      |r| == |urls| && forall i :: 0 <= i < |urls| ==> r[i] == KeyOf(parse(urls[i]).value)
  {
    if |urls| == 0 then []
    else
      var rest := CaptureKeys(urls[1..], parse);
      match parse(urls[0])
      case None => rest
      case Some(p) => [KeyOf(p)] + rest
  }

  /** `keys` are, one for one and in order, the keys of `urls`, all of
      which parse. */
  predicate KeysFollow(keys: seq<string>, urls: seq<string>, parse: UrlParser) {
    |keys| == |urls| && forall i :: 0 <= i < |urls| ==> parse(urls[i]).Some? && keys[i] == KeyOf(parse(urls[i]).value)
  }

  lemma KeysFollowCons(u: string, keys: seq<string>, urls: seq<string>, parse: UrlParser)
    requires parse(u).Some? && KeysFollow(keys, urls, parse)
    ensures KeysFollow([KeyOf(parse(u).value)] + keys, [u] + urls, parse)
  {
    var k := [KeyOf(parse(u).value)] + keys;
    var v := [u] + urls;
    forall i | 1 <= i < |v|
      ensures parse(v[i]).Some? && k[i] == KeyOf(parse(v[i]).value)
    {
      assert v[i] == urls[i - 1] && k[i] == keys[i - 1];
    }
  }

  /** The i-th capture key is the key of the i-th capture URL that parses:
      no parsing URL is skipped and the order is kept. */
  lemma {:induction false} CaptureKeysFollowParsedUrls(urls: seq<string>, parse: UrlParser)
    ensures KeysFollow(CaptureKeys(urls, parse), Seqs.Filter(urls, Parses(parse)), parse)
  {
    if |urls| > 0 {
      var u := urls[0];
      var rest := urls[1..];
      CaptureKeysFollowParsedUrls(rest, parse);
      assert urls == [u] + rest;
      Seqs.FilterCons(u, rest, Parses(parse));
      if parse(u).Some? {
        KeysFollowCons(u, CaptureKeys(rest, parse), Seqs.Filter(rest, Parses(parse)), parse);
      }
    }
  }

  /** Every capture URL that parses contributes its key. */
  lemma CaptureKeysComplete(urls: seq<string>, parse: UrlParser)
    ensures forall i :: 0 <= i < |urls| && parse(urls[i]).Some? ==> KeyOf(parse(urls[i]).value) in CaptureKeys(urls, parse)
  {
    var r := CaptureKeys(urls, parse);
    var f := Seqs.Filter(urls, Parses(parse));
    CaptureKeysFollowParsedUrls(urls, parse);
    forall i | 0 <= i < |urls| && parse(urls[i]).Some?
      ensures KeyOf(parse(urls[i]).value) in r
    {
      assert Parses(parse)(urls[i]);
      assert urls[i] in f;
      var j :| 0 <= j < |f| && f[j] == urls[i];
      assert r[j] == KeyOf(parse(urls[i]).value);
    }
  }

  datatype DerivedKeys = DerivedKeys(image: Option<string>, captures: seq<string>)

  /** Key extraction: a main image URL that fails to parse throws inside the
      shared `try`, so no capture keys are computed either. */
  function DeriveKeys(g: Game, parse: UrlParser): (d: DerivedKeys)
    ensures g.imageUrl != "" && parse(g.imageUrl).None? ==> d == DerivedKeys(None, [])
    ensures g.imageUrl != "" && parse(g.imageUrl).Some? ==> d.image == Some(KeyOf(parse(g.imageUrl).value))
    ensures g.imageUrl == "" ==> d.image.None?
    ensures g.imageUrl == "" || parse(g.imageUrl).Some? ==> d.captures == CaptureKeys(g.captures, parse)
  {
    if g.imageUrl != "" then
      match parse(g.imageUrl)
      case None => DerivedKeys(None, [])
      case Some(p) => DerivedKeys(Some(KeyOf(p)), CaptureKeys(g.captures, parse))
    else DerivedKeys(None, CaptureKeys(g.captures, parse))
  }

  /** The storage calls for the derived keys. A failed call throws and skips
      the rest of the storage block, but not the database deletion. */
  function StorageCalls(bucket: string, d: DerivedKeys, imageDeleteOk: bool): (calls: seq<StorageCall>)
    ensures |calls| <= 2
    ensures forall c :: c in calls ==> c.bucket == bucket
    ensures DeleteObjects(bucket, d.captures) in calls <==>
      |d.captures| > 0 && (d.image.None? || d.image.value == "" || imageDeleteOk)
    ensures d.image.Some? && d.image.value != "" ==> |calls| > 0 && calls[0] == DeleteObject(bucket, d.image.value)
    ensures forall c :: c in calls ==>
      (d.image.Some? && c == DeleteObject(bucket, d.image.value)) || c == DeleteObjects(bucket, d.captures)
    ensures forall c :: c in calls && c.DeleteObject? ==> d.image.Some? && d.image.value != ""
    ensures d.image.Some? && d.image.value != "" && !imageDeleteOk ==> |calls| == 1
    ensures forall i, j :: 0 <= i < j < |calls| ==> calls[i] != calls[j]
  {
    var imageCall := if d.image.Some? && d.image.value != "" then [DeleteObject(bucket, d.image.value)] else [];
    if |imageCall| > 0 && !imageDeleteOk then imageCall
    else imageCall + (if |d.captures| > 0 then [DeleteObjects(bucket, d.captures)] else [])
  }

  /** The collection without position `k`. */
  function RemoveAt(store: seq<Game>, k: nat): (r: seq<Game>)
    requires k < |store|
    ensures |r| == |store| - 1
    ensures forall j :: 0 <= j < k ==> r[j] == store[j]
    ensures forall j :: k <= j < |r| ==> r[j] == store[j + 1]
  {
    store[..k] + store[k + 1..]
  }

  /** `deleteGame`. `bucketVars` are `CLOUDFLARE_R2_BUCKET` and `R2_BUCKET`;
      `imageDeleteOk` is whether the single-object delete succeeds and `dbOk`
      whether the database deletion does. */
  function DeleteGame(store: seq<Game>, id: nat, bucketVars: (Option<string>, Option<string>),
                      parse: UrlParser, imageDeleteOk: bool, dbOk: bool): (r: DeleteResult)
    ensures FindById(store, id).None? ==> r == DeleteResult(store, [], DeleteNotFound)
    ensures FindById(store, id).Some? && !Truthy(Or(bucketVars.0, bucketVars.1)) ==>
      r == DeleteResult(store, [], ConfigError)
    ensures r.status == Deleted <==>
      FindById(store, id).Some? && Truthy(Or(bucketVars.0, bucketVars.1)) && dbOk
    ensures r.status == Deleted ==>
      var k := FindById(store, id).value;
      r.store == RemoveAt(store, k)
    ensures r.status != Deleted ==> r.store == store
    ensures FindById(store, id).Some? && Truthy(Or(bucketVars.0, bucketVars.1)) ==>
      var g := store[FindById(store, id).value];
      r.calls == StorageCalls(Or(bucketVars.0, bucketVars.1).value, DeriveKeys(g, parse), imageDeleteOk)
  {
    match FindById(store, id)
    case None => DeleteResult(store, [], DeleteNotFound)
    case Some(k) =>
      var bucket := Or(bucketVars.0, bucketVars.1);
      if !Truthy(bucket) then DeleteResult(store, [], ConfigError)
      else
        var calls := StorageCalls(bucket.value, DeriveKeys(store[k], parse), imageDeleteOk);
        if dbOk then DeleteResult(RemoveAt(store, k), calls, Deleted)
        else DeleteResult(store, calls, UnexpectedError)
  }

  // ---------------------------------------------------------------------------

  /** A storage failure never keeps the record: with a bucket configured and
      the database answering, the game is gone whatever the object store did. */
  lemma StorageFailureStillDeletesRecord(store: seq<Game>, id: nat, bucketVars: (Option<string>, Option<string>),
                                         parse: UrlParser)
    requires FindById(store, id).Some? && Truthy(Or(bucketVars.0, bucketVars.1))
    ensures DeleteGame(store, id, bucketVars, parse, false, true).store
         == DeleteGame(store, id, bucketVars, parse, true, true).store
    ensures FindById(store, id).value < |store| &&
            DeleteGame(store, id, bucketVars, parse, false, true).store == RemoveAt(store, FindById(store, id).value)
  {
  }

  /** An ASCII letter or digit, or one of `-`, `_`, `.`, `~`. */
  predicate Unreserved(c: char) {
    ('a' <= c <= 'z') || ('A' <= c <= 'Z') || ('0' <= c <= '9') || c == '-' || c == '_' || c == '.' || c == '~'
  }

  /** A key `new URL` leaves unchanged in a path: unreserved characters only,
      not starting with a dot. Spaces, non-ASCII letters, `"`, `<`, `>`,
      `` ` ``, `{`, `}` are percent-encoded, `#` and `?` end the path, and
      `\` becomes `/`. */
  predicate UrlSafe(k: string) {
    && |k| > 0 && k[0] != '.'
    && forall i :: 0 <= i < |k| ==> Unreserved(k[i])
  }

  /** Upload and delete agree on object keys: when the URL parser reads an
      asset address of a URL-safe key back as `/` + key, deleting a freshly
      uploaded game with URL-safe keys asks the store to delete exactly the
      objects it was built from. */
  lemma {:induction false} UploadThenDeleteTargetsSameObjects(
    files: UploadFields, form: GameForm, id: nat, now: int, bucket: string, parse: UrlParser)
    requires HasImage(Some(files)) && HasCaptures(Some(files))
    requires RequiredFieldsFilled(form)
    requires bucket != ""
    requires forall k :: UrlSafe(k) ==> parse(AssetUrl(k)) == Some("/" + k)
    requires UrlSafe(files.image.value[0].key)
    requires forall i :: 0 <= i < |files.captures.value| ==> UrlSafe(files.captures.value[i].key)
    ensures
      var g := UploadGame(Some(files), form, id, now, true).game;
      DeleteGame([g], id, (Some(bucket), None), parse, true, true).calls
        == [DeleteObject(bucket, files.image.value[0].key), DeleteObjects(bucket, KeysOf(files.captures.value))]
  {
    var g := UploadGame(Some(files), form, id, now, true).game;
    var caps := files.captures.value;
    var keys := KeysOf(caps);
    var imageKey := files.image.value[0].key;
    assert g.imageUrl == AssetUrl(imageKey);
    assert KeyOf("/" + imageKey) == imageKey;
    forall i | 0 <= i < |g.captures|
      ensures parse(g.captures[i]).Some? && KeyOf(parse(g.captures[i]).value) == keys[i]
    {
      assert g.captures[i] == AssetUrl(caps[i].key);
      assert KeyOf("/" + caps[i].key) == caps[i].key;
    }
    var ck := CaptureKeys(g.captures, parse);
    assert ck == keys;
    assert FindById([g], id) == Some(0);
    assert DeriveKeys(g, parse) == DerivedKeys(Some(imageKey), keys);
    assert Or(Some(bucket), None) == Some(bucket);
  }

  /** How `new URL` writes spaces of a path: each becomes `%20`. */
  function EncodeSpaces(s: string): (r: string)
    ensures |r| >= |s|
    ensures ' ' in s ==> |r| > |s|
  {
    if |s| == 0 then ""
    else
      assert s == [s[0]] + s[1..];
      (if s[0] == ' ' then "%20" else [s[0]]) + EncodeSpaces(s[1..])
  }

  /** `new URL(u).pathname` for asset addresses, as far as spaces go. */
  function SpaceEncodingParser(u: string): Option<string> {
    if StartsWith(u, AssetPrefix) then Some("/" + EncodeSpaces(u[|AssetPrefix|..])) else None
  }

  /** Outside URL-safe keys the agreement fails: an image uploaded under a
      name with a space (`captura 1.png`) is stored under a key with a
      space, but `deleteGame` asks the store to delete the percent-encoded
      key, so the stored object is left behind. */
  lemma SpacedKeyMissesObject(files: UploadFields, form: GameForm, id: nat, now: int, bucket: string)
    requires HasImage(Some(files)) && HasCaptures(Some(files))
    requires RequiredFieldsFilled(form)
    requires bucket != ""
    requires ' ' in files.image.value[0].key
    ensures
      var g := UploadGame(Some(files), form, id, now, true).game;
      var calls := DeleteGame([g], id, (Some(bucket), None), SpaceEncodingParser, true, true).calls;
      && |calls| > 0 && calls[0].DeleteObject?
      && calls[0].key == EncodeSpaces(files.image.value[0].key)
      && calls[0].key != files.image.value[0].key
  {
    var g := UploadGame(Some(files), form, id, now, true).game;
    var k := files.image.value[0].key;
    assert g.imageUrl == AssetPrefix + k;
    assert (AssetPrefix + k)[..|AssetPrefix|] == AssetPrefix;
    assert (AssetPrefix + k)[|AssetPrefix|..] == k;
    assert SpaceEncodingParser(g.imageUrl) == Some("/" + EncodeSpaces(k));
    assert KeyOf("/" + EncodeSpaces(k)) == EncodeSpaces(k);
    assert FindById([g], id) == Some(0);
    assert Or(Some(bucket), None) == Some(bucket);
  }
}

=== FILE: backup_catalogue.dfy ===
/** The backup catalogue of backup.js: the artifacts a full backup uploads
    (`backups/mongodb_<date>.zip` and `backups/r2_<date>.zip`) and
    `listBackups`, which turns the bucket listing back into typed entries,
    newest first. */
module BackupCatalogue {
  import opened Js
  import opened Text
  import Seqs

  /** The key prefix of every uploaded backup. */
  const KeyPrefix: string := "backups/"
  const ArchiveSuffix: string := ".zip"

  datatype BackupKind = MongoDB | R2

  /** One object of a `ListObjectsV2` answer; `lastModified` in milliseconds. */
  datatype StoredObject = StoredObject(key: string, size: nat, lastModified: int)

  /** The listing call either throws, or answers with `Contents`, which may be
      absent. */
  datatype Listing = ListFailed | Listed(contents: Option<seq<StoredObject>>)

  /** An entry of `listBackups`' result. */
  datatype BackupEntry = BackupEntry(key: string, name: string, size: nat, modified: int, kind: BackupKind)

  /** `obj.Key.includes('mongodb') ? 'MongoDB' : 'R2'`. */
  function KindOf(key: string): (k: BackupKind)
    ensures k == MongoDB <==> Contains(key, "mongodb")
  {
    if Contains(key, "mongodb") then MongoDB else R2
  }

  predicate IsArchive(o: StoredObject) {
    EndsWith(o.key, ArchiveSuffix)
  }

  function EntryOf(o: StoredObject): BackupEntry {
    BackupEntry(o.key, Basename(o.key), o.size, o.lastModified, KindOf(o.key))
  }

  function Modified(e: BackupEntry): int {
    e.modified
  }

  /** What every entry of the catalogue satisfies. */
  predicate WellFormed(e: BackupEntry) {
    EndsWith(e.key, ArchiveSuffix) && e.name == Basename(e.key) && e.kind == KindOf(e.key)
  }

  function Entries(objs: seq<StoredObject>): (r: seq<BackupEntry>)
    ensures |r| == |objs|
    ensures forall i :: 0 <= i < |objs| ==> r[i] == EntryOf(objs[i])
  {
    seq(|objs|, i requires 0 <= i < |objs| => EntryOf(objs[i]))
  }

  /** `listBackups`: the `.zip` objects as entries, sorted newest first; a
      failed, absent or empty listing gives no entries. */
  function ListBackups(listing: Listing): (r: seq<BackupEntry>)
    ensures listing.ListFailed? || listing.contents.None? || |listing.contents.value| == 0 ==> r == []
    ensures listing.Listed? && listing.contents.Some? ==>
      multiset(r) == multiset(Entries(Seqs.Filter(listing.contents.value, IsArchive)))
    ensures Seqs.NonIncreasing(r, Modified)
    ensures forall i :: 0 <= i < |r| ==> WellFormed(r[i])
  {
    if listing.ListFailed? || listing.contents.None? || |listing.contents.value| == 0 then []
    else
      var archives := Seqs.Filter(listing.contents.value, IsArchive);
      var entries := Entries(archives);
      var r := Seqs.SortByKeyDesc(entries, Modified);
      Seqs.SameElements(r, entries);
      assert forall i :: 0 <= i < |r| ==> WellFormed(r[i]) by {
        forall i | 0 <= i < |r|
          ensures WellFormed(r[i])
        {
          assert r[i] in entries;
          var j :| 0 <= j < |entries| && entries[j] == r[i];
          assert IsArchive(archives[j]);
        }
      }
      r
  }

  // ---------------------------------------------------------------------------
  // Artifact names written by `backupMongoDB`, `backupR2` and `uploadToR2`.

  /** `new Date().toISOString().split('T')[0]`: `YYYY-MM-DD`. */
  predicate IsDateText(d: string) {
    && |d| == 10
    && forall i :: 0 <= i < |d| ==> if i == 4 || i == 7 then d[i] == '-' else '0' <= d[i] <= '9'
  }

  /** `mongodb_${date}.zip`: the date can be read back from the name. */
  function MongoArchiveName(date: string): (n: string)
    ensures |n| == |date| + 12
    ensures n[..8] == "mongodb_" && n[8..8 + |date|] == date && n[8 + |date|..] == ArchiveSuffix
  {
    "mongodb_" + date + ArchiveSuffix
  }

  /** `r2_${date}.zip`: the date can be read back from the name. */
  function ObjectStoreArchiveName(date: string): (n: string)
    ensures |n| == |date| + 7
    ensures n[..3] == "r2_" && n[3..3 + |date|] == date && n[3 + |date|..] == ArchiveSuffix
  {
    "r2_" + date + ArchiveSuffix
  }

  /** `backups/${path.basename(filePath)}`. */
  function UploadKey(fileName: string): (k: string)
    ensures StartsWith(k, KeyPrefix) && k[|KeyPrefix|..] == fileName
  {
    KeyPrefix + fileName
  }

  // ---------------------------------------------------------------------------

  /** Every `.zip` object of the listing appears in the catalogue as its
      entry. */
  lemma ListBackupsKeepsArchives(contents: seq<StoredObject>)
    ensures forall i :: 0 <= i < |contents| && IsArchive(contents[i]) ==>
      EntryOf(contents[i]) in ListBackups(Listed(Some(contents)))
  {
    var archives := Seqs.Filter(contents, IsArchive);
    var entries := Entries(archives);
    var r := ListBackups(Listed(Some(contents)));
    assert multiset(r) == multiset(entries);
    forall i | 0 <= i < |contents| && IsArchive(contents[i])
      ensures EntryOf(contents[i]) in r
    {
      var j :| 0 <= j < |archives| && archives[j] == contents[i];
      assert entries[j] in multiset(entries);
    }
  }

  /** Every entry of the catalogue comes from a `.zip` object of the
      listing. */
  lemma ListBackupsInventsNothing(contents: seq<StoredObject>)
    ensures forall e :: e in ListBackups(Listed(Some(contents))) ==>
      exists i :: 0 <= i < |contents| && IsArchive(contents[i]) && e == EntryOf(contents[i])
  {
    var archives := Seqs.Filter(contents, IsArchive);
    var entries := Entries(archives);
    var r := ListBackups(Listed(Some(contents)));
    assert multiset(r) == multiset(entries);
    forall e | e in r
      ensures exists i :: 0 <= i < |contents| && IsArchive(contents[i]) && e == EntryOf(contents[i])
    {
      assert e in multiset(entries);
      var j :| 0 <= j < |entries| && entries[j] == e;
      assert archives[j] in contents;
      var i :| 0 <= i < |contents| && contents[i] == archives[j];
    }
  }

  /** The database archive's key contains `mongodb`. */
  lemma MongoArchiveIsMongoDB(date: string)
    ensures KindOf(UploadKey(MongoArchiveName(date))) == MongoDB
  {
    assert UploadKey(MongoArchiveName(date)) == "backups/" + "mongodb" + ("_" + date + ArchiveSuffix);
    ContainsInfix("backups/", "mongodb", "_" + date + ArchiveSuffix);
  }

  /** The object-store archive's key holds no `m` at all, so it cannot
      contain `mongodb`. */
  lemma ObjectStoreArchiveIsR2(date: string)
    requires IsDateText(date)
    ensures KindOf(UploadKey(ObjectStoreArchiveName(date))) == R2
  {
    var rk := UploadKey(ObjectStoreArchiveName(date));
    assert rk == "backups/r2_" + date + ".zip";
    assert 'm' !in rk by {
      forall j | 0 <= j < |rk|
        ensures rk[j] != 'm'
      {
        if 11 <= j < 21 { assert rk[j] == date[j - 11]; }
      }
    }
    if Contains(rk, "mongodb") {
      OccurrenceCarriesChars(rk, "mongodb", 0);
      assert false;
    }
  }

  /** A date's archive names are plain file names. */
  lemma ArchiveNamesHaveNoSlash(date: string)
    requires IsDateText(date)
    ensures '/' !in MongoArchiveName(date) && '/' !in ObjectStoreArchiveName(date)
  {
    var m := MongoArchiveName(date);
    var r := ObjectStoreArchiveName(date);
    forall j | 0 <= j < |m| ensures m[j] != '/' {
      if 8 <= j < 18 { assert m[j] == date[j - 8]; }
    }
    forall j | 0 <= j < |r| ensures r[j] != '/' {
      if 3 <= j < 13 { assert r[j] == date[j - 3]; }
    }
  }

  /** Each entry is named after the file that was uploaded. */
  lemma ArchiveNamesAreBasenames(date: string)
    requires IsDateText(date)
    ensures Basename(UploadKey(MongoArchiveName(date))) == MongoArchiveName(date)
    ensures Basename(UploadKey(ObjectStoreArchiveName(date))) == ObjectStoreArchiveName(date)
  {
    var m := MongoArchiveName(date);
    var r := ObjectStoreArchiveName(date);
    ArchiveNamesHaveNoSlash(date);
    assert UploadKey(m) == "backups" + "/" + m;
    assert UploadKey(r) == "backups" + "/" + r;
    BasenameOfJoin("backups", m);
    BasenameOfJoin("backups", r);
  }

  /** Both names carry the date. */
  lemma ArchiveNamesCarryDate(date: string)
    ensures Contains(MongoArchiveName(date), date) && Contains(ObjectStoreArchiveName(date), date)
  {
    ContainsInfix("mongodb_", date, ArchiveSuffix);
    ContainsInfix("r2_", date, ArchiveSuffix);
  }

  /** Both uploaded keys end in `.zip`, so the catalogue lists them. */
  lemma ArchiveKeysAreArchives(date: string)
    ensures EndsWith(UploadKey(MongoArchiveName(date)), ArchiveSuffix)
    ensures EndsWith(UploadKey(ObjectStoreArchiveName(date)), ArchiveSuffix)
  {
    var m := MongoArchiveName(date);
    assert m == ("mongodb_" + date) + ArchiveSuffix;
    assert UploadKey(m) == (KeyPrefix + ("mongodb_" + date)) + ArchiveSuffix;
    EndsWithConcat(KeyPrefix + ("mongodb_" + date), ArchiveSuffix);
    var r := ObjectStoreArchiveName(date);
    assert r == ("r2_" + date) + ArchiveSuffix;
    assert UploadKey(r) == (KeyPrefix + ("r2_" + date)) + ArchiveSuffix;
    EndsWithConcat(KeyPrefix + ("r2_" + date), ArchiveSuffix);
  }
}

=== FILE: backup_create.dfy ===
/** Taking a full backup (backup.js): checking or creating both buckets,
    dumping the database, archiving the object store, uploading both archives
    under `backups/` and pruning old local archives. */
module BackupCreate {
  import opened Js
  import opened Text
  import Seqs
  import opened BackupCatalogue
  import Restore = BackupRestore

  /** `BACKUP_PATH` when the variable is unset. */
  const DefaultBackupPath: string := "./backups"
  /** `1000 * 60 * 60 * 24`. */
  const DayMs: int := 86400000
  /** `cleanOldBackups`' default `daysToKeep`. */
  const DefaultDaysToKeep: int := 7

  // ---------------------------------------------------------------------------
  // ensureBucketExists

  datatype BucketCall = HeadBucket(bucket: string) | CreateBucket(bucket: string)

  /** The calls made, whether the bucket is usable, and the buckets that
      exist afterwards. */
  datatype BucketCheck = BucketCheck(calls: seq<BucketCall>, ok: bool, buckets: set<string>)

  /** `ensureBucketExists(name)` against the existing `buckets`. `headFails`
      is a `HeadBucket` error other than `NotFound` (credentials, network);
      `createOk` is whether `CreateBucket` succeeds. */
  function EnsureBucketExists(buckets: set<string>, name: string, headFails: bool, createOk: bool): (r: BucketCheck)
    ensures 1 <= |r.calls| <= 2 && r.calls[0] == HeadBucket(name)
    ensures forall c :: c in r.calls ==> c.bucket == name
    ensures CreateBucket(name) in r.calls <==> !headFails && name !in buckets
    ensures r.ok <==> !headFails && (name in buckets || createOk)
    ensures r.ok ==> name in r.buckets
    ensures r.buckets == if r.ok then buckets + {name} else buckets
  {
    if headFails then BucketCheck([HeadBucket(name)], false, buckets)
    else if name in buckets then BucketCheck([HeadBucket(name)], true, buckets)
    else if createOk then BucketCheck([HeadBucket(name), CreateBucket(name)], true, buckets + {name})
    else BucketCheck([HeadBucket(name), CreateBucket(name)], false, buckets)
  }

  // ---------------------------------------------------------------------------
  // createFullBackup

  /** The variables the script reads; each may be unset or empty. */
  datatype BackupEnv = BackupEnv(
    mongoUri: Option<string>,
    r2Endpoint: Option<string>,
    accessKeyId: Option<string>,
    secretAccessKey: Option<string>,
    r2Bucket: Option<string>,
    backupR2Bucket: Option<string>,
    backupPath: Option<string>)

  /** The five variables whose absence ends the script before anything runs. */
  predicate Configured(env: BackupEnv) {
    && Truthy(env.mongoUri) && Truthy(env.r2Endpoint) && Truthy(env.accessKeyId)
    && Truthy(env.secretAccessKey) && Truthy(env.r2Bucket)
  }

  /** `BACKUP_R2_BUCKET || R2_BUCKET`. */
  function BackupBucket(env: BackupEnv): (b: Option<string>)
    ensures Truthy(env.backupR2Bucket) ==> b == env.backupR2Bucket
    ensures !Truthy(env.backupR2Bucket) ==> b == env.r2Bucket
  {
    Or(env.backupR2Bucket, env.r2Bucket)
  }

  function BackupPath(env: BackupEnv): string {
    OrElse(env.backupPath, DefaultBackupPath)
  }

  /** The steps after the bucket checks; each may throw. */
  datatype Step =
    | DumpDatabase(dir: string)                        // `mongodump --out=dir`
    | ExportDatabase(dir: string)                      // the driver fallback writing `dir/backup.json`
    | Compress(dir: string, archive: string)
    | Upload(file: string, bucket: string, key: string)
    | ArchiveObjectStore(bucket: string, archive: string)
    | CleanOld(daysToKeep: int)

  /** `cleanOldBackups` catches its own errors, so it never stops the run. */
  function Throws(fails: Step -> bool): Step -> bool {
    (s: Step) => !s.CleanOld? && fails(s)
  }

  /** The local archive `backupMongoDB` writes, `${BACKUP_PATH}/mongodb_${date}.zip`. */
  function LocalMongoArchive(env: BackupEnv, date: string): string {
    BackupPath(env) + "/" + MongoArchiveName(date)
  }

  /** The local archive `backupR2` writes, `${BACKUP_PATH}/r2_${date}.zip`. */
  function LocalObjectStoreArchive(env: BackupEnv, date: string): string {
    BackupPath(env) + "/" + ObjectStoreArchiveName(date)
  }

  /** The steps of a run whose buckets are usable. `backupMongoDB` and
      `backupR2` each read the clock, so each has its own date; `stamp` names
      the dump directory. `uploadToR2` keys a file by its base name. */
  function BackupSteps(env: BackupEnv, mongodumpOk: bool, mongoDate: string, r2Date: string, stamp: string): (steps: seq<Step>)
    requires Configured(env)
  {
    var dir := BackupPath(env) + "/mongodb_" + stamp;
    var mongoZip := LocalMongoArchive(env, mongoDate);
    var r2Zip := LocalObjectStoreArchive(env, r2Date);
    var bucket := BackupBucket(env).value;
    [ if mongodumpOk then DumpDatabase(dir) else ExportDatabase(dir),
      Compress(dir, mongoZip),
      Upload(mongoZip, bucket, UploadKey(Basename(mongoZip))),
      ArchiveObjectStore(env.r2Bucket.value, r2Zip),
      Upload(r2Zip, bucket, UploadKey(Basename(r2Zip))),
      CleanOld(DefaultDaysToKeep) ]
  }

  /** The script ends at once for missing configuration; otherwise it
      reports the bucket calls, the buckets afterwards, the steps attempted
      and whether it finished. */
  datatype BackupRun =
    | MissingConfig
    | Ran(probes: seq<BucketCall>, buckets: set<string>, steps: seq<Step>, completed: bool)

  /** `createFullBackup`: both buckets are always checked; nothing is dumped
      unless both are usable; then the steps run in order and the first one
      that throws ends the script. */
  function CreateFullBackup(env: BackupEnv, buckets: set<string>, headFails: string -> bool, createOk: string -> bool,
                            mongodumpOk: bool, mongoDate: string, r2Date: string, stamp: string,
                            fails: Step -> bool): (r: BackupRun)
    ensures r.MissingConfig? <==> !Configured(env)
    ensures r.Ran? ==> |r.probes| >= 2 && r.probes[0] == HeadBucket(env.r2Bucket.value)
    ensures r.Ran? ==> HeadBucket(BackupBucket(env).value) in r.probes
    ensures r.Ran? && |r.steps| > 0 ==> env.r2Bucket.value in r.buckets && BackupBucket(env).value in r.buckets
    ensures r.Ran? ==> buckets <= r.buckets
    ensures r.Ran? && |r.steps| > 0 ==>
      r.steps == Seqs.RunUntilFailure(BackupSteps(env, mongodumpOk, mongoDate, r2Date, stamp), Throws(fails))
    ensures r.Ran? && r.completed ==>
      r.steps == BackupSteps(env, mongodumpOk, mongoDate, r2Date, stamp)
      && forall i :: 0 <= i < |r.steps| ==> !Throws(fails)(r.steps[i])
    ensures r.Ran? ==>
      var src := env.r2Bucket.value;
      var dst := BackupBucket(env).value;
      (|r.steps| > 0 <==>
         && !headFails(src) && (src in buckets || createOk(src))
         && !headFails(dst) && (dst in buckets || dst == src || createOk(dst)))
    ensures r.Ran? ==>
      var plan := BackupSteps(env, mongodumpOk, mongoDate, r2Date, stamp);
      (r.completed <==> |r.steps| > 0 && forall i :: 0 <= i < |plan| ==> !Throws(fails)(plan[i]))
    ensures r.Ran? ==>
      var src := env.r2Bucket.value;
      var dst := BackupBucket(env).value;
      && (forall c :: c in r.probes ==> c.bucket == src || c.bucket == dst)
      && r.buckets <= buckets + {src, dst}
      && (forall b :: CreateBucket(b) in r.probes ==> b !in buckets && !headFails(b))
  {
    if !Configured(env) then MissingConfig
    else
      var check := CheckBothBuckets(buckets, env.r2Bucket.value, BackupBucket(env).value, headFails, createOk);
      if !check.ok then Ran(check.calls, check.buckets, [], false)
      else
        var plan := BackupSteps(env, mongodumpOk, mongoDate, r2Date, stamp);
        var done := Seqs.RunUntilFailure(plan, Throws(fails));
        Ran(check.calls, check.buckets, done, forall i :: 0 <= i < |plan| ==> !Throws(fails)(plan[i]))
  }

  /** The two `ensureBucketExists` calls of `createFullBackup`, the source
      bucket first and then the backup bucket, which may be the same one:
      both are always probed, and the backup may go ahead only if both are
      usable. */
  function CheckBothBuckets(buckets: set<string>, src: string, dst: string,
                            headFails: string -> bool, createOk: string -> bool): (c: BucketCheck)
    ensures |c.calls| >= 2 && c.calls[0] == HeadBucket(src) && HeadBucket(dst) in c.calls
    ensures buckets <= c.buckets <= buckets + {src, dst}
    ensures c.ok ==> src in c.buckets && dst in c.buckets
    ensures c.ok <==>
      && !headFails(src) && (src in buckets || createOk(src))
      && !headFails(dst) && (dst in buckets || dst == src || createOk(dst))
    ensures forall call :: call in c.calls ==> call.bucket == src || call.bucket == dst
    ensures forall b :: CreateBucket(b) in c.calls ==> b !in buckets && !headFails(b)
  {
    var source := EnsureBucketExists(buckets, src, headFails(src), createOk(src));
    var backup := EnsureBucketExists(source.buckets, dst, headFails(dst), createOk(dst));
    var probes := source.calls + backup.calls;
    assert probes[|source.calls|] == HeadBucket(dst);
    ProbesStayOnBothBuckets(buckets, src, dst, headFails, createOk);
    BucketCheck(probes, source.ok && backup.ok, backup.buckets)
  }

  /** The two bucket checks of `createFullBackup` touch only the source and
      the backup bucket, and create only a bucket that was missing and
      answered its probe. */
  lemma ProbesStayOnBothBuckets(buckets: set<string>, src: string, dst: string,
                                headFails: string -> bool, createOk: string -> bool)
    ensures
      var source := EnsureBucketExists(buckets, src, headFails(src), createOk(src));
      var backup := EnsureBucketExists(source.buckets, dst, headFails(dst), createOk(dst));
      var probes := source.calls + backup.calls;
      && (forall c :: c in probes ==> c.bucket == src || c.bucket == dst)
      && backup.buckets <= buckets + {src, dst}
      && (forall b :: CreateBucket(b) in probes ==> b !in buckets && !headFails(b))
  {
    var source := EnsureBucketExists(buckets, src, headFails(src), createOk(src));
    var backup := EnsureBucketExists(source.buckets, dst, headFails(dst), createOk(dst));
    forall b | CreateBucket(b) in source.calls + backup.calls
      ensures b !in buckets && !headFails(b)
    {
      if CreateBucket(b) in source.calls {
        assert CreateBucket(b).bucket == src;
      } else {
        assert CreateBucket(b) in backup.calls;
        assert CreateBucket(b).bucket == dst;
      }
    }
  }

  // ---------------------------------------------------------------------------
  // backupR2

  /** The names `backupR2` puts in its archive: every listed object whose
      download succeeds, under its own key; a failed download is logged and
      skipped. */
  function ArchivedKeys(objects: seq<StoredObject>, fetched: string -> bool): (names: seq<string>)
    ensures |names| <= |objects|
    ensures forall k :: k in names <==> exists i :: 0 <= i < |objects| && objects[i].key == k && fetched(k)
  {
    if |objects| == 0 then []
    else
      var rest := ArchivedKeys(objects[1..], fetched);
      assert forall k :: (exists i :: 0 <= i < |objects[1..]| && objects[1..][i].key == k && fetched(k)) <==>
                         (exists i :: 1 <= i < |objects| && objects[i].key == k && fetched(k)) by {
        forall k | exists i :: 1 <= i < |objects| && objects[i].key == k && fetched(k)
          ensures exists i :: 0 <= i < |objects[1..]| && objects[1..][i].key == k && fetched(k)
        {
          var i :| 1 <= i < |objects| && objects[i].key == k && fetched(k);
          assert objects[1..][i - 1] == objects[i];
        }
      }
      if fetched(objects[0].key) then [objects[0].key] + rest else rest
  }

  // ---------------------------------------------------------------------------
  // cleanOldBackups

  /** A file of the backup directory, its modification time in milliseconds. */
  datatype LocalFile = LocalFile(name: string, modifiedAt: int)

  /** `(now - stats.mtime) / (1000 * 60 * 60 * 24) > daysToKeep`, with the
      division done away with: `AgeTestInDays` below shows that the two
      agree. */
  function ExpiredAt(now: int, daysToKeep: int): LocalFile -> bool {
    (f: LocalFile) => now - f.modifiedAt > daysToKeep * DayMs
  }

  /** The test as the source writes it, a floating-point division of the age
      in milliseconds by a day (here in exact real arithmetic). */
  predicate OlderThanInDays(now: int, daysToKeep: int, f: LocalFile) {
    (now - f.modifiedAt) as real / DayMs as real > daysToKeep as real
  }

  /** An unlink that does not throw. */
  function Unlinks(unlinkFails: string -> bool): LocalFile -> bool {
    (f: LocalFile) => !unlinkFails(f.name)
  }

  /** `cleanOldBackups(daysToKeep)`: the files removed. A missing directory
      removes nothing; the files older than `daysToKeep` days are unlinked in
      directory order, and the first unlink that throws ends the loop (the
      error is caught and logged). */
  function CleanOldBackups(dirExists: bool, files: seq<LocalFile>, now: int, daysToKeep: int,
                           unlinkFails: string -> bool): (removed: seq<LocalFile>)
    ensures !dirExists ==> removed == []
    ensures forall i :: 0 <= i < |removed| ==> removed[i] in files && ExpiredAt(now, daysToKeep)(removed[i])
    ensures forall i :: 0 <= i < |removed| ==> !unlinkFails(removed[i].name)
    ensures |removed| <= |Seqs.Filter(files, ExpiredAt(now, daysToKeep))|
    ensures removed == Seqs.Filter(files, ExpiredAt(now, daysToKeep))[..|removed|]
    ensures dirExists && (forall i :: 0 <= i < |files| ==> !unlinkFails(files[i].name)) ==>
      removed == Seqs.Filter(files, ExpiredAt(now, daysToKeep))
    ensures dirExists && |removed| < |Seqs.Filter(files, ExpiredAt(now, daysToKeep))| ==>
      unlinkFails(Seqs.Filter(files, ExpiredAt(now, daysToKeep))[|removed|].name)
  {
    if !dirExists then []
    else Seqs.TakeWhile(Seqs.Filter(files, ExpiredAt(now, daysToKeep)), Unlinks(unlinkFails))
  }

  // ---------------------------------------------------------------------------

  /** The age test is a strict comparison with whole days, exactly the
      division the source writes: a file exactly `daysToKeep` days old is
      kept. */
  lemma AgeTestInDays(now: int, daysToKeep: int, f: LocalFile)
    ensures ExpiredAt(now, daysToKeep)(f) <==> OlderThanInDays(now, daysToKeep, f)
  {
    var age := (now - f.modifiedAt) as real;
    var d := DayMs as real;
    assert d > 0.0;
    if age / d > daysToKeep as real {
      assert age == (age / d) * d;
      assert (age / d) * d > (daysToKeep as real) * d;
    } else {
      assert age == (age / d) * d;
      assert (age / d) * d <= (daysToKeep as real) * d;
    }
  }

  /** The ages, in whole days, of the files of a directory listing. */
  predicate AgedDays(files: seq<LocalFile>, now: int, days: seq<int>) {
    |files| == |days| && forall i :: 0 <= i < |files| ==> now - files[i].modifiedAt == days[i] * DayMs
  }

  /** With the default week: of files three, seven, eight and ten days old,
      the eight- and ten-day-old ones are removed and the others kept. */
  lemma DefaultWeekExample(files: seq<LocalFile>, now: int, unlinkFails: string -> bool)
    requires AgedDays(files, now, [3, 7, 8, 10])
    requires forall i :: 0 <= i < |files| ==> !unlinkFails(files[i].name)
    ensures CleanOldBackups(true, files, now, DefaultDaysToKeep, unlinkFails) == [files[2], files[3]]
  {
    ExampleExpired(files, now);
  }

  /** The example's expired files, in directory order. */
  lemma ExampleExpired(files: seq<LocalFile>, now: int)
    requires AgedDays(files, now, [3, 7, 8, 10])
    ensures Seqs.Filter(files, ExpiredAt(now, DefaultDaysToKeep)) == [files[2], files[3]]
  {
    var p := ExpiredAt(now, DefaultDaysToKeep);
    assert now - files[0].modifiedAt == 3 * DayMs && now - files[1].modifiedAt == 7 * DayMs;
    assert now - files[2].modifiedAt == 8 * DayMs && now - files[3].modifiedAt == 10 * DayMs;
    assert !p(files[0]) && !p(files[1]) && p(files[2]) && p(files[3]);
    var s1 := files[1..];
    var s2 := s1[1..];
    var s3 := s2[1..];
    assert s3[1..] == [];
    assert Seqs.Filter(s3, p) == [files[3]];
    assert Seqs.Filter(s2, p) == [files[2], files[3]];
    assert Seqs.Filter(s1, p) == [files[2], files[3]];
  }

  /** Checking a bucket that a previous check made usable finds it at once
      and creates nothing. */
  lemma EnsureBucketIsIdempotent(buckets: set<string>, name: string, headFails: bool, createOk: bool, createAgain: bool)
    requires EnsureBucketExists(buckets, name, headFails, createOk).ok
    ensures var first := EnsureBucketExists(buckets, name, headFails, createOk);
      var second := EnsureBucketExists(first.buckets, name, false, createAgain);
      && second.ok && second.calls == [HeadBucket(name)] && second.buckets == first.buckets
  {
  }

  /** A completed run uploads both archives into the backup bucket under the
      keys the catalogue expects for their dates, the database archive
      first. */
  lemma {:induction false} CompletedRunUploadsBothArchives(env: BackupEnv, buckets: set<string>, headFails: string -> bool,
                                                           createOk: string -> bool, mongodumpOk: bool,
                                                           mongoDate: string, r2Date: string, stamp: string,
                                                           fails: Step -> bool)
    requires IsDateText(mongoDate) && IsDateText(r2Date)
    requires CreateFullBackup(env, buckets, headFails, createOk, mongodumpOk, mongoDate, r2Date, stamp, fails).Ran?
    requires CreateFullBackup(env, buckets, headFails, createOk, mongodumpOk, mongoDate, r2Date, stamp, fails).completed
    ensures var r := CreateFullBackup(env, buckets, headFails, createOk, mongodumpOk, mongoDate, r2Date, stamp, fails);
      var bucket := BackupBucket(env).value;
      && |r.steps| == 6
      && r.steps[2] == Upload(LocalMongoArchive(env, mongoDate), bucket, UploadKey(MongoArchiveName(mongoDate)))
      && r.steps[4] == Upload(LocalObjectStoreArchive(env, r2Date), bucket, UploadKey(ObjectStoreArchiveName(r2Date)))
      && bucket in r.buckets
  {
    var r := CreateFullBackup(env, buckets, headFails, createOk, mongodumpOk, mongoDate, r2Date, stamp, fails);
    assert r.steps == BackupSteps(env, mongodumpOk, mongoDate, r2Date, stamp);
    PlannedUploads(env, mongodumpOk, mongoDate, r2Date, stamp);
  }

  /** The planned uploads key each archive by its own name. */
  lemma PlannedUploads(env: BackupEnv, mongodumpOk: bool, mongoDate: string, r2Date: string, stamp: string)
    requires Configured(env) && IsDateText(mongoDate) && IsDateText(r2Date)
    ensures var steps := BackupSteps(env, mongodumpOk, mongoDate, r2Date, stamp);
      var bucket := BackupBucket(env).value;
      && steps[2] == Upload(LocalMongoArchive(env, mongoDate), bucket, UploadKey(MongoArchiveName(mongoDate)))
      && steps[4] == Upload(LocalObjectStoreArchive(env, r2Date), bucket, UploadKey(ObjectStoreArchiveName(r2Date)))
  {
    ArchiveNamesHaveNoSlash(mongoDate);
    ArchiveNamesHaveNoSlash(r2Date);
    BasenameOfJoin(BackupPath(env), MongoArchiveName(mongoDate));
    BasenameOfJoin(BackupPath(env), ObjectStoreArchiveName(r2Date));
  }

  /** When the dump (or its fallback) throws, nothing is uploaded and the
      object store is not archived. */
  lemma FailedDumpUploadsNothing(env: BackupEnv, buckets: set<string>, headFails: string -> bool,
                                 createOk: string -> bool, mongodumpOk: bool,
                                 mongoDate: string, r2Date: string, stamp: string, fails: Step -> bool)
    requires Configured(env)
    requires fails(BackupSteps(env, mongodumpOk, mongoDate, r2Date, stamp)[0])
    ensures var r := CreateFullBackup(env, buckets, headFails, createOk, mongodumpOk, mongoDate, r2Date, stamp, fails);
      && !r.completed
      && forall i :: 0 <= i < |r.steps| ==> !r.steps[i].Upload? && !r.steps[i].ArchiveObjectStore?
  {
    var r := CreateFullBackup(env, buckets, headFails, createOk, mongodumpOk, mongoDate, r2Date, stamp, fails);
    var plan := BackupSteps(env, mongodumpOk, mongoDate, r2Date, stamp);
    assert Throws(fails)(plan[0]);
    if |r.steps| > 0 {
      assert r.steps == Seqs.RunUntilFailure(plan, Throws(fails));
      assert |r.steps| == 1;
    }
  }

  /** End to end: when both dates agree, a completed run leaves the backup
      bucket holding what `restoreFromDate` needs for that date. */
  lemma {:induction false} CompletedRunIsRestorableByDate(env: BackupEnv, buckets: set<string>, headFails: string -> bool,
                                                          createOk: string -> bool, mongodumpOk: bool,
                                                          date: string, stamp: string, fails: Step -> bool,
                                                          contents: seq<StoredObject>)
    requires IsDateText(date)
    requires CreateFullBackup(env, buckets, headFails, createOk, mongodumpOk, date, date, stamp, fails).Ran?
    requires CreateFullBackup(env, buckets, headFails, createOk, mongodumpOk, date, date, stamp, fails).completed
    requires forall i :: 0 <= i < 6 ==>
      var s := CreateFullBackup(env, buckets, headFails, createOk, mongodumpOk, date, date, stamp, fails).steps[i];
      s.Upload? ==> exists j :: 0 <= j < |contents| && contents[j].key == s.key
    ensures Restore.RestoreFromDate(ListBackups(Listed(Some(contents))), date).Steps?
  {
    var r := CreateFullBackup(env, buckets, headFails, createOk, mongodumpOk, date, date, stamp, fails);
    CompletedRunUploadsBothArchives(env, buckets, headFails, createOk, mongodumpOk, date, date, stamp, fails);
    assert r.steps[2].Upload? && r.steps[4].Upload?;
    var a :| 0 <= a < |contents| && contents[a].key == r.steps[2].key;
    var b :| 0 <= b < |contents| && contents[b].key == r.steps[4].key;
    Restore.BackupThenRestoreByDate(contents, date, a, b);
  }
}

=== FILE: backup_documents.dfy ===
/** Restoring the database from an archive (backup.js, `restoreMongoDB`):
    either `mongorestore` over the extracted dump, or, when the archive holds
    the driver export `backup.json`, clearing and refilling every collection
    with documents whose ids are turned back into ObjectIds. */
module BackupDocuments {
  import opened Js
  import opened Text
  import Seqs

  /** A document field as the driver sees it. `ObjectId` carries its hex
      text; `Date` its milliseconds since the epoch. */
  datatype Value =
    | Str(s: string)
    | Num(n: int)
    | Bool(b: bool)
    | Null
    | ObjectId(hex: string)
    | Date(ms: int)
    | Arr(items: seq<Value>)
    | Obj(fields: map<string, Value>)

  type Document = map<string, Value>

  /** JavaScript's falsy values among field values. */
  predicate Falsy(v: Value) {
    v == Str("") || v == Num(0) || v == Bool(false) || v == Null
  }

  /** `doc[key] && typeof doc[key] === 'object' && doc[key].$oid`: a plain
      object whose `$oid` member is truthy. */
  predicate IsOidWrapper(v: Value) {
    v.Obj? && "$oid" in v.fields && !Falsy(v.fields["$oid"])
  }

  /** `new ObjectId(x)`: the id's hex text, or None when the constructor
      throws (the warning is logged and the field kept). */
  type IdParser = Value -> Option<string>

  /** The conversion applied to one field, stated field by field: a string
      `_id`, or any `{$oid}` wrapper, becomes an ObjectId when the parser
      accepts it; everything else stays. */
  function FieldAfter(key: string, v: Value, parse: IdParser): Value {
    if key == "_id" && v.Str? && v.s != "" && parse(v).Some? then ObjectId(parse(v).value)
    else if IsOidWrapper(v) && parse(v.fields["$oid"]).Some? then ObjectId(parse(v.fields["$oid"]).value)
    else v
  }

  /** The `documents.map` callback: first the `_id` string, then every key
      holding a `{$oid}` wrapper. */
  function Normalise(doc: Document, parse: IdParser): (r: Document)
    ensures r.Keys == doc.Keys
    ensures forall k :: k in doc ==> r[k] == FieldAfter(k, doc[k], parse)
    ensures forall k :: k in doc && !(k == "_id" && doc[k].Str?) && !IsOidWrapper(doc[k]) ==> r[k] == doc[k]
  {
    var withId :=
      if "_id" in doc && !Falsy(doc["_id"]) && doc["_id"].Str? && parse(doc["_id"]).Some? then
        doc["_id" := ObjectId(parse(doc["_id"]).value)]
      else doc;
    map k | k in withId ::
      if IsOidWrapper(withId[k]) && parse(withId[k].fields["$oid"]).Some? then
        ObjectId(parse(withId[k].fields["$oid"]).value)
      else withId[k]
  }

  // ---------------------------------------------------------------------------
  // Refilling the collections

  datatype DbOp = Clear(collection: string) | InsertMany(collection: string, docs: seq<Document>)

  /** `backupData.collections` as `Object.entries` yields it. */
  datatype Collection = Collection(name: string, docs: seq<Document>)

  /** The documents of `c` as they are inserted back. */
  function NormalisedDocs(c: Collection, parse: IdParser): (docs: seq<Document>)
    ensures |docs| == |c.docs|
    ensures forall i :: 0 <= i < |docs| ==> docs[i] == Normalise(c.docs[i], parse)
  {
    seq(|c.docs|, i requires 0 <= i < |c.docs| => Normalise(c.docs[i], parse))
  }

  /** One collection: `deleteMany({})`, then `insertMany` of the normalised
      documents only when there are any. */
  function CollectionOps(c: Collection, parse: IdParser): (ops: seq<DbOp>)
    ensures |ops| >= 1 && ops[0] == Clear(c.name)
    ensures |ops| == 2 <==> |c.docs| > 0
    ensures |ops| <= 2
    ensures |ops| == 2 ==> ops[1].InsertMany? && ops[1].collection == c.name && |ops[1].docs| == |c.docs|
    ensures |ops| == 2 ==> forall i :: 0 <= i < |c.docs| ==> ops[1].docs[i] == Normalise(c.docs[i], parse)
  {
    if |c.docs| == 0 then [Clear(c.name)]
    else [Clear(c.name), InsertMany(c.name, NormalisedDocs(c, parse))]
  }

  /** The loop over every collection of `backup.json`: an insert always
      follows the clear of its own collection. */
  function RefillCollections(cs: seq<Collection>, parse: IdParser): (ops: seq<DbOp>)
    ensures forall i :: 0 <= i < |ops| && ops[i].InsertMany? ==>
      i > 0 && ops[i - 1] == Clear(ops[i].collection) && |ops[i].docs| > 0
    ensures |ops| > 0 ==> ops[0].Clear?
  {
    if |cs| == 0 then []
    else
      var head := CollectionOps(cs[0], parse);
      var rest := RefillCollections(cs[1..], parse);
      assert forall i :: |head| <= i < |head| + |rest| ==> (head + rest)[i] == rest[i - |head|];
      head + rest
  }

  /** An operation the refill of `cs` may issue: clearing one of its
      collections, or inserting the normalised documents of a non-empty one. */
  predicate RefillOpOf(o: DbOp, cs: seq<Collection>, parse: IdParser) {
    exists j :: 0 <= j < |cs| &&
      (o == Clear(cs[j].name) || (|cs[j].docs| > 0 && o == InsertMany(cs[j].name, NormalisedDocs(cs[j], parse))))
  }

  /** Every collection is cleared, every non-empty one is refilled with its
      own normalised documents, and no other operation is issued. */
  lemma RefillCoversEveryCollection(cs: seq<Collection>, parse: IdParser)
    ensures var ops := RefillCollections(cs, parse);
      && (forall j :: 0 <= j < |cs| ==> Clear(cs[j].name) in ops)
      && (forall j :: 0 <= j < |cs| && |cs[j].docs| > 0 ==> InsertMany(cs[j].name, NormalisedDocs(cs[j], parse)) in ops)
      && (forall o :: o in ops ==> RefillOpOf(o, cs, parse))
  {
    RefillReachesEveryCollection(cs, parse);
    RefillIssuesNothingElse(cs, parse);
  }

  lemma {:induction false} RefillReachesEveryCollection(cs: seq<Collection>, parse: IdParser)
    ensures var ops := RefillCollections(cs, parse);
      && (forall j :: 0 <= j < |cs| ==> Clear(cs[j].name) in ops)
      && (forall j :: 0 <= j < |cs| && |cs[j].docs| > 0 ==> InsertMany(cs[j].name, NormalisedDocs(cs[j], parse)) in ops)
  {
    if |cs| > 0 {
      RefillReachesEveryCollection(cs[1..], parse);
      var head := CollectionOps(cs[0], parse);
      var rest := RefillCollections(cs[1..], parse);
      assert RefillCollections(cs, parse) == head + rest;
      forall j | 1 <= j < |cs|
        ensures Clear(cs[j].name) in rest
        ensures |cs[j].docs| > 0 ==> InsertMany(cs[j].name, NormalisedDocs(cs[j], parse)) in rest
      {
        assert cs[j] == cs[1..][j - 1];
      }
    }
  }

  lemma {:induction false} RefillIssuesNothingElse(cs: seq<Collection>, parse: IdParser)
    ensures forall o :: o in RefillCollections(cs, parse) ==> RefillOpOf(o, cs, parse)
  {
    if |cs| > 0 {
      RefillIssuesNothingElse(cs[1..], parse);
      var head := CollectionOps(cs[0], parse);
      var rest := RefillCollections(cs[1..], parse);
      assert RefillCollections(cs, parse) == head + rest;
      forall o | o in head + rest
        ensures RefillOpOf(o, cs, parse)
      {
        if o in head {
          assert o == Clear(cs[0].name) || o == InsertMany(cs[0].name, NormalisedDocs(cs[0], parse));
        } else {
          assert RefillOpOf(o, cs[1..], parse);
          var j :| 0 <= j < |cs[1..]| &&
            (o == Clear(cs[1..][j].name) || (|cs[1..][j].docs| > 0 && o == InsertMany(cs[1..][j].name, NormalisedDocs(cs[1..][j], parse))));
          assert cs[1..][j] == cs[j + 1];
        }
      }
    }
  }

  /** The refill follows the collections' order: refilling two runs of
      collections is refilling each in turn. */
  lemma {:induction false} RefillConcat(a: seq<Collection>, b: seq<Collection>, parse: IdParser)
    ensures RefillCollections(a + b, parse) == RefillCollections(a, parse) + RefillCollections(b, parse)
  {
    if |a| == 0 {
      assert a + b == b;
    } else {
      RefillConcat(a[1..], b, parse);
      Seqs.ConsSplit(a, b);
      RefillCons(a[0], a[1..] + b, parse);
      RefillCons(a[0], a[1..], parse);
      Seqs.Assoc(CollectionOps(a[0], parse), RefillCollections(a[1..], parse), RefillCollections(b, parse));
    }
  }

  /** A single collection gets exactly its own operations. */
  lemma RefillSingle(c: Collection, parse: IdParser)
    ensures RefillCollections([c], parse) == CollectionOps(c, parse)
  {
    RefillCons(c, [], parse);
  }

  lemma RefillCons(c: Collection, cs: seq<Collection>, parse: IdParser)
    ensures RefillCollections([c] + cs, parse) == CollectionOps(c, parse) + RefillCollections(cs, parse)
  {
    assert ([c] + cs)[0] == c;
    assert ([c] + cs)[1..] == cs;
  }

  /** The operations actually made: the first `deleteMany` or `insertMany`
      that throws ends the restore (the error is rethrown), leaving the
      collections before it restored and the rest untouched. */
  function RefillUntilFailure(cs: seq<Collection>, parse: IdParser, fails: DbOp -> bool): (done: seq<DbOp>)
    ensures var ops := RefillCollections(cs, parse);
      && |done| <= |ops| && done == ops[..|done|]
      && (forall i :: 0 <= i < |done| - 1 ==> !fails(done[i]))
      && (|done| < |ops| ==> |done| > 0 && fails(done[|done| - 1]))
      && (done == ops <==> forall i :: 0 <= i < |ops| - 1 ==> !fails(ops[i]))
  {
    Seqs.RunUntilFailure(RefillCollections(cs, parse), fails)
  }

  /** However early the refill stops, no collection receives documents
      before it has been cleared. */
  lemma PartialRefillClearsFirst(cs: seq<Collection>, parse: IdParser, fails: DbOp -> bool)
    ensures var done := RefillUntilFailure(cs, parse, fails);
      forall i :: 0 <= i < |done| && done[i].InsertMany? ==> i > 0 && done[i - 1] == Clear(done[i].collection)
  {
    var ops := RefillCollections(cs, parse);
    var done := RefillUntilFailure(cs, parse, fails);
    forall i | 0 <= i < |done| && done[i].InsertMany?
      ensures i > 0 && done[i - 1] == Clear(done[i].collection)
    {
      assert done[i] == ops[i];
    }
  }

  /** The documents a sequence of operations inserts. */
  function InsertedCount(ops: seq<DbOp>): nat {
    if |ops| == 0 then 0
    else (if ops[0].InsertMany? then |ops[0].docs| else 0) + InsertedCount(ops[1..])
  }

  /** The documents `backup.json` holds. */
  function DocumentCount(cs: seq<Collection>): nat {
    if |cs| == 0 then 0 else |cs[0].docs| + DocumentCount(cs[1..])
  }

  /** How `restoreMongoDB` proceeds once the archive is extracted. */
  datatype RestoreMode = FromExport(ops: seq<DbOp>) | WithMongorestore(dir: string)

  /** `backupPath.replace('.zip', '_extracted')`. */
  function ExtractPath(archive: string): string {
    ReplaceFirst(archive, ".zip", "_extracted")
  }

  /** `files.includes('backup.json')` chooses the export; otherwise
      `mongorestore --drop` runs over the extracted directory (and its failure
      is fatal). */
  function RestoreMongoDB(archive: string, files: seq<string>, backupData: seq<Collection>, parse: IdParser): (m: RestoreMode)
    ensures m.FromExport? <==> "backup.json" in files
    ensures m.FromExport? ==> InsertedCount(m.ops) == DocumentCount(backupData)
    ensures m.FromExport? ==> forall j :: 0 <= j < |backupData| ==> Clear(backupData[j].name) in m.ops
    ensures m.FromExport? ==> forall j :: 0 <= j < |backupData| && |backupData[j].docs| > 0 ==>
      InsertMany(backupData[j].name, NormalisedDocs(backupData[j], parse)) in m.ops
    ensures m.FromExport? ==> forall o :: o in m.ops ==> RefillOpOf(o, backupData, parse)
    ensures m.FromExport? ==> m.ops == RefillCollections(backupData, parse)
    ensures m.WithMongorestore? ==> m.dir == ExtractPath(archive)
  {
    if "backup.json" in files then
      RefillPreservesCount(backupData, parse);
      RefillCoversEveryCollection(backupData, parse);
      FromExport(RefillCollections(backupData, parse))
    else WithMongorestore(ExtractPath(archive))
  }

  // ---------------------------------------------------------------------------
  // The export written by `backupMongoDB`'s fallback

  /** What `JSON.stringify` and `JSON.parse` make of a value: an ObjectId is
      written as its hex text and a Date as its ISO text (`iso`). */
  function AsJson(v: Value, iso: int -> string): Value
    decreases v
  {
    match v
    case ObjectId(h) => Str(h)
    case Date(ms) => Str(iso(ms))
    case Arr(items) => Arr(seq(|items|, i requires 0 <= i < |items| => AsJson(items[i], iso)))
    case Obj(fields) => Obj(map k | k in fields :: AsJson(fields[k], iso))
    case _ => v
  }

  function Exported(doc: Document, iso: int -> string): Document {
    map k | k in doc :: AsJson(doc[k], iso)
  }

  // ---------------------------------------------------------------------------

  lemma {:induction false} RefillPreservesCount(cs: seq<Collection>, parse: IdParser)
    ensures InsertedCount(RefillCollections(cs, parse)) == DocumentCount(cs)
  {
    if |cs| > 0 {
      var head := CollectionOps(cs[0], parse);
      var rest := RefillCollections(cs[1..], parse);
      RefillPreservesCount(cs[1..], parse);
      InsertedCountConcat(head, rest);
      if |head| == 2 {
        assert head[1..][1..] == [];
      }
    }
  }

  lemma {:induction false} InsertedCountConcat(a: seq<DbOp>, b: seq<DbOp>)
    ensures InsertedCount(a + b) == InsertedCount(a) + InsertedCount(b)
  {
    if |a| > 0 {
      assert (a + b)[1..] == a[1..] + b;
      InsertedCountConcat(a[1..], b);
    } else {
      assert a + b == b;
    }
  }

  /** Normalising twice changes nothing more: every converted field is an
      ObjectId, which neither rule touches again, and a field the parser
      refused is refused again. */
  lemma NormaliseIsIdempotent(doc: Document, parse: IdParser)
    ensures Normalise(Normalise(doc, parse), parse) == Normalise(doc, parse)
  {
    var once := Normalise(doc, parse);
    var twice := Normalise(once, parse);
    forall k | k in once
      ensures twice[k] == once[k]
    {
      FieldAfterIsStable(k, doc[k], parse);
    }
    assert twice.Keys == once.Keys;
  }

  /** A value normalised once is left alone by a second pass. */
  lemma FieldAfterIsStable(key: string, v: Value, parse: IdParser)
    ensures FieldAfter(key, FieldAfter(key, v, parse), parse) == FieldAfter(key, v, parse)
  {
  }

  /** Through the export and back, an ObjectId `_id` the parser recognises
      again is restored as the same id. */
  lemma ExportKeepsIds(doc: Document, iso: int -> string, parse: IdParser)
    requires "_id" in doc && doc["_id"].ObjectId? && doc["_id"].hex != ""
    requires parse(Str(doc["_id"].hex)) == Some(doc["_id"].hex)
    ensures Normalise(Exported(doc, iso), parse)["_id"] == doc["_id"]
  {
  }

  /** Through the export and back, a Date field comes back as its ISO text:
      the fallback export loses the type of `createdAt` and `updatedAt`. */
  lemma ExportTurnsDatesIntoText(doc: Document, iso: int -> string, parse: IdParser, key: string)
    requires key in doc && doc[key].Date?
    requires key == "_id" ==> parse(Str(iso(doc[key].ms))).None?
    ensures Normalise(Exported(doc, iso), parse)[key] == Str(iso(doc[key].ms))
    ensures Normalise(Exported(doc, iso), parse)[key] != doc[key]
  {
    var e := Exported(doc, iso);
    assert e[key] == Str(iso(doc[key].ms));
    assert FieldAfter(key, e[key], parse) == e[key];
  }
}

=== FILE: backup_restore.dfy ===
/** Restore selection in backup.js: `restoreFromBackup`, `restoreComplete` and
    `restoreFromDate` choose entries of the catalogue and return the plan of
    effects they carry out. Downloading, unzipping and the restores themselves
    are effects; a failing effect ends the process (`process.exit(1)`), which
    `Run` models by stopping after it. */
module BackupRestore {
  import opened Js
  import opened Text
  import Seqs
  import opened BackupCatalogue

  /** What a restore does, in order. A local file is named by the entry's
      name inside the local backup directory. */
  datatype Effect =
    | Download(key: string, localName: string)
    | RestoreDatabase(localName: string)
    | RestoreObjectStore(localName: string)
    | RemoveLocal(localName: string)

  datatype AbortReason = NoBackups | BackupNotFound | NoDatabaseBackup | NoObjectStoreBackup

  /** A plan either returns before any effect, or runs its effects in order. */
  datatype Plan = Abort(reason: AbortReason) | Steps(effects: seq<Effect>)

  function IsDatabaseBackup(e: BackupEntry): bool {
    e.kind == MongoDB
  }

  function IsObjectStoreBackup(e: BackupEntry): bool {
    e.kind == R2
  }

  /** `b => b.name === name`. */
  function NamedAs(name: string): BackupEntry -> bool {
    (e: BackupEntry) => e.name == name
  }

  /** `b => b.name.includes(date)`. */
  function NameHas(date: string): BackupEntry -> bool {
    (e: BackupEntry) => Contains(e.name, date)
  }

  function DatabaseSteps(e: BackupEntry): seq<Effect> {
    [Download(e.key, e.name), RestoreDatabase(e.name), RemoveLocal(e.name)]
  }

  function ObjectStoreSteps(e: BackupEntry): seq<Effect> {
    [Download(e.key, e.name), RestoreObjectStore(e.name), RemoveLocal(e.name)]
  }

  /** Download, one restore chosen by the entry's kind, removal of the copy. */
  function RestoreSteps(e: BackupEntry): (r: seq<Effect>)
    ensures |r| == 3 && r[0] == Download(e.key, e.name) && r[2] == RemoveLocal(e.name)
    ensures r[1].RestoreDatabase? <==> e.kind == MongoDB
    ensures r[1].RestoreObjectStore? <==> e.kind == R2
    ensures r[1].localName == e.name
  {
    if e.kind == MongoDB then DatabaseSteps(e)
    else
      assert e.kind == R2;
      ObjectStoreSteps(e)
  }

  /** `restoreFromBackup`: an empty catalogue or an unknown name returns
      before any download; no name (or an empty one) takes the first entry,
      the newest. */
  function RestoreFromBackup(backups: seq<BackupEntry>, backupName: Option<string>): (p: Plan)
    ensures |backups| == 0 ==> p == Abort(NoBackups)
    ensures |backups| > 0 && !Truthy(backupName) ==> p == Steps(RestoreSteps(backups[0]))
    ensures |backups| > 0 && Truthy(backupName) ==>
      (p == Abort(BackupNotFound) <==> forall i :: 0 <= i < |backups| ==> backups[i].name != backupName.value)
    ensures p.Steps? ==>
      exists i :: 0 <= i < |backups| && p.effects == RestoreSteps(backups[i])
        && (!Truthy(backupName) ==> i == 0)
        && (Truthy(backupName) ==>
              backups[i].name == backupName.value
              && forall j :: 0 <= j < i ==> backups[j].name != backupName.value)
  {
    if |backups| == 0 then Abort(NoBackups)
    else if Truthy(backupName) then
      match Seqs.Find(backups, NamedAs(backupName.value))
      case None => Abort(BackupNotFound)
      case Some(e) => Steps(RestoreSteps(e))
    else Steps(RestoreSteps(backups[0]))
  }

  /** One selection of `restoreComplete`: `typed.find(b => b.name === name)`
      when a name is given, else `typed[0]`, where `typed` is the catalogue
      filtered by kind. Both are searches of the catalogue itself. */
  function SelectOfKind(backups: seq<BackupEntry>, isKind: BackupEntry -> bool, name: Option<string>): (r: Option<BackupEntry>)
    ensures Truthy(name) ==> r == Seqs.FindBoth(backups, isKind, NamedAs(name.value))
    ensures !Truthy(name) ==> r == Seqs.Find(backups, isKind)
  {
    var typed := Seqs.Filter(backups, isKind);
    if Truthy(name) then
      Seqs.FindInFilter(backups, isKind, NamedAs(name.value));
      Seqs.Find(typed, NamedAs(name.value))
    else
      Seqs.HeadOfFilter(backups, isKind);
      if |typed| > 0 then Some(typed[0]) else None
  }

  /** `restoreComplete`: both selections are made before any effect; a
      missing one returns with nothing done; otherwise the database is
      downloaded and restored before the object store. */
  function RestoreComplete(backups: seq<BackupEntry>, mongoName: Option<string>, r2Name: Option<string>): (p: Plan)
    ensures |backups| == 0 ==> p == Abort(NoBackups)
    ensures p.Steps? <==>
      |backups| > 0
      && SelectOfKind(backups, IsDatabaseBackup, mongoName).Some?
      && SelectOfKind(backups, IsObjectStoreBackup, r2Name).Some?
    ensures p.Steps? ==>
      var m := SelectOfKind(backups, IsDatabaseBackup, mongoName).value;
      var r := SelectOfKind(backups, IsObjectStoreBackup, r2Name).value;
      && m in backups && m.kind == MongoDB && r in backups && r.kind == R2
      && p.effects == DatabaseSteps(m) + ObjectStoreSteps(r)
  {
    if |backups| == 0 then Abort(NoBackups)
    else
      var m := SelectOfKind(backups, IsDatabaseBackup, mongoName);
      var r := SelectOfKind(backups, IsObjectStoreBackup, r2Name);
      if m.None? then Abort(NoDatabaseBackup)
      else if r.None? then Abort(NoObjectStoreBackup)
      else Steps(DatabaseSteps(m.value) + ObjectStoreSteps(r.value))
  }

  /** `restoreFromDate`: the first database backup and the first object-store
      backup whose names contain the date, handed to `restoreComplete` by
      name. The catalogue is listed again there; the model lists it once. */
  function RestoreFromDate(backups: seq<BackupEntry>, date: string): (p: Plan)
    ensures Seqs.FindBoth(backups, IsDatabaseBackup, NameHas(date)).None? ==> p == Abort(NoDatabaseBackup)
    ensures (Seqs.FindBoth(backups, IsDatabaseBackup, NameHas(date)).Some?
             && Seqs.FindBoth(backups, IsObjectStoreBackup, NameHas(date)).None?) ==> p == Abort(NoObjectStoreBackup)
    ensures var m := Seqs.FindBoth(backups, IsDatabaseBackup, NameHas(date));
      var r := Seqs.FindBoth(backups, IsObjectStoreBackup, NameHas(date));
      m.Some? && r.Some? ==> p == RestoreComplete(backups, Some(m.value.name), Some(r.value.name))
  {
    var m := Seqs.FindBoth(backups, IsDatabaseBackup, NameHas(date));
    var r := Seqs.FindBoth(backups, IsObjectStoreBackup, NameHas(date));
    if m.None? then Abort(NoDatabaseBackup)
    else if r.None? then Abort(NoObjectStoreBackup)
    else RestoreComplete(backups, Some(m.value.name), Some(r.value.name))
  }

  /** The effects actually attempted: the run stops after the first failure. */
  function Run(p: Plan, fails: Effect -> bool): (done: seq<Effect>)
    ensures p.Abort? ==> done == []
    ensures p.Steps? ==> |done| <= |p.effects| && done == p.effects[..|done|]
    ensures p.Steps? ==> forall i :: 0 <= i < |done| - 1 ==> !fails(done[i])
    ensures p.Steps? && |done| < |p.effects| ==> |done| > 0 && fails(done[|done| - 1])
    ensures p.Steps? ==> (done == p.effects <==> forall i :: 0 <= i < |p.effects| - 1 ==> !fails(p.effects[i]))
    ensures p.Steps? && (forall i :: 0 <= i < |p.effects| ==> !fails(p.effects[i])) ==> done == p.effects
  {
    match p
    case Abort(_) => []
    case Steps(effects) => Seqs.RunUntilFailure(effects, fails)
  }

  // ---------------------------------------------------------------------------

  /** Catalogue names are never empty: they end in `.zip`. */
  lemma CatalogueNamesAreTruthy(e: BackupEntry)
    requires WellFormed(e)
    ensures EndsWith(e.name, ArchiveSuffix) && Truthy(Some(e.name))
  {
    BasenameKeepsSuffix(e.key, ArchiveSuffix);
  }

  /** Without names, `restoreComplete` restores the newest backup of each
      kind: no backup of the same kind in the (newest-first) catalogue is
      more recent than the one chosen. */
  lemma {:induction false} RestoreCompleteTakesNewest(backups: seq<BackupEntry>)
    requires Seqs.NonIncreasing(backups, Modified)
    requires RestoreComplete(backups, None, None).Steps?
    ensures
      var m := SelectOfKind(backups, IsDatabaseBackup, None).value;
      var r := SelectOfKind(backups, IsObjectStoreBackup, None).value;
      && (forall i :: 0 <= i < |backups| && backups[i].kind == MongoDB ==> backups[i].modified <= m.modified)
      && (forall i :: 0 <= i < |backups| && backups[i].kind == R2 ==> backups[i].modified <= r.modified)
  {
    var m := SelectOfKind(backups, IsDatabaseBackup, None).value;
    var r := SelectOfKind(backups, IsObjectStoreBackup, None).value;
    FirstOfKindIsNewest(backups, IsDatabaseBackup);
    FirstOfKindIsNewest(backups, IsObjectStoreBackup);
    assert forall i :: 0 <= i < |backups| && backups[i].kind == MongoDB ==> IsDatabaseBackup(backups[i]);
    assert forall i :: 0 <= i < |backups| && backups[i].kind == R2 ==> IsObjectStoreBackup(backups[i]);
  }

  /** In a newest-first catalogue, the first entry of a kind is at least as
      recent as every entry of that kind. */
  lemma FirstOfKindIsNewest(backups: seq<BackupEntry>, isKind: BackupEntry -> bool)
    requires Seqs.NonIncreasing(backups, Modified)
    requires Seqs.Find(backups, isKind).Some?
    ensures forall i :: 0 <= i < |backups| && isKind(backups[i]) ==>
      backups[i].modified <= Seqs.Find(backups, isKind).value.modified
  {
    var m := Seqs.Find(backups, isKind).value;
    var a :| 0 <= a < |backups| && backups[a] == m && isKind(backups[a])
             && forall j :: 0 <= j < a ==> !isKind(backups[j]);
    forall i | 0 <= i < |backups| && isKind(backups[i])
      ensures backups[i].modified <= m.modified
    {
      assert a <= i;
      if a < i { assert Modified(backups[a]) >= Modified(backups[i]); }
    }
  }

  /** `restoreFromDate` hands `restoreComplete` exactly the two entries it
      found: looking them up again by name finds the same entries, because
      an earlier entry of the same kind and name would also contain the date. */
  lemma {:induction false} RestoreFromDateDelegates(backups: seq<BackupEntry>, date: string)
    requires forall i :: 0 <= i < |backups| ==> WellFormed(backups[i])
    requires Seqs.FindBoth(backups, IsDatabaseBackup, NameHas(date)).Some?
    requires Seqs.FindBoth(backups, IsObjectStoreBackup, NameHas(date)).Some?
    ensures
      var m := Seqs.FindBoth(backups, IsDatabaseBackup, NameHas(date)).value;
      var r := Seqs.FindBoth(backups, IsObjectStoreBackup, NameHas(date)).value;
      RestoreFromDate(backups, date) == Steps(DatabaseSteps(m) + ObjectStoreSteps(r))
  {
    var m := Seqs.FindBoth(backups, IsDatabaseBackup, NameHas(date)).value;
    var r := Seqs.FindBoth(backups, IsObjectStoreBackup, NameHas(date)).value;
    var im :| 0 <= im < |backups| && backups[im] == m;
    var ir :| 0 <= ir < |backups| && backups[ir] == r;
    CatalogueNamesAreTruthy(backups[im]);
    CatalogueNamesAreTruthy(backups[ir]);
    assert NamedAs(m.name)(m);
    assert NamedAs(r.name)(r);
    Seqs.FindBothNarrowed(backups, IsDatabaseBackup, NameHas(date), NamedAs(m.name));
    Seqs.FindBothNarrowed(backups, IsObjectStoreBackup, NameHas(date), NamedAs(r.name));
  }

  /** The database restore comes first: when anything of it fails, no effect
      of the object-store restore is attempted. */
  lemma DatabaseFailureStopsRestore(backups: seq<BackupEntry>, mongoName: Option<string>, r2Name: Option<string>,
                                    fails: Effect -> bool, k: nat)
    requires RestoreComplete(backups, mongoName, r2Name).Steps?
    requires k < 3 && fails(RestoreComplete(backups, mongoName, r2Name).effects[k])
    ensures |Run(RestoreComplete(backups, mongoName, r2Name), fails)| <= k + 1
    ensures forall e :: e in Run(RestoreComplete(backups, mongoName, r2Name), fails) ==> !e.RestoreObjectStore?
  {
    var m := SelectOfKind(backups, IsDatabaseBackup, mongoName).value;
    var r := SelectOfKind(backups, IsObjectStoreBackup, r2Name).value;
    DatabaseStepsComeFirst(m, r, fails, k);
  }

  lemma DatabaseStepsComeFirst(m: BackupEntry, r: BackupEntry, fails: Effect -> bool, k: nat)
    requires k < 3 && fails((DatabaseSteps(m) + ObjectStoreSteps(r))[k])
    ensures var done := Seqs.RunUntilFailure(DatabaseSteps(m) + ObjectStoreSteps(r), fails);
      |done| <= k + 1 && forall e :: e in done ==> !e.RestoreObjectStore?
  {
    var effects := DatabaseSteps(m) + ObjectStoreSteps(r);
    var done := Seqs.RunUntilFailure(effects, fails);
    Seqs.RunStopsAtFailure(effects, fails, k);
    assert done == DatabaseSteps(m)[..|done|];
  }

  /** A restore by date after that day's full backup finds both archives:
      the listing classifies them correctly and their names carry the date. */
  lemma {:induction false} BackupThenRestoreByDate(contents: seq<StoredObject>, date: string, a: nat, b: nat)
    requires IsDateText(date)
    requires a < |contents| && contents[a].key == UploadKey(MongoArchiveName(date))
    requires b < |contents| && contents[b].key == UploadKey(ObjectStoreArchiveName(date))
    ensures RestoreFromDate(ListBackups(Listed(Some(contents))), date).Steps?
  {
    var backups := ListBackups(Listed(Some(contents)));
    DayArchivesListed(contents, date, a, b);
    RestoreFromDateDelegates(backups, date);
  }

  /** Both archives of a day's backup are in the catalogue, each with its
      kind and a name holding the date. */
  lemma {:induction false} DayArchivesListed(contents: seq<StoredObject>, date: string, a: nat, b: nat)
    requires IsDateText(date)
    requires a < |contents| && contents[a].key == UploadKey(MongoArchiveName(date))
    requires b < |contents| && contents[b].key == UploadKey(ObjectStoreArchiveName(date))
    ensures var backups := ListBackups(Listed(Some(contents)));
      && (exists i :: 0 <= i < |backups| && IsDatabaseBackup(backups[i]) && NameHas(date)(backups[i]))
      && (exists j :: 0 <= j < |backups| && IsObjectStoreBackup(backups[j]) && NameHas(date)(backups[j]))
  {
    var backups := ListBackups(Listed(Some(contents)));
    MongoArchiveIsMongoDB(date);
    ObjectStoreArchiveIsR2(date);
    ArchiveNamesAreBasenames(date);
    ArchiveNamesCarryDate(date);
    ArchiveKeysAreArchives(date);
    ListBackupsKeepsArchives(contents);
    var em := EntryOf(contents[a]);
    var er := EntryOf(contents[b]);
    assert IsArchive(contents[a]) && IsArchive(contents[b]);
    assert em in backups && er in backups;
    var i :| 0 <= i < |backups| && backups[i] == em;
    var j :| 0 <= j < |backups| && backups[j] == er;
    assert IsDatabaseBackup(backups[i]) && NameHas(date)(backups[i]);
    assert IsObjectStoreBackup(backups[j]) && NameHas(date)(backups[j]);
  }
}

=== FILE: catalogue.dfy ===
/** The public catalogue (controllers/homeController.js): the home page, the
    all-games page and the search page share one paginated, filtered query
    over the `games` collection, ten games per page, newest first. */
module Catalogue {
  import opened Js
  import opened Games
  import Seqs

  /** MongoDB's case-insensitive `$regex` test, `(pattern, text)`. Its
      semantics belong to the database and are left abstract. */
  type Regex = (string, string) -> bool

  /** `limit = 10`, the only page size the handlers use. */
  const PageSize: nat := 10

  /** The filter object: a title pattern and an exact platform, each optional. */
  datatype Query = Query(title: Option<string>, platform: Option<string>)

  /** A filter key is set exactly when its request value is non-empty. */
  function BuildQuery(search: string, platform: string): (q: Query)
    ensures q.title.Some? <==> search != ""
    ensures q.title.Some? ==> q.title.value == search
    ensures q.platform.Some? <==> platform != ""
    ensures q.platform.Some? ==> q.platform.value == platform
  {
    Query(if search != "" then Some(search) else None,
          if platform != "" then Some(platform) else None)
  }

  predicate Matches(q: Query, regex: Regex, g: Game) {
    && (q.title.None? || regex(q.title.value, g.title))
    && (q.platform.None? || g.platform == q.platform.value)
  }

  /** The games the query selects, in natural (storage) order. */
  function Selected(store: seq<Game>, q: Query, regex: Regex): (r: seq<Game>)
    ensures forall g :: g in r <==> g in store && Matches(q, regex, g)
    ensures forall g :: multiset(r)[g] == if Matches(q, regex, g) then multiset(store)[g] else 0
  {
    Seqs.FilterCounts(store, g => Matches(q, regex, g));
    Seqs.Filter(store, g => Matches(q, regex, g))
  }

  /** Selection keeps storage order: selecting from two stretches of the
      collection is selecting from each in turn. */
  lemma SelectedConcat(a: seq<Game>, b: seq<Game>, q: Query, regex: Regex)
    ensures Selected(a + b, q, regex) == Selected(a, q, regex) + Selected(b, q, regex)
  {
    Seqs.FilterConcat(a, b, g => Matches(q, regex, g));
  }

  /** `sort({ createdAt: -1 })`: the same games, newest first. */
  function Newest(games: seq<Game>): (r: seq<Game>)
    ensures Seqs.NonIncreasing(r, CreatedAt)
    ensures multiset(r) == multiset(games)
    ensures |r| == |games|
  {
    Seqs.SortByKeyDesc(games, CreatedAt)
  }

  /** The window of `limit` games after the first `skip` of the newest-first
      order of `selected`. */
  function NewestWindow(selected: seq<Game>, skip: nat, limit: nat): (games: seq<Game>)
    ensures |games| == (if skip + limit <= |selected| then limit
                        else if skip <= |selected| then |selected| - skip else 0)
    ensures forall i :: 0 <= i < |games| ==> games[i] == Newest(selected)[skip + i]
    ensures skip <= |selected| ==> games == Newest(selected)[skip..skip + |games|]
    ensures forall g :: g in games ==> g in selected
    ensures Seqs.NonIncreasing(games, CreatedAt)
  {
    var sorted := Newest(selected);
    var games := Seqs.Take(Seqs.Drop(sorted, skip), limit);
    assert forall i :: 0 <= i < |games| ==> games[i] == sorted[skip + i];
    Seqs.WindowKeepsOrder(sorted, CreatedAt, skip, limit);
    Seqs.SameElements(sorted, selected);
    games
  }

  /** One page of a listing. */
  datatype Page = Page(games: seq<Game>, totalPages: int)

  /** The database either answers or refuses the query (it refuses a negative
      `skip`, which a negative page number produces). */
  datatype Answer = Answered(page: Page) | Refused

  /** `getPaginatedGames`: filter, sort by `createdAt` descending, skip
      `(page - 1) * limit`, keep `limit`; the count uses the same filter. */
  function PaginatedGames(store: seq<Game>, regex: Regex, search: string, platform: string, page: int): (r: Answer)
    ensures r.Refused? <==> page < 1
    ensures r.Answered? ==>
      var selected := Selected(store, BuildQuery(search, platform), regex);
      var skip := (page - 1) * PageSize;
      && |r.page.games| <= PageSize
      && |r.page.games| == (if skip + PageSize <= |selected| then PageSize
                            else if skip <= |selected| then |selected| - skip else 0)
      && (forall g :: g in r.page.games ==> g in store && Matches(BuildQuery(search, platform), regex, g))
      && Seqs.NonIncreasing(r.page.games, CreatedAt)
      && (forall i :: 0 <= i < |r.page.games| ==> r.page.games[i] == Newest(selected)[skip + i])
      && (r.page.totalPages - 1) * PageSize < |selected| <= r.page.totalPages * PageSize
  {
    var q := BuildQuery(search, platform);
    var skip := (page - 1) * PageSize;
    if skip < 0 then Refused
    else
      var selected := Selected(store, q, regex);
      Answered(Page(NewestWindow(selected, skip, PageSize), CeilDiv(|selected|, PageSize)))
  }

  /** The query string of a catalogue request. `page` is `parseInt` of the
      parameter, None standing for NaN. */
  datatype CatalogueRequest = CatalogueRequest(
    search: Option<string>, q: Option<string>, platform: Option<string>, page: Option<int>)

  /** What the handler renders: the page, or the 500 error page. */
  datatype View =
    | Listing(games: seq<Game>, currentPage: int, totalPages: int, searchQuery: string, currentPlatform: string)
    | ServerError

  /** `parseInt(req.query.page) || 1`. */
  function PageNumber(raw: Option<int>): (page: int)
    ensures page != 0
    ensures raw.None? || raw == Some(0) ==> page == 1
    ensures raw.Some? && raw.value != 0 ==> page == raw.value
  {
    IntOr(raw, 1)
  }

  /** The page a request renders: the paginated listing, or the 500 page when
      the skip is negative. */
  function Render(store: seq<Game>, regex: Regex, search: string, platform: string, page: int): (v: View)
    ensures v.Listing? <==> page >= 1
    ensures v.Listing? ==>
      && v.searchQuery == search && v.currentPlatform == platform && v.currentPage == page
      && ShowsPage(store, regex, search, platform, page, v)
  {
    match PaginatedGames(store, regex, search, platform, page)
    case Refused => ServerError
    case Answered(p) => Listing(p.games, page, p.totalPages, search, platform)
  }

  /** A listing for `page` shows the page-th run of `PageSize` games of the
      selection, newest first, and a page count that covers the selection
      with no page to spare. */
  ghost predicate ShowsPage(store: seq<Game>, regex: Regex, search: string, platform: string, page: int, v: View) {
    var selected := Selected(store, BuildQuery(search, platform), regex);
    var skip := (page - 1) * PageSize;
    && v.Listing?
    && skip >= 0
    && |v.games| == (if skip + PageSize <= |selected| then PageSize
                     else if skip <= |selected| then |selected| - skip else 0)
    && (forall i :: 0 <= i < |v.games| ==> v.games[i] == Newest(selected)[skip + i])
    && (v.totalPages - 1) * PageSize < |selected| <= v.totalPages * PageSize
  }

  /** `getHome`: the home page. */
  function GetHome(store: seq<Game>, regex: Regex, req: CatalogueRequest): (v: View)
    ensures v.Listing? <==> PageNumber(req.page) >= 1
    ensures v.Listing? ==>
      && v.searchQuery == OrElse(req.search, "")
      && v.currentPlatform == OrElse(req.platform, "")
      && v.currentPage == PageNumber(req.page)
      && ShowsPage(store, regex, v.searchQuery, v.currentPlatform, v.currentPage, v)
  {
    Render(store, regex, OrElse(req.search, ""), OrElse(req.platform, ""), PageNumber(req.page))
  }

  /** `gamesController.getAllGames`: the same listing on the all-games page. */
  function GetAllGames(store: seq<Game>, regex: Regex, req: CatalogueRequest): (v: View)
    ensures v == GetHome(store, regex, req)
  {
    Render(store, regex, OrElse(req.search, ""), OrElse(req.platform, ""), PageNumber(req.page))
  }

  /** `searchGames`: the search term is `search`, else `q`, else empty. */
  function SearchGames(store: seq<Game>, regex: Regex, req: CatalogueRequest): (v: View)
    ensures v.Listing? ==> v.searchQuery == OrElse(Or(req.search, req.q), "")
    ensures Truthy(req.search) ==> v == GetHome(store, regex, req)
    ensures v.Listing? <==> PageNumber(req.page) >= 1
    ensures v.Listing? ==> ShowsPage(store, regex, v.searchQuery, OrElse(req.platform, ""), PageNumber(req.page), v)
  {
    Render(store, regex, OrElse(Or(req.search, req.q), ""), OrElse(req.platform, ""), PageNumber(req.page))
  }

  // ---------------------------------------------------------------------------

  /** A missing, non-numeric or zero page parameter is page 1; any other
      number is kept as it is (including a negative one). */
  lemma PageDefaulting(raw: Option<int>)
    ensures raw.None? || raw == Some(0) ==> PageNumber(raw) == 1
    ensures raw.Some? && raw.value != 0 ==> PageNumber(raw) == raw.value
  {
  }

  /** Without filters every game is selected, so the last page number covers
      the whole collection. */
  lemma {:induction false} UnfilteredSelectsAll(store: seq<Game>, regex: Regex)
    ensures Selected(store, BuildQuery("", ""), regex) == store
  {
    if |store| > 0 {
      UnfilteredSelectsAll(store[1..], regex);
      assert store == [store[0]] + store[1..];
    }
  }
}

=== FILE: game.dfy ===
/** The game record stored in the `games` collection, and the form of fields an
    administrator submits for it. */
module Games {
  import opened Js

  /** The thirteen text fields of the upload and edit forms. A field the form
      leaves out is the empty string. */
  datatype GameForm = GameForm(
    title: string,
    description: string,
    platform: string,
    genre: string,
    langText: string,
    langVoices: string,
    fileSize: string,
    downloadLink: string,
    minRequirements: string,
    recRequirements: string,
    releaseDate: string,
    lastUpdate: string,
    details: string)

  /** A stored game. `id` is the document's `_id`; `slug` is looked up by the
      detail page; times are milliseconds since the epoch. */
  datatype Game = Game(
    id: nat,
    slug: Option<string>,
    title: string,
    description: string,
    platform: string,
    genre: string,
    langText: string,
    langVoices: string,
    fileSize: string,
    downloadLink: string,
    minRequirements: string,
    recRequirements: string,
    releaseDate: string,
    lastUpdate: string,
    details: string,
    imageUrl: string,
    captures: seq<string>,
    createdAt: int,
    updatedAt: Option<int>)

  /** The form fields currently held by a game. */
  function FormOf(g: Game): GameForm {
    GameForm(g.title, g.description, g.platform, g.genre, g.langText, g.langVoices,
             g.fileSize, g.downloadLink, g.minRequirements, g.recRequirements,
             g.releaseDate, g.lastUpdate, g.details)
  }

  /** A new game built from a form, with its media and creation time. */
  function NewGame(id: nat, f: GameForm, imageUrl: string, captures: seq<string>, createdAt: int): Game {
    Game(id, None, f.title, f.description, f.platform, f.genre, f.langText, f.langVoices,
         f.fileSize, f.downloadLink, f.minRequirements, f.recRequirements, f.releaseDate,
         f.lastUpdate, f.details, imageUrl, captures, createdAt, None)
  }

  /** The four form fields whose schema paths are `required`; the fifth
      required path, `imageUrl`, is not a form field. */
  predicate RequiredFieldsFilled(f: GameForm) {
    f.title != "" && f.description != "" && f.platform != "" && f.downloadLink != ""
  }

  /** The schema's `required` validators (models/Game.js): `save()` rejects a
      game whose title, description, platform, download link or image address
      is empty (a missing field is the empty string here). */
  predicate SchemaValid(g: Game) {
    g.title != "" && g.description != "" && g.platform != "" && g.downloadLink != "" && g.imageUrl != ""
  }

  /** The sort key of every listing: the creation time. */
  function CreatedAt(g: Game): int {
    g.createdAt
  }

  /** The position of the first game with the given `_id` (`findById`). */
  function FindById(store: seq<Game>, id: nat): (r: Option<nat>)
    ensures r.Some? ==> r.value < |store| && store[r.value].id == id
    ensures r.Some? ==> forall j :: 0 <= j < r.value ==> store[j].id != id
    ensures r.None? ==> forall j :: 0 <= j < |store| ==> store[j].id != id
  {
    if |store| == 0 then None
    else if store[0].id == id then Some(0)
    else match FindById(store[1..], id)
      case None => None
      case Some(k) => Some(k + 1)
  }
}

=== FILE: game_detail.dfy ===
/** The game detail page (controllers/gameDetailController.js): look a game up
    by slug, recommend up to six other games of the same platform, newest
    first, and build the page's search-engine metadata. */
module GameDetail {
  import opened Js
  import opened Text
  import opened Games
  import Seqs
  import Catalogue

  const RecommendationLimit: nat := 6

  /** The database queries the handler issues, in order. */
  datatype DbQuery = FindBySlug(slug: string) | FindRecommended(platform: string, excludedId: nat)

  datatype Seo = Seo(
    pageTitle: string,
    metaDescription: string,
    keywords: seq<string>,
    ogImage: string,
    canonicalUrl: string)

  datatype DetailView = NotFound | Detail(game: Game, recommended: seq<Game>, seo: Seo)

  datatype DetailResponse = DetailResponse(queries: seq<DbQuery>, view: DetailView)

  /** `findOne({ slug })`: the first game in storage order with that slug. */
  function FindBySlugIn(store: seq<Game>, slug: string): (r: Option<nat>)
    ensures r.Some? ==> r.value < |store| && store[r.value].slug == Some(slug)
    ensures r.Some? ==> forall j :: 0 <= j < r.value ==> store[j].slug != Some(slug)
    ensures r.None? ==> forall j :: 0 <= j < |store| ==> store[j].slug != Some(slug)
  {
    if |store| == 0 then None
    else if store[0].slug == Some(slug) then Some(0)
    else match FindBySlugIn(store[1..], slug)
      case None => None
      case Some(k) => Some(k + 1)
  }

  /** Same platform, different `_id`. */
  predicate Recommendable(g: Game, h: Game) {
    h.platform == g.platform && h.id != g.id
  }

  function Candidates(store: seq<Game>, g: Game): (r: seq<Game>)
    ensures forall h :: h in r <==> h in store && Recommendable(g, h)
  {
    Seqs.Filter(store, h => Recommendable(g, h))
  }

  /** `find({ platform, _id: { $ne } }).limit(6).sort({ createdAt: -1 })`: the
      database sorts before it limits, so these are the six newest candidates. */
  function Recommendations(store: seq<Game>, g: Game): (r: seq<Game>)
    ensures |r| <= RecommendationLimit
    ensures forall h :: h in r ==> h in store && h.platform == g.platform && h.id != g.id
    ensures Seqs.NonIncreasing(r, CreatedAt)
    ensures |r| == if |Candidates(store, g)| < RecommendationLimit then |Candidates(store, g)| else RecommendationLimit
    ensures forall i :: 0 <= i < |r| ==> r[i] == Catalogue.Newest(Candidates(store, g))[i]
  {
    var c := Candidates(store, g);
    var r := Catalogue.NewestWindow(c, 0, RecommendationLimit);
    r
  }

  /** The page's metadata: title, description, keywords (the lowercased title
      first), image and canonical address. */
  function SeoFor(g: Game, slug: string): (s: Seo)
    ensures s.canonicalUrl == "/games/" + slug
    ensures |s.keywords| == 11 && s.keywords[0] == ToLower(g.title)
    ensures s.keywords[1] == "descargar " + g.title && s.keywords[2] == g.platform
    ensures s.ogImage == g.imageUrl
  {
    Seo("Descargar " + g.title + " MEGA, Mediafire, Google Drive",
        "Descarga " + g.title + " GRATIS a traves de MEGA, Mediafire, Google drive. " + g.details
          + "... Plataforma: " + g.platform + ". G\U{E9}neros: " + g.genre + ".",
        [ToLower(g.title), "descargar " + g.title, g.platform, g.genre, g.langText, g.langVoices,
         "juego gratis", "full versi\U{F3}n", "mega", "mediafire", "google drive"],
        g.imageUrl,
        "/games/" + slug)
  }

  /** `getGameBySlug`: an unknown slug answers 404 after the one lookup;
      otherwise the recommendation query follows and the page is rendered. */
  function GetGameBySlug(store: seq<Game>, slug: string): (r: DetailResponse)
    ensures FindBySlugIn(store, slug).None? <==> r.view.NotFound?
    ensures r.view.NotFound? ==> r.queries == [FindBySlug(slug)]
    ensures r.view.Detail? ==>
      && r.view.game in store && r.view.game.slug == Some(slug)
      && r.queries == [FindBySlug(slug), FindRecommended(r.view.game.platform, r.view.game.id)]
      && r.view.recommended == Recommendations(store, r.view.game)
      && r.view.seo.canonicalUrl == "/games/" + slug
  {
    match FindBySlugIn(store, slug)
    case None => DetailResponse([FindBySlug(slug)], NotFound)
    case Some(k) =>
      var g := store[k];
      DetailResponse([FindBySlug(slug), FindRecommended(g.platform, g.id)],
                     Detail(g, Recommendations(store, g), SeoFor(g, slug)))
  }

  // ---------------------------------------------------------------------------

  /** No candidate left out of the recommendations is newer than any that was
      chosen, and with fewer than six candidates all of them are recommended. */
  lemma {:induction false} RecommendationsAreNewest(store: seq<Game>, g: Game, h: Game)
    requires h in Candidates(store, g)
    ensures h in Recommendations(store, g) ||
            forall i :: 0 <= i < |Recommendations(store, g)| ==> Recommendations(store, g)[i].createdAt >= h.createdAt
    ensures |Candidates(store, g)| < RecommendationLimit ==> h in Recommendations(store, g)
  {
    var c := Candidates(store, g);
    var sorted := Catalogue.Newest(c);
    var r := Recommendations(store, g);
    assert h in multiset(c);
    assert h in multiset(sorted);
    var k :| 0 <= k < |sorted| && sorted[k] == h;
    if k < |r| {
      assert r[k] == h;
    } else {
      forall i | 0 <= i < |r|
        ensures r[i].createdAt >= h.createdAt
      {
        assert r[i] == sorted[i];
        assert CreatedAt(sorted[i]) >= CreatedAt(sorted[k]);
      }
    }
  }

  /** Every stored game that is the first with its slug is reachable at
      its canonical address: requesting `/games/<slug>` renders that game,
      and the page names the same address as canonical. */
  lemma CanonicalUrlLeadsBack(store: seq<Game>, k: nat)
    requires k < |store| && store[k].slug.Some?
    requires forall j :: 0 <= j < k ==> store[j].slug != store[k].slug
    ensures var slug := store[k].slug.value;
      var r := GetGameBySlug(store, slug);
      && r.view.Detail? && r.view.game == store[k]
      && r.view.seo.canonicalUrl == "/games/" + slug
      && r.view.seo.canonicalUrl[|"/games/"|..] == slug
  {
    var slug := store[k].slug.value;
    assert store[k].slug == Some(slug);
  }

  /** The first keyword is already in lower case: lowering it again changes
      nothing. */
  lemma FirstKeywordIsLowercase(g: Game, slug: string)
    ensures var k := SeoFor(g, slug).keywords[0];
      ToLower(k) == k && |k| == |g.title|
  {
    var k := SeoFor(g, slug).keywords[0];
    assert forall i :: 0 <= i < |k| ==> LowerChar(k[i]) == k[i];
  }
}

=== FILE: game_management.dfy ===
/** The older game-management handlers (controllers/gameController.js): a
    paginated list whose page size is a request parameter, a three-field
    search, and create / update of games whose images live on local disk under
    `public/`. */
module GameManagement {
  import opened Js
  import opened Text
  import opened Games
  import Seqs
  import Catalogue

  const DefaultLimit: int := 10
  const SearchLimit: nat := 10

  function Abs(x: int): nat {
    if x < 0 then -x else x
  }

  /** The list page, or the 500 error page. */
  datatype ListView =
    | GameList(games: seq<Game>, currentPage: int, totalPages: int, limit: int)
    | ListError

  /** `getGames`: `page` and `limit` default to 1 and 10 when missing, zero
      or non-numeric; the whole collection is listed newest first. The
      database refuses a negative `skip`; a negative `limit` asks for a single
      batch of `|limit|` documents. */
  function GetGames(store: seq<Game>, rawPage: Option<int>, rawLimit: Option<int>): (v: ListView)
    ensures
      var page := IntOr(rawPage, 1);
      var limit := IntOr(rawLimit, DefaultLimit);
      var skip := (page - 1) * limit;
      && limit != 0
      && (v.ListError? <==> skip < 0)
      && (v.GameList? ==>
            && v.currentPage == page && v.limit == limit
            && |v.games| <= Abs(limit)
            && |v.games| == (if skip + Abs(limit) <= |store| then Abs(limit)
                             else if skip <= |store| then |store| - skip else 0)
            && (forall i :: 0 <= i < |v.games| ==> v.games[i] == Catalogue.Newest(store)[skip + i])
            && v.totalPages == CeilDiv(|store|, limit))
  {
    var page := IntOr(rawPage, 1);
    var limit := IntOr(rawLimit, DefaultLimit);
    var skip := (page - 1) * limit;
    if skip < 0 then ListError
    else GameList(Catalogue.NewestWindow(store, skip, Abs(limit)), page, CeilDiv(|store|, limit), limit)
  }

  /** The `$or` of three case-insensitive patterns. */
  predicate AnyFieldMatches(regex: Catalogue.Regex, q: string, g: Game) {
    regex(q, g.title) || regex(q, g.description) || regex(q, g.genre)
  }

  function SearchMatches(store: seq<Game>, regex: Catalogue.Regex, q: string): (r: seq<Game>)
    ensures forall g :: g in r <==> g in store && AnyFieldMatches(regex, q, g)
  {
    Seqs.Filter(store, g => AnyFieldMatches(regex, q, g))
  }

  /** `searchGames`: the first ten matching games in storage order (no sort). */
  function SearchGames(store: seq<Game>, regex: Catalogue.Regex, q: string): (r: seq<Game>)
    ensures |r| <= SearchLimit
    ensures forall g :: g in r ==> g in store && AnyFieldMatches(regex, q, g)
    ensures |r| <= |SearchMatches(store, regex, q)|
    ensures r == SearchMatches(store, regex, q)[..|r|]
    ensures |r| < SearchLimit ==> r == SearchMatches(store, regex, q)
  {
    Seqs.Take(SearchMatches(store, regex, q), SearchLimit)
  }

  /** A stored file path made public: the first `public` is removed. */
  function PublicUrl(path: string): (url: string)
    ensures !Contains(path, "public") ==> url == path
    ensures StartsWith(path, "public") ==> "public" + url == path
  {
    ReplaceFirst(path, "public", "")
  }

  /** Disk paths multer wrote for one request: the first main image, if any,
      and the captures field, if present. */
  datatype LocalUploads = LocalUploads(image: Option<string>, captures: Option<seq<string>>)

  /** The form fields `createGame` and `updateGame` read; the other five stay empty. */
  function BasicFields(f: GameForm): (b: GameForm)
    ensures b.title == f.title && b.description == f.description && b.platform == f.platform
    ensures b.genre == f.genre && b.langText == f.langText && b.langVoices == f.langVoices
    ensures b.fileSize == f.fileSize && b.downloadLink == f.downloadLink
    ensures b.minRequirements == "" && b.recRequirements == "" && b.releaseDate == ""
    ensures b.lastUpdate == "" && b.details == ""
  {
    GameForm(f.title, f.description, f.platform, f.genre, f.langText, f.langVoices,
             f.fileSize, f.downloadLink, "", "", "", "", "")
  }

  function PublicUrls(paths: seq<string>): (r: seq<string>)
    ensures |r| == |paths|
    ensures forall i :: 0 <= i < |paths| ==> r[i] == PublicUrl(paths[i])
  {
    seq(|paths|, i requires 0 <= i < |paths| => PublicUrl(paths[i]))
  }

  datatype CreateOutcome =
    | Created(game: Game)
    | CreateFailed(removedFiles: seq<string>)

  /** Every file of the request, for the clean-up after a failed create. */
  function UploadedPaths(files: Option<LocalUploads>): seq<string> {
    if files.None? then []
    else (if files.value.image.Some? then [files.value.image.value] else [])
         + (if files.value.captures.Some? then files.value.captures.value else [])
  }

  /** `createGame`: a missing main image throws, and so does a save the
      schema's `required` validators reject (an empty title, description,
      platform or download link, or an image path that is nothing but
      `public`) or that fails; then every uploaded file is deleted again.
      Otherwise the game stores the public URLs of its image and captures,
      and no captures field means no captures. */
  function CreateGame(id: nat, form: GameForm, files: Option<LocalUploads>, now: int, saveOk: bool): (r: CreateOutcome)
    ensures r.Created? <==>
      files.Some? && files.value.image.Some? && saveOk
      && RequiredFieldsFilled(form) && PublicUrl(files.value.image.value) != ""
    ensures r.Created? ==>
      && SchemaValid(r.game)
      && r.game.id == id && r.game.createdAt == now
      && FormOf(r.game) == BasicFields(form)
      && r.game.imageUrl == PublicUrl(files.value.image.value)
      && (files.value.captures.None? ==> r.game.captures == [])
      && (files.value.captures.Some? ==>
            && |r.game.captures| == |files.value.captures.value|
            && forall i :: 0 <= i < |r.game.captures| ==>
                 r.game.captures[i] == PublicUrl(files.value.captures.value[i]))
    ensures r.CreateFailed? ==> r.removedFiles == UploadedPaths(files)
  {
    if files.None? || files.value.image.None? then CreateFailed(UploadedPaths(files))
    else
      var captures := if files.value.captures.Some? then PublicUrls(files.value.captures.value) else [];
      var g := NewGame(id, BasicFields(form), PublicUrl(files.value.image.value), captures, now);
      if !saveOk || !SchemaValid(g) then CreateFailed(UploadedPaths(files)) else Created(g)
  }

  datatype UpdateStatus = Updated | UpdateNotFound | UpdateFailed

  /** The result of `updateGame`: the collection afterwards, the files
      deleted from disk, and the redirect taken. */
  datatype UpdateResult = UpdateResult(store: seq<Game>, removedFiles: seq<string>, status: UpdateStatus)

  /** The eight fields `createGame` and `updateGame` take from the request body. */
  predicate SameBasicFields(g: Game, f: GameForm) {
    && g.title == f.title && g.description == f.description && g.platform == f.platform
    && g.genre == f.genre && g.langText == f.langText && g.langVoices == f.langVoices
    && g.fileSize == f.fileSize && g.downloadLink == f.downloadLink
  }

  /** The in-memory game after `updateGame` assigned its fields. */
  function Revised(g: Game, form: GameForm, files: LocalUploads): Game {
    var b := BasicFields(form);
    g.(title := b.title, description := b.description, platform := b.platform, genre := b.genre,
       langText := b.langText, langVoices := b.langVoices, fileSize := b.fileSize,
       downloadLink := b.downloadLink,
       imageUrl := if files.image.Some? then PublicUrl(files.image.value) else g.imageUrl,
       captures := if files.captures.Some? then PublicUrls(files.captures.value) else g.captures)
  }

  function OnDisk(url: string): string {
    "public" + url
  }

  /** The files `updateGame` deletes from disk before saving: the old image
      when a new one was uploaded, then the old captures when new ones were. */
  function ReplacedFiles(prev: Game, files: LocalUploads): (removed: seq<string>)
    ensures var off := if files.image.Some? then 1 else 0;
      && |removed| == off + (if files.captures.Some? then |prev.captures| else 0)
      && (files.image.Some? ==> removed[0] == OnDisk(prev.imageUrl))
      && (files.captures.Some? ==>
            forall i :: 0 <= i < |prev.captures| ==> removed[off + i] == OnDisk(prev.captures[i]))
  {
    (if files.image.Some? then [OnDisk(prev.imageUrl)] else [])
    + (if files.captures.Some? then seq(|prev.captures|, i requires 0 <= i < |prev.captures| => OnDisk(prev.captures[i])) else [])
  }

  /** `updateGame`: an unknown id changes nothing. Otherwise the eight basic
      fields are overwritten; the image is replaced (and the old file deleted)
      only when a new image was uploaded, and likewise the captures. A request
      without files throws before saving; a save the schema's `required`
      validators reject, or that fails, leaves the record as it was, though
      the old files are already gone. */
  function UpdateGame(store: seq<Game>, id: nat, form: GameForm, files: Option<LocalUploads>, saveOk: bool): (r: UpdateResult)
    ensures FindById(store, id).None? ==> r == UpdateResult(store, [], UpdateNotFound)
    ensures r.status != Updated ==> r.store == store
    ensures |r.store| == |store|
    ensures r.status == Updated <==>
      && FindById(store, id).Some? && files.Some? && saveOk && RequiredFieldsFilled(form)
      && (if files.value.image.Some? then PublicUrl(files.value.image.value)
          else store[FindById(store, id).value].imageUrl) != ""
    ensures r.status == Updated ==>
      var k := FindById(store, id).value;
      var prev := store[k];
      var g := r.store[k];
      && (forall j :: 0 <= j < |store| && j != k ==> r.store[j] == store[j])
      && SchemaValid(g)
      && g.id == prev.id && g.createdAt == prev.createdAt && g.slug == prev.slug
      && SameBasicFields(g, form)
      && g.minRequirements == prev.minRequirements && g.recRequirements == prev.recRequirements
      && g.releaseDate == prev.releaseDate && g.lastUpdate == prev.lastUpdate
      && g.details == prev.details && g.updatedAt == prev.updatedAt
      && (files.value.image.Some? ==> g.imageUrl == PublicUrl(files.value.image.value))
      && (files.value.image.None? ==> g.imageUrl == prev.imageUrl)
      && (files.value.captures.Some? ==> g.captures == PublicUrls(files.value.captures.value))
      && (files.value.captures.None? ==> g.captures == prev.captures)
    ensures FindById(store, id).None? || files.None? ==> r.removedFiles == []
    ensures FindById(store, id).Some? && files.Some? ==>
      r.removedFiles == ReplacedFiles(store[FindById(store, id).value], files.value)
  {
    match FindById(store, id)
    case None => UpdateResult(store, [], UpdateNotFound)
    case Some(k) =>
      if files.None? then UpdateResult(store, [], UpdateFailed)
      else
        var prev := store[k];
        var removed := ReplacedFiles(prev, files.value);
        var revised := Revised(prev, form, files.value);
        if !saveOk || !SchemaValid(revised) then UpdateResult(store, removed, UpdateFailed)
        else UpdateResult(store[k := revised], removed, Updated)
  }

  // ---------------------------------------------------------------------------

  /** `replace('public', '')` removes exactly the first occurrence of `public`
      and leaves a path without one unchanged. */
  lemma PublicUrlRemovesFirstPublic(path: string)
    ensures !Contains(path, "public") ==> PublicUrl(path) == path
    ensures Contains(path, "public") ==>
      var i := IndexOf(path, "public").value;
      && PublicUrl(path) == path[..i] + path[i + 6..]
      && (forall j :: 0 <= j < i ==> !OccursAt(path, "public", j))
  {
  }

  /** Where multer writes: every stored path starts with `public`. */
  predicate UnderPublic(path: string) {
    StartsWith(path, "public")
  }

  /** The file an update deletes is the file its public URL came from. */
  lemma OnDiskUndoesPublicUrl(path: string)
    requires UnderPublic(path)
    ensures OnDisk(PublicUrl(path)) == path
  {
    assert OccursAt(path, "public", 0);
    assert path == "public" + path[6..];
  }

  /** A game whose media are the public URLs of uploads under `public/`:
      replacing both image and captures deletes exactly those uploads. */
  lemma {:induction false} ReplacedFilesAreUploads(g: Game, files1: LocalUploads, files2: LocalUploads)
    requires files1.image.Some? && UnderPublic(files1.image.value)
    requires files1.captures.Some? && forall i :: 0 <= i < |files1.captures.value| ==> UnderPublic(files1.captures.value[i])
    requires g.imageUrl == PublicUrl(files1.image.value) && g.captures == PublicUrls(files1.captures.value)
    requires files2.image.Some? && files2.captures.Some?
    ensures ReplacedFiles(g, files2) == [files1.image.value] + files1.captures.value
  {
    var removed := ReplacedFiles(g, files2);
    var expected := [files1.image.value] + files1.captures.value;
    OnDiskUndoesPublicUrl(files1.image.value);
    forall j | 1 <= j < |removed|
      ensures removed[j] == expected[j]
    {
      OnDiskUndoesPublicUrl(files1.captures.value[j - 1]);
      assert g.captures[j - 1] == PublicUrl(files1.captures.value[j - 1]);
    }
  }

  /** Two updates in a row: the second one, uploading a new image and new
      captures, deletes from disk exactly the files the first one uploaded. */
  lemma {:induction false} SecondUpdateRemovesFirstUploads(store: seq<Game>, id: nat, form1: GameForm, files1: LocalUploads,
                                        form2: GameForm, files2: LocalUploads, saveOk: bool)
    requires FindById(store, id).Some?
    requires files1.image.Some? && UnderPublic(files1.image.value)
    requires files1.captures.Some? && forall i :: 0 <= i < |files1.captures.value| ==> UnderPublic(files1.captures.value[i])
    requires files2.image.Some? && files2.captures.Some?
    requires RequiredFieldsFilled(form1) && PublicUrl(files1.image.value) != ""
    ensures var first := UpdateGame(store, id, form1, Some(files1), true);
      UpdateGame(first.store, id, form2, Some(files2), saveOk).removedFiles
        == [files1.image.value] + files1.captures.value
  {
    var k := FindById(store, id).value;
    var first := UpdateGame(store, id, form1, Some(files1), true);
    assert first.status == Updated;
    var g := first.store[k];
    FindByIdAfterUpdate(store, k, g);
    assert first.store == store[k := g];
    ReplacedFilesAreUploads(g, files1, files2);
  }

  /** Replacing the game at its index keeps its id and so its position. */
  lemma FindByIdAfterUpdate(store: seq<Game>, k: nat, g: Game)
    requires k < |store| && g.id == store[k].id
    requires FindById(store, store[k].id) == Some(k)
    ensures FindById(store[k := g], g.id) == Some(k)
  {
    var s := store[k := g];
    assert s[k].id == g.id;
    assert forall j :: 0 <= j < k ==> s[j].id != g.id;
  }

  lemma PublicUrlExample()
    ensures PublicUrl("public/uploads/cover.png") == "/uploads/cover.png"
  {
    assert OccursAt("public/uploads/cover.png", "public", 0);
  }
}

=== FILE: ip_restriction.dfy ===
/** The admin area's IP allow-list (middlewares/ipRestriction.js). */
module IpRestriction {
  import opened Js
  import opened Text

  /** The prefix of an IPv4 address written in IPv6 notation. */
  const MappedPrefix: string := "::ffff:"

  /** Where the address comes from: `req.ip`, the `x-forwarded-for` header and
      the socket's `remoteAddress`, each possibly absent or empty. */
  datatype RequestAddress = RequestAddress(ip: Option<string>, forwardedFor: Option<string>, remoteAddress: Option<string>)

  /** `ALLOWED_IP_1` and `ALLOWED_IP_2`. */
  datatype AllowList = AllowList(first: Option<string>, second: Option<string>)

  /** `next()` is called, the request is answered 403, or the middleware
      throws because no address was found at all (Express answers 500). */
  datatype Decision = Next | Forbidden | NoAddress

  /** `req.ip || x-forwarded-for || remoteAddress`. */
  function ClientIp(a: RequestAddress): (r: Option<string>)
    ensures Truthy(a.ip) ==> r == a.ip
    ensures !Truthy(a.ip) && Truthy(a.forwardedFor) ==> r == a.forwardedFor
    ensures !Truthy(a.ip) && !Truthy(a.forwardedFor) ==> r == a.remoteAddress
  {
    Or(Or(a.ip, a.forwardedFor), a.remoteAddress)
  }

  /** `clientIP.replace('::ffff:', '')`: only the first occurrence goes. */
  function CleanIp(raw: string): (ip: string)
    ensures !Contains(raw, MappedPrefix) ==> ip == raw
    ensures StartsWith(raw, MappedPrefix) ==> ip == raw[|MappedPrefix|..]
    ensures Contains(raw, MappedPrefix) ==>
      var i := IndexOf(raw, MappedPrefix).value;
      ip == raw[..i] + raw[i + |MappedPrefix|..]
  {
    ReplaceFirst(raw, MappedPrefix, "")
  }

  /** `allowedIPs.includes(cleanIP)`: an unset variable never equals a string. */
  predicate Listed(allow: AllowList, ip: string) {
    allow.first == Some(ip) || allow.second == Some(ip)
  }

  function Restrict(a: RequestAddress, allow: AllowList): (d: Decision)
    ensures d == NoAddress <==> ClientIp(a).None?
    ensures d == Next <==> ClientIp(a).Some? && Listed(allow, CleanIp(ClientIp(a).value))
    ensures d == Forbidden <==> ClientIp(a).Some? && !Listed(allow, CleanIp(ClientIp(a).value))
  {
    match ClientIp(a)
    case None => NoAddress
    case Some(raw) => if Listed(allow, CleanIp(raw)) then Next else Forbidden
  }

  // ---------------------------------------------------------------------------

  /** An IPv4 address arriving in its IPv6-mapped form is cleaned back to
      itself, so both spellings get the same decision. */
  lemma MappedFormCleansToPlain(v4: string)
    requires !Contains(v4, MappedPrefix)
    ensures CleanIp(MappedPrefix + v4) == v4
    ensures CleanIp(v4) == v4
    ensures forall allow :: Listed(allow, CleanIp(MappedPrefix + v4)) <==> Listed(allow, CleanIp(v4))
  {
    var s := MappedPrefix + v4;
    assert OccursAt(s, MappedPrefix, 0) by { assert s[..|MappedPrefix|] == MappedPrefix; }
    assert IndexOf(s, MappedPrefix) == Some(0);
    assert s[|MappedPrefix|..] == v4;
  }

  /** With neither variable set, every request that carries an address is
      refused. */
  lemma EmptyAllowListRefusesAll(a: RequestAddress)
    requires ClientIp(a).Some?
    ensures Restrict(a, AllowList(None, None)) == Forbidden
  {
  }
}

=== FILE: js.dfy ===
/** JavaScript value-level conventions shared by every handler of the application:
    `undefined` values, truthiness of strings and the `parseInt(x) || d` idiom. */
module Js {

  /** `undefined` (None) or a present value (Some). */
  datatype Option<+T> = None | Some(value: T)

  /** A JavaScript string value that may be `undefined` is falsy when it is
      `undefined` or the empty string. */
  predicate Truthy(o: Option<string>) {
    o.Some? && o.value != ""
  }

  /** `a || b` for optional strings. */
  function Or(a: Option<string>, b: Option<string>): Option<string> {
    if Truthy(a) then a else b
  }

  /** `a || fallback` for an optional string with a string fallback. */
  function OrElse(a: Option<string>, fallback: string): string {
    if Truthy(a) then a.value else fallback
  }

  /** `parseInt(raw) || fallback`: `parsed` is the result of `parseInt`, None
      standing for NaN (a missing or non-numeric parameter). NaN and 0 are
      both falsy, so both fall back. */
  function IntOr(parsed: Option<int>, fallback: int): (r: int)
    ensures parsed.None? ==> r == fallback
    ensures parsed == Some(0) ==> r == fallback
    ensures parsed.Some? && parsed.value != 0 ==> r == parsed.value
  {
    if parsed.Some? && parsed.value != 0 then parsed.value else fallback
  }

  /** `Math.ceil(a / b)` for integers, b non-zero. Dafny's division is
      Euclidean: it rounds down for a positive divisor and up for a negative
      one, so only the positive case needs adjusting. */
  function CeilDiv(a: int, b: int): (r: int)
    requires b != 0
    ensures b > 0 ==> (r - 1) * b < a <= r * b
    ensures b < 0 ==> r * b <= a < (r - 1) * b
  {
    if b > 0 then -((-a) / b) else a / b
  }

  /** `s.slice(1)`: drops the first character, if there is one. */
  function Slice1(s: string): string {
    if |s| == 0 then "" else s[1..]
  }
}

=== FILE: object_store_restore.dfy ===
/** Restoring the object store from an archive (backup.js, `restoreR2` and
    `getContentType`): every object of the bucket is deleted page by page,
    then every extracted file is put back under its relative path with a
    content type chosen from its extension. */
module ObjectStoreRestore {
  import opened Js
  import opened Text
  import Seqs
  import UploadPolicy
  import BackupCatalogue
  import BackupCreate

  const DefaultContentType: string := "application/octet-stream"

  /** `getContentType`'s table, keyed by lower-case extension. */
  function TableType(ext: string): Option<string> {
    if ext == ".jpg" || ext == ".jpeg" then Some("image/jpeg")
    else if ext == ".png" then Some("image/png")
    else if ext == ".gif" then Some("image/gif")
    else if ext == ".webp" then Some("image/webp")
    else if ext == ".svg" then Some("image/svg+xml")
    else if ext == ".pdf" then Some("application/pdf")
    else if ext == ".txt" then Some("text/plain")
    else if ext == ".html" then Some("text/html")
    else if ext == ".css" then Some("text/css")
    else if ext == ".js" then Some("application/javascript")
    else if ext == ".json" then Some("application/json")
    else None
  }

  /** `contentTypes[ext] || 'application/octet-stream'`: no entry of the
      table is the fallback, so the fallback says exactly that the extension
      is unknown. */
  function TypeOfExtension(ext: string): (t: string)
    ensures t == DefaultContentType <==> TableType(ext).None?
    ensures TableType(ext).Some? ==> t == TableType(ext).value
  {
    match TableType(ext)
    case Some(t) =>
      assert |t| != |DefaultContentType|;
      t
    case None => DefaultContentType
  }

  /** `getContentType(filePath)`: the type of the lower-cased extension. */
  function GetContentType(filePath: string): (t: string)
    ensures t == DefaultContentType <==> TableType(LowerExtname(filePath)).None?
    ensures TableType(LowerExtname(filePath)).Some? ==> t == TableType(LowerExtname(filePath)).value
  {
    TypeOfExtension(LowerExtname(filePath))
  }

  /** `relativePath.replace(/\\/g, '/')`: every backslash becomes a slash. */
  function NormaliseSeparators(p: string): (r: string)
    ensures |r| == |p| && '\\' !in r
    ensures forall i :: 0 <= i < |p| ==> r[i] == (if p[i] == '\\' then '/' else p[i])
  {
    seq(|p|, i requires 0 <= i < |p| => if p[i] == '\\' then '/' else p[i])
  }

  /** `DeleteObjects`, or `PutObject` whose body is read from `file`. */
  datatype StoreCall =
    | DeleteBatch(bucket: string, keys: seq<string>)
    | Put(bucket: string, key: string, file: string)

  /** The `ContentType` a `PutObject` sends: `getContentType(file)`. */
  function SentContentType(c: StoreCall): string
    requires c.Put?
  {
    GetContentType(c.file)
  }

  /** The keys of a listing, page after page. */
  function Concat(pages: seq<seq<string>>): seq<string> {
    if |pages| == 0 then [] else pages[0] + Concat(pages[1..])
  }

  /** The keys the `DeleteObjects` calls name, call after call. */
  function BatchKeys(calls: seq<StoreCall>): seq<string> {
    if |calls| == 0 then []
    else (if calls[0].DeleteBatch? then calls[0].keys else []) + BatchKeys(calls[1..])
  }

  /** A listing page with contents. */
  function HasKeys(): seq<string> -> bool {
    p => |p| > 0
  }

  /** One `DeleteObjects` per listing page that has contents, naming that
      page's keys, so no batch is larger than a page. */
  function DeleteCalls(bucket: string, pages: seq<seq<string>>): (calls: seq<StoreCall>)
    ensures |calls| <= |pages|
    ensures forall i :: 0 <= i < |calls| ==> calls[i].DeleteBatch? && calls[i].bucket == bucket && |calls[i].keys| > 0
    ensures BatchKeys(calls) == Concat(pages)
  {
    if |pages| == 0 then []
    else
      var rest := DeleteCalls(bucket, pages[1..]);
      if |pages[0]| > 0 then
        var r := [DeleteBatch(bucket, pages[0])] + rest;
        assert r[1..] == rest;
        r
      else
        assert pages[0] == [];
        rest
  }

  /** The i-th batch delete holds exactly the keys of the i-th non-empty
      listing page: no non-empty page is skipped, and the order is kept. */
  lemma {:induction false} DeleteCallsFollowNonEmptyPages(bucket: string, pages: seq<seq<string>>)
    ensures var calls := DeleteCalls(bucket, pages);
      var f := Seqs.Filter(pages, HasKeys());
      |calls| == |f| && forall i :: 0 <= i < |calls| ==> calls[i].keys == f[i]
  {
    if |pages| > 0 {
      DeleteCallsFollowNonEmptyPages(bucket, pages[1..]);
      NonEmptyPagesCons(pages);
      if |pages[0]| > 0 {
        assert DeleteCalls(bucket, pages) == [DeleteBatch(bucket, pages[0])] + DeleteCalls(bucket, pages[1..]);
      } else {
        assert DeleteCalls(bucket, pages) == DeleteCalls(bucket, pages[1..]);
      }
    }
  }

  /** The non-empty pages of a listing are its first page, when that has
      keys, followed by the non-empty pages of the rest. */
  lemma NonEmptyPagesCons(pages: seq<seq<string>>)
    requires |pages| > 0
    ensures Seqs.Filter(pages, HasKeys()) ==
      (if |pages[0]| > 0 then [pages[0]] else []) + Seqs.Filter(pages[1..], HasKeys())
  {
    assert pages == [pages[0]] + pages[1..];
    Seqs.FilterCons(pages[0], pages[1..], HasKeys());
  }

  /** One `PutObject` per extracted file: `files` are the paths relative to
      the extraction directory, in the order the walk yields them. */
  function PutCalls(bucket: string, extractDir: string, files: seq<string>): (calls: seq<StoreCall>)
    ensures |calls| == |files|
    ensures forall i :: 0 <= i < |files| ==>
      calls[i] == Put(bucket, NormaliseSeparators(files[i]), extractDir + "/" + files[i])
  {
    seq(|files|, i requires 0 <= i < |files| =>
      Put(bucket, NormaliseSeparators(files[i]), extractDir + "/" + files[i]))
  }

  /** `restoreR2`: every listed key is deleted before any file is put back,
      and each extracted file is put once, in order. */
  function RestoreObjectStore(bucket: string, pages: seq<seq<string>>, extractDir: string, files: seq<string>): (calls: seq<StoreCall>)
    ensures forall i, j :: 0 <= i < j < |calls| && calls[j].DeleteBatch? ==> calls[i].DeleteBatch?
    ensures BatchKeys(calls) == Concat(pages)
    ensures |calls| >= |files|
    ensures forall i :: 0 <= i < |calls| - |files| ==> calls[i].DeleteBatch?
    ensures forall i :: 0 <= i < |calls| - |files| ==> calls[i].bucket == bucket
    ensures |calls| - |files| == |DeleteCalls(bucket, pages)|
    ensures forall i :: 0 <= i < |calls| - |files| ==> calls[i] == DeleteCalls(bucket, pages)[i]
    ensures forall i :: |calls| - |files| <= i < |calls| ==>
      var f := files[i - (|calls| - |files|)];
      calls[i] == Put(bucket, NormaliseSeparators(f), extractDir + "/" + f)
  {
    RestoreDeletesFirst(bucket, pages, extractDir, files);
    RestorePutsLast(bucket, pages, extractDir, files);
    BatchKeysConcat(DeleteCalls(bucket, pages), PutCalls(bucket, extractDir, files));
    NoBatchKeysInPuts(PutCalls(bucket, extractDir, files));
    DeleteCalls(bucket, pages) + PutCalls(bucket, extractDir, files)
  }

  /** The restore's calls open with its batch deletes, all sent to the
      bucket, and no batch delete follows a put. */
  lemma {:induction false} RestoreDeletesFirst(bucket: string, pages: seq<seq<string>>, extractDir: string, files: seq<string>)
    ensures var calls := DeleteCalls(bucket, pages) + PutCalls(bucket, extractDir, files);
      && |calls| >= |files|
      && |calls| - |files| == |DeleteCalls(bucket, pages)|
      && (forall i :: 0 <= i < |calls| - |files| ==> calls[i] == DeleteCalls(bucket, pages)[i])
      && (forall i :: 0 <= i < |calls| - |files| ==> calls[i].DeleteBatch? && calls[i].bucket == bucket)
      && (forall i, j :: 0 <= i < j < |calls| && calls[j].DeleteBatch? ==> calls[i].DeleteBatch?)
  {
    var d := DeleteCalls(bucket, pages);
    var calls := d + PutCalls(bucket, extractDir, files);
    assert forall k :: 0 <= k < |d| ==> calls[k] == d[k];
    assert forall k :: |d| <= k < |calls| ==> calls[k].Put?;
  }

  /** After the batch deletes, the restore puts each extracted file once, in
      order. */
  lemma {:induction false} RestorePutsLast(bucket: string, pages: seq<seq<string>>, extractDir: string, files: seq<string>)
    ensures var calls := DeleteCalls(bucket, pages) + PutCalls(bucket, extractDir, files);
      forall i :: |calls| - |files| <= i < |calls| ==>
        var f := files[i - (|calls| - |files|)];
        calls[i] == Put(bucket, NormaliseSeparators(f), extractDir + "/" + f)
  {
    var d := DeleteCalls(bucket, pages);
    var u := PutCalls(bucket, extractDir, files);
    assert forall k :: |d| <= k < |d + u| ==> (d + u)[k] == u[k - |d|];
  }

  /** The calls made when the first one that throws ends the restore. */
  function RunRestore(calls: seq<StoreCall>, fails: StoreCall -> bool): (done: seq<StoreCall>)
    ensures |done| <= |calls| && done == calls[..|done|]
    ensures forall i :: 0 <= i < |done| - 1 ==> !fails(done[i])
    ensures |done| < |calls| ==> |done| > 0 && fails(done[|done| - 1])
    ensures done == calls <==> forall i :: 0 <= i < |calls| - 1 ==> !fails(calls[i])
  {
    Seqs.RunUntilFailure(calls, fails)
  }

  lemma {:induction false} BatchKeysConcat(a: seq<StoreCall>, b: seq<StoreCall>)
    ensures BatchKeys(a + b) == BatchKeys(a) + BatchKeys(b)
  {
    if |a| > 0 {
      assert (a + b)[1..] == a[1..] + b;
      BatchKeysConcat(a[1..], b);
    } else {
      assert a + b == b;
    }
  }

  lemma {:induction false} NoBatchKeysInPuts(calls: seq<StoreCall>)
    requires forall i :: 0 <= i < |calls| ==> calls[i].Put?
    ensures BatchKeys(calls) == []
  {
    if |calls| > 0 {
      NoBatchKeysInPuts(calls[1..]);
    }
  }

  // ---------------------------------------------------------------------------

  /** The lookup ignores the case of the file name. */
  lemma ContentTypeIgnoresCase(filePath: string)
    ensures GetContentType(ToLower(filePath)) == GetContentType(filePath)
  {
    ExtnameCommutesWithLower(filePath);
    ToLowerIdempotent(Extname(filePath));
  }

  /** `cover.jpg` is `image/jpeg`. */
  lemma JpgIsJpeg()
    ensures GetContentType("cover.jpg") == "image/jpeg"
  {
    var s := "cover.jpg";
    assert s[5] == '.' && s[6] != '.' && s[7] != '.' && s[8] != '.' && '/' !in s;
    assert Extname(s) == ".jpg";
    assert ToLower(".jpg") == ".jpg";
  }

  /** `cover.jpeg` is `image/jpeg` too. */
  lemma JpegIsJpeg()
    ensures GetContentType("cover.jpeg") == "image/jpeg"
  {
    var s := "cover.jpeg";
    assert s[5] == '.' && s[6] != '.' && s[7] != '.' && s[8] != '.' && s[9] != '.' && '/' !in s;
    assert Extname(s) == ".jpeg";
    assert ToLower(".jpeg") == ".jpeg";
  }

  /** An upper-case name gets the same type: `COVER.JPG` is `image/jpeg`. */
  lemma UpperCaseJpeg()
    ensures GetContentType("COVER.JPG") == "image/jpeg"
  {
    var u := "COVER.JPG";
    assert ToLower(u) == "cover.jpg" by {
      assert ToLower(u) == [LowerChar(u[0]), LowerChar(u[1]), LowerChar(u[2]), LowerChar(u[3]), LowerChar(u[4]),
                            LowerChar(u[5]), LowerChar(u[6]), LowerChar(u[7]), LowerChar(u[8])];
    }
    ContentTypeIgnoresCase(u);
    JpgIsJpeg();
  }

  /** A file without an extension is sent as an octet stream. */
  lemma NoExtensionIsOctetStream(filePath: string)
    requires Extname(filePath) == ""
    ensures GetContentType(filePath) == DefaultContentType
  {
    assert LowerExtname(filePath) == "";
  }

  /** Every extension the upload filter allows has an image type. */
  lemma AllowedExtensionsAreImages(ext: string)
    requires ext in UploadPolicy.AllowedExtensions
    ensures TableType(ext).Some? && StartsWith(TableType(ext).value, "image/")
  {
  }

  /** The stored key `<timestamp>-<name>`, extracted under any directory,
      keeps the extension of the uploaded name. */
  lemma ExtensionSurvivesStorage(timestamp: nat, name: string, extractDir: string)
    requires Extname(name) != "" && '/' !in name
    ensures Extname(extractDir + "/" + UploadPolicy.ObjectKey(timestamp, name)) == Extname(name)
  {
    var key := UploadPolicy.ObjectKey(timestamp, name);
    var prefix := NatToString(timestamp) + "-";
    assert key == prefix + name;
    UploadPolicy.ObjectKeyKeepsSlashFree(timestamp, name);
    ExtnameOfPrefixed(prefix, name);
    BasenameOfJoin(extractDir, key);
    BasenameOfPlain(key);
  }

  /** An image the upload filter accepted comes back from a restore with an
      image content type: its object key is `<timestamp>-<name>`, the archive
      stores it under that key, and the extension survives both. */
  lemma UploadedImageRestoredAsImage(timestamp: nat, mimetype: string, name: string, extractDir: string)
    requires UploadPolicy.FileFilter(UploadPolicy.IncomingFile(mimetype, name)) == UploadPolicy.Accept
    requires '/' !in name
    ensures StartsWith(GetContentType(extractDir + "/" + UploadPolicy.ObjectKey(timestamp, name)), "image/")
  {
    var ext := LowerExtname(name);
    assert ext in UploadPolicy.AllowedExtensions;
    assert Extname(name) != "" by {
      assert ToLower("") == "";
    }
    ExtensionSurvivesStorage(timestamp, name, extractDir);
    AllowedExtensionsAreImages(ext);
  }

  /** Some call puts an object under `key`. */
  predicate PutsKey(calls: seq<StoreCall>, key: string) {
    exists i :: 0 <= i < |calls| && calls[i].Put? && calls[i].key == key
  }

  /** The keys put are the extracted paths with their separators
      normalised. */
  lemma {:induction false} PutKeys(bucket: string, pages: seq<seq<string>>, extractDir: string, files: seq<string>, k: string)
    ensures PutsKey(RestoreObjectStore(bucket, pages, extractDir, files), k) <==>
            exists j :: 0 <= j < |files| && NormaliseSeparators(files[j]) == k
  {
    var calls := RestoreObjectStore(bucket, pages, extractDir, files);
    var base := |calls| - |files|;
    if PutsKey(calls, k) {
      var i :| 0 <= i < |calls| && calls[i].Put? && calls[i].key == k;
      CallAt(bucket, pages, extractDir, files, i);
    }
    if exists j :: 0 <= j < |files| && NormaliseSeparators(files[j]) == k {
      var j :| 0 <= j < |files| && NormaliseSeparators(files[j]) == k;
      CallAt(bucket, pages, extractDir, files, base + j);
    }
  }

  /** One call of the restore: a delete before the puts, else the put of
      its file. */
  lemma CallAt(bucket: string, pages: seq<seq<string>>, extractDir: string, files: seq<string>, i: nat)
    requires i < |RestoreObjectStore(bucket, pages, extractDir, files)|
    ensures var calls := RestoreObjectStore(bucket, pages, extractDir, files);
      var base := |calls| - |files|;
      && (i < base ==> calls[i].DeleteBatch?)
      && (base <= i ==> calls[i] == Put(bucket, NormaliseSeparators(files[i - base]), extractDir + "/" + files[i - base]))
  {
  }

  /** What the backup archived is what the restore puts back: with keys free
      of backslashes, the keys put are exactly the archived ones, whatever
      order the directory walk yields them in. */
  lemma {:induction false} RestorePutsArchivedKeys(bucket: string, pages: seq<seq<string>>, extractDir: string,
                                objects: seq<BackupCatalogue.StoredObject>, fetched: string -> bool, files: seq<string>)
    requires forall i :: 0 <= i < |objects| ==> '\\' !in objects[i].key
    requires forall f :: f in files <==> f in BackupCreate.ArchivedKeys(objects, fetched)
    ensures forall k :: PutsKey(RestoreObjectStore(bucket, pages, extractDir, files), k) <==>
                        k in BackupCreate.ArchivedKeys(objects, fetched)
  {
    forall k
      ensures PutsKey(RestoreObjectStore(bucket, pages, extractDir, files), k) <==>
              k in BackupCreate.ArchivedKeys(objects, fetched)
    {
      PutKeyIsArchived(bucket, pages, extractDir, objects, fetched, files, k);
    }
  }

  lemma {:induction false} PutKeyIsArchived(bucket: string, pages: seq<seq<string>>, extractDir: string,
                         objects: seq<BackupCatalogue.StoredObject>, fetched: string -> bool, files: seq<string>, k: string)
    requires forall i :: 0 <= i < |objects| ==> '\\' !in objects[i].key
    requires forall f :: f in files <==> f in BackupCreate.ArchivedKeys(objects, fetched)
    ensures PutsKey(RestoreObjectStore(bucket, pages, extractDir, files), k) <==>
            k in BackupCreate.ArchivedKeys(objects, fetched)
  {
    var archived := BackupCreate.ArchivedKeys(objects, fetched);
    PutKeys(bucket, pages, extractDir, files, k);
    if k in archived {
      var j :| 0 <= j < |files| && files[j] == k;
      PlainKeyUnchanged(objects, fetched, k);
    }
    if exists j :: 0 <= j < |files| && NormaliseSeparators(files[j]) == k {
      var j :| 0 <= j < |files| && NormaliseSeparators(files[j]) == k;
      assert files[j] in archived;
      PlainKeyUnchanged(objects, fetched, files[j]);
    }
  }

  /** An archived key free of backslashes is its own normalised path. */
  lemma {:induction false} PlainKeyUnchanged(objects: seq<BackupCatalogue.StoredObject>, fetched: string -> bool, k: string)
    requires forall i :: 0 <= i < |objects| ==> '\\' !in objects[i].key
    requires k in BackupCreate.ArchivedKeys(objects, fetched)
    ensures NormaliseSeparators(k) == k
  {
    var o :| 0 <= o < |objects| && objects[o].key == k && fetched(k);
    assert '\\' !in k;
  }
}

=== FILE: report_quota.dfy ===
/** The broken-link report form in the browser (public/js/reports.js): a
    per-day quota of three reports kept in local storage as `{date, count}`,
    and the order in which the submit listener checks it. */
module ReportQuota {
  import opened Js

  const DailyLimit: int := 3

  /** The stored `userReports` record; None is the empty object `{}`. */
  datatype Quota = Quota(date: string, count: int)

  /** `canSubmitReport`: another day (or nothing stored) always allows; on the
      same day the count must still be under three. */
  function CanSubmit(stored: Option<Quota>, today: string): (ok: bool)
    ensures stored.None? || stored.value.date != today ==> ok
    ensures stored.Some? && stored.value.date == today ==> (ok <==> stored.value.count < DailyLimit)
  {
    if stored.None? || stored.value.date != today then true
    else stored.value.count < DailyLimit
  }

  /** `registerReport`: a new day restarts the count at one; the same day adds one. */
  function Register(stored: Option<Quota>, today: string): (q: Quota)
    ensures q.date == today
    ensures stored.None? || stored.value.date != today ==> q.count == 1
    ensures stored.Some? && stored.value.date == today ==> q.count == stored.value.count + 1
  {
    var base := if stored.None? || stored.value.date != today then Quota(today, 0) else stored.value;
    base.(count := base.count + 1)
  }

  /** How a submission ends. */
  datatype Outcome = LimitReached | MissingFields | Sent | SendFailed

  /** The report the page posts. */
  datatype Report = Report(gameName: string, brokenLink: string, userNote: string)

  /** The outcome, the stored quota afterwards, and the request posted (if any). */
  datatype Submission = Submission(outcome: Outcome, stored: Option<Quota>, posted: Option<Report>)

  /** The submit listener: quota first, then the two required fields, then the
      quota is consumed before the request is sent, so it stays consumed when
      sending fails. `delivered` is whether the server answered with success. */
  function Submit(stored: Option<Quota>, today: string, report: Report, delivered: bool): (s: Submission)
    ensures !CanSubmit(stored, today) ==> s == Submission(LimitReached, stored, None)
    ensures s.outcome == MissingFields <==>
      CanSubmit(stored, today) && (report.gameName == "" || report.brokenLink == "")
    ensures s.outcome == MissingFields ==> s.stored == stored && s.posted.None?
    ensures s.posted.Some? <==> CanSubmit(stored, today) && report.gameName != "" && report.brokenLink != ""
    ensures s.posted.Some? ==> s.posted.value == report && s.stored == Some(Register(stored, today))
    ensures s.outcome == Sent <==> s.posted.Some? && delivered
  {
    if !CanSubmit(stored, today) then Submission(LimitReached, stored, None)
    else if report.gameName == "" || report.brokenLink == "" then Submission(MissingFields, stored, None)
    else
      var after := Some(Register(stored, today));
      Submission(if delivered then Sent else SendFailed, after, Some(report))
  }

  /** The state one day's submissions start from: a record of another day,
      nothing, or one the page wrote earlier today. */
  predicate Wellformed(stored: Option<Quota>) {
    stored.None? || stored.value.count >= 0
  }

  /** How many more complete submissions today's quota lets through. */
  function Allowance(stored: Option<Quota>, today: string): (n: int)
    ensures Wellformed(stored) ==> 0 <= n <= DailyLimit
  {
    if stored.None? || stored.value.date != today then DailyLimit
    else if stored.value.count >= DailyLimit then 0
    else DailyLimit - stored.value.count
  }

  /** Whether a report carries both required fields. */
  predicate Complete(report: Report) {
    report.gameName != "" && report.brokenLink != ""
  }

  /** How many of a day's attempts carry both required fields. */
  function CompleteCount(attempts: seq<(Report, bool)>): (n: nat)
    ensures n <= |attempts|
  {
    if |attempts| == 0 then 0
    else (if Complete(attempts[0].0) then 1 else 0) + CompleteCount(attempts[1..])
  }

  /** A day's submissions, each a report and whether the server accepted it:
      how many were posted, and the stored quota afterwards. */
  function PostedInDay(stored: Option<Quota>, today: string, attempts: seq<(Report, bool)>): (r: (nat, Option<Quota>))
    decreases |attempts|
  {
    if |attempts| == 0 then (0, stored)
    else
      var s := Submit(stored, today, attempts[0].0, attempts[0].1);
      var rest := PostedInDay(s.stored, today, attempts[1..]);
      (if s.posted.Some? then rest.0 + 1 else rest.0, rest.1)
  }

  // ---------------------------------------------------------------------------

  /** One complete submission consumes exactly one unit of the allowance when
      any is left, and changes nothing otherwise. */
  lemma SubmitConsumesAllowance(stored: Option<Quota>, today: string, report: Report, delivered: bool)
    requires Wellformed(stored)
    requires report.gameName != "" && report.brokenLink != ""
    ensures var s := Submit(stored, today, report, delivered);
      && Wellformed(s.stored)
      && (Allowance(stored, today) > 0 <==> s.posted.Some?)
      && (s.posted.Some? ==> Allowance(s.stored, today) == Allowance(stored, today) - 1)
      && (s.posted.None? ==> s.stored == stored)
  {
  }

  /** Whatever the reports and whatever the server answers, a day's
      submissions are posted exactly as often as there are complete reports,
      up to the allowance, and never more than three times. */
  lemma {:induction false} AtMostThreePerDay(stored: Option<Quota>, today: string, attempts: seq<(Report, bool)>)
    requires Wellformed(stored)
    ensures var r := PostedInDay(stored, today, attempts);
      var n := CompleteCount(attempts);
      && r.0 == (if n < Allowance(stored, today) then n else Allowance(stored, today))
      && r.0 <= DailyLimit
    decreases |attempts|
  {
    if |attempts| > 0 {
      var (report, delivered) := attempts[0];
      var s := Submit(stored, today, report, delivered);
      if Complete(report) {
        SubmitConsumesAllowance(stored, today, report, delivered);
      }
      AtMostThreePerDay(s.stored, today, attempts[1..]);
    }
  }

  /** Leaving a required field empty costs nothing: the quota is as it was. */
  lemma IncompleteReportKeepsQuota(stored: Option<Quota>, today: string, link: string, note: string, delivered: bool)
    ensures Submit(stored, today, Report("", link, note), delivered).stored == stored
    ensures Submit(stored, today, Report("", link, note), delivered).posted.None?
  {
  }
}

=== FILE: report_route.dfy ===
/** `POST /api/report` (routes/report.routes.js): checks the two required
    fields and forwards the report to a Discord webhook as one embed. */
module ReportRoute {
  import opened Js
  import opened Text
  import ReportQuota

  const TitlePrefix: string := "Nuevo reporte: "
  const NoNote: string := "Ninguna"
  /** `0xe74c3c`. */
  const EmbedColor: int := 0xe74c3c

  /** One embed field; an `undefined` value is dropped by `JSON.stringify`. */
  datatype EmbedField = EmbedField(name: string, value: Option<string>)

  datatype Embed = Embed(title: string, fields: seq<EmbedField>, color: int)

  /** 400 for a missing field, 200 with `{success: true}`, or 500. */
  datatype Reply = BadRequest | Success | WebhookError

  /** The webhook body sent (if any) and the reply. */
  datatype Handled = Handled(sent: Option<Embed>, reply: Reply)

  /** The request body's fields, each possibly absent. */
  datatype ReportBody = ReportBody(gameName: Option<string>, brokenLink: Option<string>,
                                   userNote: Option<string>, timestamp: Option<string>)

  function BuildEmbed(gameName: string, brokenLink: string, userNote: Option<string>,
                      timestamp: Option<string>): (e: Embed)
    ensures |e.fields| == 3
    ensures e.fields[0].name == "Enlace roto" && e.fields[1].name == "Notas" && e.fields[2].name == "Fecha"
    ensures e.fields[0].value == Some(brokenLink) && e.fields[2].value == timestamp
    ensures e.fields[1].value == Some(if Truthy(userNote) then userNote.value else NoNote)
    ensures e.color == 15158332
    ensures StartsWith(e.title, TitlePrefix) && e.title[|TitlePrefix|..] == gameName
  {
    var title := TitlePrefix + gameName;
    assert title[..|TitlePrefix|] == TitlePrefix;
    Embed(title,
          [EmbedField("Enlace roto", Some(brokenLink)),
           EmbedField("Notas", Some(OrElse(userNote, NoNote))),
           EmbedField("Fecha", timestamp)],
          EmbedColor)
  }

  /** The handler. `webhookThrows` is whether `fetch` rejects; an HTTP error
      status from Discord does not reject, so it still answers success. */
  function HandleReport(body: ReportBody, webhookThrows: bool): (h: Handled)
    ensures h.reply == BadRequest <==> !Truthy(body.gameName) || !Truthy(body.brokenLink)
    ensures h.reply == BadRequest ==> h.sent.None?
    ensures h.sent.Some? <==> h.reply != BadRequest
    ensures h.sent.Some? ==>
      h.sent.value == BuildEmbed(body.gameName.value, body.brokenLink.value, body.userNote, body.timestamp)
    ensures h.reply == Success <==> Truthy(body.gameName) && Truthy(body.brokenLink) && !webhookThrows
  {
    if !Truthy(body.gameName) || !Truthy(body.brokenLink) then Handled(None, BadRequest)
    else
      var e := BuildEmbed(body.gameName.value, body.brokenLink.value, body.userNote, body.timestamp);
      Handled(Some(e), if webhookThrows then WebhookError else Success)
  }

  // ---------------------------------------------------------------------------

  /** The page and the route agree on the required fields: a report the
      browser posts is never answered 400, and its game name can be read back
      from the embed title. */
  lemma PostedReportsReachWebhook(stored: Option<ReportQuota.Quota>, today: string,
                                  report: ReportQuota.Report, delivered: bool,
                                  timestamp: string, webhookThrows: bool)
    requires ReportQuota.Submit(stored, today, report, delivered).posted.Some?
    ensures
      var h := HandleReport(ReportBody(Some(report.gameName), Some(report.brokenLink),
                                       Some(report.userNote), Some(timestamp)), webhookThrows);
      && h.reply != BadRequest
      && h.sent.value.title[|TitlePrefix|..] == report.gameName
      && h.sent.value.fields[0].value == Some(report.brokenLink)
  {
  }

  /** An empty note is shown as `Ninguna`. */
  lemma EmptyNoteShownAsNone(gameName: string, brokenLink: string, timestamp: Option<string>)
    ensures BuildEmbed(gameName, brokenLink, Some(""), timestamp).fields[1].value == Some(NoNote)
    ensures BuildEmbed(gameName, brokenLink, None, timestamp).fields[1].value == Some(NoNote)
  {
  }
}

=== FILE: seqs.dfy ===
/** Sequence operations the database queries and the backup listing are built
    from: filtering by a predicate, keeping a prefix (`limit`) and a stable
    newest-first sort (`sort({ createdAt: -1 })`, `Array.prototype.sort` with a
    `b - a` comparator). */
module Seqs {
  import opened Js

  /** The elements of `s` satisfying `p`, in their original order. */
  function Filter<T>(s: seq<T>, p: T -> bool): (r: seq<T>)
    ensures |r| <= |s|
    ensures forall i :: 0 <= i < |r| ==> r[i] in s && p(r[i])
    ensures forall i :: 0 <= i < |s| && p(s[i]) ==> s[i] in r
    ensures multiset(r) <= multiset(s)
  {
    if |s| == 0 then []
    else
      assert s == [s[0]] + s[1..];
      if p(s[0]) then [s[0]] + Filter(s[1..], p) else Filter(s[1..], p)
  }

  /** Filtering keeps every copy of an element satisfying `p` and none of
      the others. */
  lemma {:induction false} FilterCounts<T>(s: seq<T>, p: T -> bool)
    ensures forall x :: multiset(Filter(s, p))[x] == if p(x) then multiset(s)[x] else 0
  {
    if |s| > 0 {
      FilterCounts(s[1..], p);
      assert s == [s[0]] + s[1..];
      assert multiset(s) == multiset{s[0]} + multiset(s[1..]);
      if p(s[0]) {
        assert multiset(Filter(s, p)) == multiset{s[0]} + multiset(Filter(s[1..], p));
      } else {
        assert Filter(s, p) == Filter(s[1..], p);
      }
    }
  }

  /** Filtering a sequence that starts with `x`. */
  lemma FilterCons<T>(x: T, s: seq<T>, p: T -> bool)
    ensures Filter([x] + s, p) == (if p(x) then [x] else []) + Filter(s, p)
  {
    assert ([x] + s)[0] == x;
    assert ([x] + s)[1..] == s;
  }

  /** Filtering keeps the order: filtering a concatenation concatenates the
      filtered parts. */
  lemma {:induction false} FilterConcat<T>(a: seq<T>, b: seq<T>, p: T -> bool)
    ensures Filter(a + b, p) == Filter(a, p) + Filter(b, p)
  {
    if |a| == 0 {
      assert a + b == b;
    } else {
      FilterConcat(a[1..], b, p);
      ConsSplit(a, b);
      FilterCons(a[0], a[1..] + b, p);
      FilterCons(a[0], a[1..], p);
      Assoc(if p(a[0]) then [a[0]] else [], Filter(a[1..], p), Filter(b, p));
    }
  }

  lemma ConsSplit<T>(a: seq<T>, b: seq<T>)
    requires |a| > 0
    ensures a + b == [a[0]] + (a[1..] + b) && a == [a[0]] + a[1..]
  {
  }

  lemma Assoc<T>(h: seq<T>, x: seq<T>, y: seq<T>)
    ensures h + (x + y) == (h + x) + y
  {
  }

  /** A single element survives filtering exactly when it satisfies `p`. */
  lemma FilterSingle<T>(x: T, p: T -> bool)
    ensures Filter([x], p) == if p(x) then [x] else []
  {
    assert [x][1..] == [];
  }

  /** `.limit(n)`: at most the first `n` elements. */
  function Take<T>(s: seq<T>, n: nat): (r: seq<T>)
    ensures |r| == if n < |s| then n else |s|
    ensures r == s[..|r|]
  {
    if n < |s| then s[..n] else s
  }

  /** `.skip(n)`: everything after the first `n` elements. */
  function Drop<T>(s: seq<T>, n: nat): (r: seq<T>)
    ensures |r| == if n < |s| then |s| - n else 0
    ensures forall i :: 0 <= i < |r| ==> r[i] == s[n + i]
  {
    if n < |s| then s[n..] else []
  }

  /** Keys never increase along `s`: newest first when the key is a time. */
  ghost predicate NonIncreasing<T>(s: seq<T>, key: T -> int) {
    forall i, j :: 0 <= i < j < |s| ==> key(s[i]) >= key(s[j])
  }

  /** Inserts `x` before the first element whose key it is at least; earlier
      elements with an equal key stay in front of it (stability). */
  function Insert<T>(x: T, s: seq<T>, key: T -> int): (r: seq<T>)
    requires NonIncreasing(s, key)
    ensures NonIncreasing(r, key)
    ensures multiset(r) == multiset(s) + multiset{x}
    ensures |r| == |s| + 1
    ensures r[0] == x || (|s| > 0 && r[0] == s[0])
  {
    if |s| == 0 then [x]
    else if key(x) >= key(s[0]) then [x] + s
    else
      assert s == [s[0]] + s[1..];
      [s[0]] + Insert(x, s[1..], key)
  }

  /** Stable sort, largest key first. */
  function SortByKeyDesc<T>(s: seq<T>, key: T -> int): (r: seq<T>)
    ensures NonIncreasing(r, key)
    ensures multiset(r) == multiset(s)
    ensures |r| == |s|
  {
    if |s| == 0 then []
    else
      assert s == [s[0]] + s[1..];
      Insert(s[0], SortByKeyDesc(s[1..], key), key)
  }

  /** The head of a sorted sequence carries the largest key of all its elements. */
  lemma HeadIsMax<T>(s: seq<T>, key: T -> int)
    requires NonIncreasing(s, key) && |s| > 0
    ensures forall k :: 0 <= k < |s| ==> key(s[k]) <= key(s[0])
  {
  }

  /** Any sub-range of a sorted sequence is sorted. */
  lemma SliceNonIncreasing<T>(s: seq<T>, key: T -> int, lo: nat, hi: nat)
    requires NonIncreasing(s, key) && lo <= hi <= |s|
    ensures NonIncreasing(s[lo..hi], key)
  {
  }
  /** Sequences with the same multiset hold the same elements. */
  lemma SameElements<T>(a: seq<T>, b: seq<T>)
    requires multiset(a) == multiset(b)
    ensures forall x :: x in a <==> x in b
  {
    forall x
      ensures x in a <==> x in b
    {
      assert x in a <==> x in multiset(a);
      assert x in b <==> x in multiset(b);
    }
  }

  /** A window `.skip(n).limit(m)` of a sorted sequence is sorted and holds
      only its elements. */
  lemma WindowKeepsOrder<T>(s: seq<T>, key: T -> int, skip: nat, limit: nat)
    requires NonIncreasing(s, key)
    ensures NonIncreasing(Take(Drop(s, skip), limit), key)
    ensures forall x :: x in Take(Drop(s, skip), limit) ==> x in s
    ensures skip <= |s| ==> Take(Drop(s, skip), limit) == s[skip..skip + |Take(Drop(s, skip), limit)|]
  {
    var w := Take(Drop(s, skip), limit);
    if skip <= |s| {
      assert w == s[skip..skip + |w|];
      SliceNonIncreasing(s, key, skip, skip + |w|);
    }
    forall x | x in w
      ensures x in s
    {
      var i :| 0 <= i < |w| && w[i] == x;
      assert s[skip + i] in s;
    }
  }

  /** `Array.prototype.find`: the first element satisfying `p`. */
  function Find<T>(s: seq<T>, p: T -> bool): (r: Option<T>)
    ensures r.Some? ==> exists i :: 0 <= i < |s| && s[i] == r.value && p(s[i]) && forall j :: 0 <= j < i ==> !p(s[j])
    ensures r.None? <==> forall i :: 0 <= i < |s| ==> !p(s[i])
  {
    if |s| == 0 then None
    else if p(s[0]) then Some(s[0])
    else
      var rest := Find(s[1..], p);
      assert rest.Some? ==> exists i :: 0 < i < |s| && s[i] == rest.value && p(s[i]) && forall j :: 0 <= j < i ==> !p(s[j]) by {
        if rest.Some? {
          var i :| 0 <= i < |s[1..]| && s[1..][i] == rest.value && p(s[1..][i]) && forall j :: 0 <= j < i ==> !p(s[1..][j]);
          assert forall j :: 0 <= j < i + 1 ==> !p(s[j]) by {
            forall j | 0 <= j < i + 1 ensures !p(s[j]) {
              if j > 0 { assert s[j] == s[1..][j - 1]; }
            }
          }
        }
      }
      rest
  }

  /** The first element satisfying both `p` and `q`. */
  function FindBoth<T>(s: seq<T>, p: T -> bool, q: T -> bool): (r: Option<T>)
    ensures r.Some? ==> r.value in s && p(r.value) && q(r.value)
    ensures r.None? <==> forall i :: 0 <= i < |s| ==> !(p(s[i]) && q(s[i]))
  {
    if |s| == 0 then None
    else if p(s[0]) && q(s[0]) then Some(s[0])
    else FindBoth(s[1..], p, q)
  }

  /** Runs `steps` in order and stops right after the first one that fails;
      the result is what was attempted. */
  function RunUntilFailure<T>(steps: seq<T>, fails: T -> bool): (done: seq<T>)
    ensures |done| <= |steps| && done == steps[..|done|]
    ensures forall i :: 0 <= i < |done| - 1 ==> !fails(done[i])
    ensures |done| < |steps| ==> |done| > 0 && fails(done[|done| - 1])
    ensures done == steps <==> forall i :: 0 <= i < |steps| - 1 ==> !fails(steps[i])
  {
    if |steps| == 0 then []
    else if fails(steps[0]) then [steps[0]]
    else
      var rest := RunUntilFailure(steps[1..], fails);
      assert [steps[0]] + rest == steps[..|rest| + 1];
      [steps[0]] + rest
  }

  /** A run goes no further than a step that fails. */
  lemma {:induction false} RunStopsAtFailure<T>(steps: seq<T>, fails: T -> bool, k: nat)
    requires k < |steps| && fails(steps[k])
    ensures |RunUntilFailure(steps, fails)| <= k + 1
  {
  }

  /** The longest prefix of `s` whose elements all satisfy `ok`: a loop that
      stops (without counting it) at the first element that fails. */
  function TakeWhile<T>(s: seq<T>, ok: T -> bool): (r: seq<T>)
    ensures |r| <= |s| && r == s[..|r|]
    ensures forall i :: 0 <= i < |r| ==> ok(r[i])
    ensures |r| < |s| ==> !ok(s[|r|])
  {
    if |s| == 0 || !ok(s[0]) then []
    else
      var rest := TakeWhile(s[1..], ok);
      assert [s[0]] + rest == s[..|rest| + 1];
      [s[0]] + rest
  }

  // ---------------------------------------------------------------------------

  /** Finding in a filtered sequence is finding with both conditions in the
      original one: `s.filter(p).find(q)` picks the same element as
      `s.find(x => p(x) && q(x))`. */
  lemma {:induction false} FindInFilter<T>(s: seq<T>, p: T -> bool, q: T -> bool)
    ensures Find(Filter(s, p), q) == FindBoth(s, p, q)
  {
    if |s| > 0 {
      FindInFilter(s[1..], p, q);
    }
  }

  /** Taking the head of a filtered sequence is finding with the filter's
      condition: `s.filter(p)[0]` is `s.find(p)`. */
  lemma {:induction false} HeadOfFilter<T>(s: seq<T>, p: T -> bool)
    ensures |Filter(s, p)| > 0 <==> Find(s, p).Some?
    ensures |Filter(s, p)| > 0 ==> Filter(s, p)[0] == Find(s, p).value
  {
    if |s| > 0 {
      HeadOfFilter(s[1..], p);
    }
  }
  /** A narrower second condition that the found element still meets, and
      that implies the wider one, finds the same element. */
  lemma {:induction false} FindBothNarrowed<T>(s: seq<T>, p: T -> bool, wide: T -> bool, narrow: T -> bool)
    requires FindBoth(s, p, wide).Some? && narrow(FindBoth(s, p, wide).value)
    requires forall i :: 0 <= i < |s| && p(s[i]) && narrow(s[i]) ==> wide(s[i])
    ensures FindBoth(s, p, narrow) == FindBoth(s, p, wide)
  {
    if p(s[0]) && wide(s[0]) {
    } else {
      assert !(p(s[0]) && narrow(s[0]));
      FindBothNarrowed(s[1..], p, wide, narrow);
    }
  }
}

=== FILE: text.dfy ===
/** String operations of the JavaScript and Node.js runtime that the handlers
    rely on: `includes`, `indexOf`, `replace` with a string pattern (first
    occurrence only), `startsWith`, `endsWith`, ASCII `toLowerCase`, and the
    POSIX `path.basename` / `path.extname`. */
module Text {
  import opened Js

  /** `t` occurs in `s` starting at index `i`. */
  predicate OccursAt(s: string, t: string, i: int) {
    0 <= i && i + |t| <= |s| && s[i..i + |t|] == t
  }

  /** The first index at or after `i` where `t` occurs in `s`. */
  function FindFrom(s: string, t: string, i: nat): (r: Option<nat>)
    requires i <= |s|
    ensures r.Some? ==> i <= r.value && OccursAt(s, t, r.value)
    ensures r.Some? ==> forall j :: i <= j < r.value ==> !OccursAt(s, t, j)
    ensures r.None? ==> forall j :: i <= j ==> !OccursAt(s, t, j)
    decreases |s| - i
  {
    if OccursAt(s, t, i) then Some(i)
    else if i == |s| then None
    else FindFrom(s, t, i + 1)
  }

  /** `s.indexOf(t)`, with None for -1. */
  function IndexOf(s: string, t: string): (r: Option<nat>)
    ensures r.Some? ==> OccursAt(s, t, r.value) && forall j :: 0 <= j < r.value ==> !OccursAt(s, t, j)
    ensures r.None? ==> forall j :: !OccursAt(s, t, j)
  {
    FindFrom(s, t, 0)
  }

  /** `s.includes(t)`. */
  predicate Contains(s: string, t: string) {
    IndexOf(s, t).Some?
  }

  /** `s.replace(t, rep)` with a string pattern: only the first occurrence is
      replaced (the replacements used here contain no `$` patterns). */
  function ReplaceFirst(s: string, t: string, rep: string): (r: string)
    ensures !Contains(s, t) ==> r == s
    ensures Contains(s, t) ==>
      var i := IndexOf(s, t).value;
      && |r| == |s| - |t| + |rep|
      && r[..i] == s[..i] && r[i..i + |rep|] == rep && r[i + |rep|..] == s[i + |t|..]
  {
    match IndexOf(s, t)
    case None => s
    case Some(i) => s[..i] + rep + s[i + |t|..]
  }

  predicate StartsWith(s: string, p: string) {
    |p| <= |s| && s[..|p|] == p
  }

  predicate EndsWith(s: string, suffix: string) {
    |suffix| <= |s| && s[|s| - |suffix|..] == suffix
  }

  /** `toLowerCase` restricted to the ASCII letters. */
  function LowerChar(c: char): char {
    if 'A' <= c <= 'Z' then (c as int + 32) as char else c
  }

  function ToLower(s: string): (r: string)
    ensures |r| == |s|
    ensures forall i :: 0 <= i < |s| ==> r[i] == LowerChar(s[i])
  {
    seq(|s|, i requires 0 <= i < |s| => LowerChar(s[i]))
  }

  /** The last index of character `c` in `s`. */
  function LastIndexOfChar(s: string, c: char): (r: Option<nat>)
    ensures r.Some? ==> r.value < |s| && s[r.value] == c
    ensures r.Some? ==> forall j :: r.value < j < |s| ==> s[j] != c
    ensures r.None? ==> forall j :: 0 <= j < |s| ==> s[j] != c
  {
    if |s| == 0 then None
    else if s[|s| - 1] == c then Some(|s| - 1)
    else LastIndexOfChar(s[..|s| - 1], c)
  }

  /** Node's path functions ignore trailing separators. */
  function StripTrailingSlashes(p: string): string {
    if |p| > 0 && p[|p| - 1] == '/' then StripTrailingSlashes(p[..|p| - 1]) else p
  }

  /** `path.basename(p)` (POSIX): the last path segment. */
  function Basename(p: string): string {
    var q := StripTrailingSlashes(p);
    match LastIndexOfChar(q, '/')
    case None => q
    case Some(i) => q[i + 1..]
  }

  /** `path.extname(p)` (POSIX): from the last `.` of the last segment to its
      end; empty when the segment has no `.`, starts with its only leading
      `.` (a dot-file such as `.env`), or is `..`. */
  function Extname(p: string): string {
    var part := Basename(p);
    match LastIndexOfChar(part, '.')
    case None => ""
    case Some(d) => if d == 0 || part == ".." then "" else part[d..]
  }

  /** `path.extname(p).toLowerCase()`. */
  function LowerExtname(p: string): string {
    ToLower(Extname(p))
  }

  /** Decimal digits of a natural number, as `String(n)` prints it. */
  function NatToString(n: nat): (r: string)
    ensures |r| >= 1
    ensures forall i :: 0 <= i < |r| ==> '0' <= r[i] <= '9'
  {
    var d := ['0' + (n % 10) as char];
    if n < 10 then d else NatToString(n / 10) + d
  }

  // ---------------------------------------------------------------------------
  // Facts about the operations above.

  /** `path.basename` gives a slash-free tail of the path (trailing
      slashes aside), and a slash-free path is its own basename. */
  lemma {:induction false} BasenameIsLastSegment(p: string)
    ensures var r := Basename(p);
      && (forall i :: 0 <= i < |r| ==> r[i] != '/')
      && EndsWith(StripTrailingSlashes(p), r)
      && ((forall i :: 0 <= i < |p| ==> p[i] != '/') ==> r == p)
  {
  }

  /** `path.extname` is empty or a proper tail of the basename that starts
      with its only `.`; a basename without a dot has no extension. */
  lemma {:induction false} ExtnameIsLastDotPart(p: string)
    ensures var e := Extname(p);
      && (e == "" || (e[0] == '.' && EndsWith(Basename(p), e) && |e| < |Basename(p)|))
      && (forall i :: 1 <= i < |e| ==> e[i] != '.')
      && ((forall i :: 0 <= i < |Basename(p)| ==> Basename(p)[i] != '.') ==> e == "")
  {
  }

  /** Every character of a pattern that occurs in `s` is a character of `s`;
      read backwards, a string free of some character contains no pattern
      holding it. */
  lemma OccurrenceCarriesChars(s: string, t: string, k: nat)
    requires Contains(s, t) && k < |t|
    ensures t[k] in s
  {
    var i := IndexOf(s, t).value;
    assert s[i..i + |t|][k] == s[i + k];
  }

  /** `includes` agrees with the existence of an occurrence. */
  lemma ContainsIff(s: string, t: string)
    ensures Contains(s, t) <==> exists i :: OccursAt(s, t, i)
  {
  }

  lemma EndsWithConcat(a: string, b: string)
    ensures EndsWith(a + b, b)
  {
    assert (a + b)[|a + b| - |b|..] == b;
  }

  lemma StartsWithConcat(a: string, b: string)
    ensures StartsWith(a + b, a)
  {
    assert (a + b)[..|a|] == a;
  }

  /** Lowercasing leaves `/` and `.` where they are, and creates no new ones. */
  lemma LowerCharKeepsSeparators(c: char)
    ensures LowerChar(c) == '/' <==> c == '/'
    ensures LowerChar(c) == '.' <==> c == '.'
  {
  }

  lemma {:induction false} StripCommutesWithLower(p: string)
    ensures StripTrailingSlashes(ToLower(p)) == ToLower(StripTrailingSlashes(p))
    decreases |p|
  {
    var lp := ToLower(p);
    if |p| > 0 && p[|p| - 1] == '/' {
      assert lp[|lp| - 1] == '/';
      assert lp[..|lp| - 1] == ToLower(p[..|p| - 1]);
      StripCommutesWithLower(p[..|p| - 1]);
    } else if |p| > 0 {
      LowerCharKeepsSeparators(p[|p| - 1]);
    }
  }

  lemma {:induction false} LastIndexCommutesWithLower(s: string, c: char)
    requires c == '/' || c == '.'
    ensures LastIndexOfChar(ToLower(s), c) == LastIndexOfChar(s, c)
    decreases |s|
  {
    if |s| > 0 {
      var ls := ToLower(s);
      LowerCharKeepsSeparators(s[|s| - 1]);
      assert ls[..|ls| - 1] == ToLower(s[..|s| - 1]);
      LastIndexCommutesWithLower(s[..|s| - 1], c);
    }
  }

  lemma ToLowerSuffix(s: string, i: nat)
    requires i <= |s|
    ensures ToLower(s)[i..] == ToLower(s[i..])
  {
  }

  lemma {:induction false} BasenameCommutesWithLower(p: string)
    ensures Basename(ToLower(p)) == ToLower(Basename(p))
  {
    StripCommutesWithLower(p);
    var q := StripTrailingSlashes(p);
    LastIndexCommutesWithLower(q, '/');
    if LastIndexOfChar(q, '/').Some? {
      ToLowerSuffix(q, LastIndexOfChar(q, '/').value + 1);
    }
  }

  /** The extension of a lowercased path is the lowercased extension: the
      separators `/` and `.` that locate it are unaffected by lowercasing. */
  lemma {:induction false} ExtnameCommutesWithLower(p: string)
    ensures Extname(ToLower(p)) == ToLower(Extname(p))
  {
    BasenameCommutesWithLower(p);
    var part := Basename(p);
    LastIndexCommutesWithLower(part, '.');
    match LastIndexOfChar(part, '.')
    case None =>
    case Some(d) =>
      var lpart := ToLower(part);
      assert lpart == ".." <==> part == ".." by {
        if part == ".." { assert lpart == ".."; }
        if lpart == ".." {
          LowerCharKeepsSeparators(part[0]);
          LowerCharKeepsSeparators(part[1]);
          assert lpart[0] == LowerChar(part[0]) && lpart[1] == LowerChar(part[1]);
        }
      }
      ToLowerSuffix(part, d);
  }

  lemma ToLowerIdempotent(s: string)
    ensures ToLower(ToLower(s)) == ToLower(s)
  {
  }

  /** A path ending in an extension without `/` has a basename ending in it. */
  lemma BasenameKeepsSuffix(p: string, suffix: string)
    requires EndsWith(p, suffix) && |suffix| > 0 && '/' !in suffix
    ensures EndsWith(Basename(p), suffix)
  {
    assert p[|p| - 1] == suffix[|suffix| - 1];
    assert StripTrailingSlashes(p) == p;
    forall j | |p| - |suffix| <= j < |p|
      ensures p[j] != '/'
    {
      assert p[j] == suffix[j - (|p| - |suffix|)];
    }
    match LastIndexOfChar(p, '/')
    case None =>
    case Some(i) =>
      var b := p[i + 1..];
      assert b[|b| - |suffix|..] == p[|p| - |suffix|..];
  }
  /** A string contains every one of its infixes. */
  lemma ContainsInfix(a: string, t: string, b: string)
    ensures Contains(a + t + b, t)
  {
    var s := a + t + b;
    assert s[|a|..|a| + |t|] == t;
    assert OccursAt(s, t, |a|);
  }

  /** `path.basename(path.join(dir, name))` is `name` for a plain file name. */
  lemma BasenameOfJoin(dir: string, name: string)
    requires |name| > 0 && '/' !in name
    ensures Basename(dir + "/" + name) == name
  {
    var p := dir + "/" + name;
    assert p[|p| - 1] == name[|name| - 1];
    assert StripTrailingSlashes(p) == p;
    forall j | |dir| < j < |p|
      ensures p[j] != '/'
    {
      assert p[j] == name[j - |dir| - 1];
    }
    assert p[|dir|] == '/';
    assert LastIndexOfChar(p, '/') == Some(|dir|);
    assert p[|dir| + 1..] == name;
  }

  /** A non-empty name without separators is its own base name. */
  lemma BasenameOfPlain(s: string)
    requires |s| > 0 && '/' !in s
    ensures Basename(s) == s
  {
    assert StripTrailingSlashes(s) == s;
  }

  /** Putting a separator-free prefix in front of a file name that has an
      extension does not change the extension. */
  lemma {:induction false} ExtnameOfPrefixed(a: string, b: string)
    requires |a| > 0 && '/' !in a + b
    requires Extname(b) != ""
    ensures Extname(a + b) == Extname(b)
  {
    var p := a + b;
    assert '/' !in b by {
      forall j | 0 <= j < |b| ensures b[j] != '/' { assert b[j] == p[|a| + j]; }
    }
    BasenameOfPlain(b);
    BasenameOfPlain(p);
    var d := LastIndexOfChar(b, '.').value;
    LastIndexInSuffix(a, b, '.');
    assert |p| > 2;
    assert p[|a| + d..] == b[d..];
  }

  /** The last occurrence of a character that occurs in `b` is, in `a + b`,
      that same occurrence shifted by `|a|`. */
  lemma {:induction false} LastIndexInSuffix(a: string, b: string, c: char)
    requires LastIndexOfChar(b, c).Some?
    ensures LastIndexOfChar(a + b, c) == Some(|a| + LastIndexOfChar(b, c).value)
  {
    var p := a + b;
    var d := LastIndexOfChar(b, c).value;
    assert p[|a| + d] == c;
    assert forall j :: |a| + d < j < |p| ==> p[j] != c by {
      forall j | |a| + d < j < |p| ensures p[j] != c { assert p[j] == b[j - |a|]; }
    }
  }
}

=== FILE: upload_policy.dfy ===
/** What the server accepts as an uploaded file (middlewares/multer.js) and how
    it serves files from the uploads folder (middlewares/uploads.js). */
module UploadPolicy {
  import opened Js
  import opened Text

  /** Extensions `fileFilter` accepts, compared after lowercasing. */
  const AllowedExtensions: seq<string> := [".jpg", ".jpeg", ".png", ".gif"]

  /** `limits.fileSize`: 5 MiB, in bytes. */
  const MaxFileSize: nat := 5 * 1024 * 1024

  /** Suffixes `isDangerousFile` looks for, compared exactly. */
  const DangerousExtensions: seq<string> :=
    [".js", ".php", ".html", ".sh", ".exe", ".bat", ".cmd", ".pl", ".py", ".rb", ".cgi"]

  /** The parts of a multer file the filter reads. */
  datatype IncomingFile = IncomingFile(mimetype: string, originalname: string)

  datatype FilterDecision = Accept | RejectNotImage | RejectExtension(ext: string)

  /** `fileFilter`: the MIME type is checked first, then the extension. */
  function FileFilter(f: IncomingFile): (d: FilterDecision)
    ensures !StartsWith(f.mimetype, "image/") ==> d == RejectNotImage
    ensures d == Accept <==>
      StartsWith(f.mimetype, "image/") && LowerExtname(f.originalname) in AllowedExtensions
    ensures d.RejectExtension? <==>
      StartsWith(f.mimetype, "image/") && LowerExtname(f.originalname) !in AllowedExtensions
    ensures d.RejectExtension? ==> d.ext == LowerExtname(f.originalname)
  {
    if !StartsWith(f.mimetype, "image/") then RejectNotImage
    else
      var ext := LowerExtname(f.originalname);
      if ext !in AllowedExtensions then RejectExtension(ext) else Accept
  }

  /** multer stops a file whose size exceeds the limit; a file of exactly the
      limit is stored. */
  predicate WithinSizeLimit(size: nat) {
    size <= MaxFileSize
  }

  /** The object key multer-s3 stores a file under: the upload time in
      milliseconds, a dash, and the original name. */
  function ObjectKey(timestamp: nat, originalname: string): (key: string)
    ensures EndsWith(key, originalname)
    ensures |key| == |NatToString(timestamp)| + 1 + |originalname|
    ensures forall i :: 0 <= i < |NatToString(timestamp)| ==> '0' <= key[i] <= '9'
  {
    var key := NatToString(timestamp) + "-" + originalname;
    assert key[|key| - |originalname|..] == originalname;
    key
  }

  /** The original name read back from a key: everything after its first dash. */
  function NameOfKey(key: string): (name: Option<string>)
    ensures name.Some? ==> EndsWith(key, name.value) && |name.value| < |key|
    ensures name.None? <==> !Contains(key, "-")
  {
    match IndexOf(key, "-")
    case None => None
    case Some(i) => Some(key[i + 1..])
  }

  /** `isDangerousFile`: `dangerousExtensions.some(ext => path.endsWith(ext))`. */
  function EndsWithAny(path: string, exts: seq<string>): (r: bool)
    ensures r <==> exists i :: 0 <= i < |exts| && EndsWith(path, exts[i])
  {
    if |exts| == 0 then false
    else EndsWith(path, exts[0]) || EndsWithAny(path, exts[1..])
  }

  predicate IsDangerousFile(path: string): (b: bool)
    ensures b <==> exists i :: 0 <= i < |DangerousExtensions| && EndsWith(path, DangerousExtensions[i])
  {
    EndsWithAny(path, DangerousExtensions)
  }

  /** The older inline check in app.js: only `.js` and `.php`. */
  predicate LegacyForcesPlainText(path: string) {
    EndsWith(path, ".js") || EndsWith(path, ".php")
  }

  /** `setHeaders`: the Content-Type the static handler answers with. A
      dangerous path is forced to plain text; any other keeps what the static
      handler chose. */
  function SetHeaders(path: string, contentType: string): (r: string)
    ensures IsDangerousFile(path) ==> r == "text/plain"
    ensures !IsDangerousFile(path) ==> r == contentType
  {
    if IsDangerousFile(path) then "text/plain" else contentType
  }

  // ---------------------------------------------------------------------------

  /** The filter does not care about the case of the file name: lowercasing the
      name first changes nothing. */
  lemma FilterIgnoresNameCase(mimetype: string, name: string)
    ensures FileFilter(IncomingFile(mimetype, ToLower(name))) == FileFilter(IncomingFile(mimetype, name))
  {
    ExtnameCommutesWithLower(name);
    ToLowerIdempotent(Extname(name));
  }

  /** A key holds a separator only where the original name does. */
  lemma ObjectKeyKeepsSlashFree(timestamp: nat, originalname: string)
    requires '/' !in originalname
    ensures '/' !in ObjectKey(timestamp, originalname)
  {
    var key := ObjectKey(timestamp, originalname);
    var prefix := NatToString(timestamp) + "-";
    assert key == prefix + originalname;
    forall j | 0 <= j < |key|
      ensures key[j] != '/'
    {
      if j >= |prefix| { assert key[j] == originalname[j - |prefix|]; }
      else { assert key[j] == prefix[j]; }
    }
  }

  /** The key multer-s3 builds hands the original name back: digits hold no
      dash, so the first dash is the separator. */
  lemma {:induction false} KeyNameRoundTrip(timestamp: nat, originalname: string)
    ensures NameOfKey(ObjectKey(timestamp, originalname)) == Some(originalname)
  {
    var digits := NatToString(timestamp);
    var key := ObjectKey(timestamp, originalname);
    var n := |digits|;
    assert key == digits + "-" + originalname;
    assert OccursAt(key, "-", n) by { assert key[n..n + 1] == "-"; }
    forall j | 0 <= j < n
      ensures !OccursAt(key, "-", j)
    {
      assert key[j] == digits[j];
    }
    var i := IndexOf(key, "-");
    assert i.Some?;
    assert i.value == n;
    assert key[n + 1..] == originalname;
  }

  /** The newer list covers the older one: every path the app.js check forced
      to plain text is also forced by `isDangerousFile`. */
  lemma LegacyCheckIsSubsumed(path: string)
    requires LegacyForcesPlainText(path)
    ensures IsDangerousFile(path)
    ensures SetHeaders(path, "application/javascript") == "text/plain"
  {
    if EndsWith(path, ".js") {
      assert EndsWith(path, DangerousExtensions[0]);
    } else {
      assert EndsWith(path, DangerousExtensions[1]);
    }
  }

  /** A mixed-case image name is accepted; a non-image MIME type is refused
      whatever the name. */
  lemma FilterAcceptsMixedCase()
    ensures FileFilter(IncomingFile("image/png", "Cover.PNG")) == Accept
    ensures FileFilter(IncomingFile("text/html", "cover.png")) == RejectNotImage
  {
    MixedCaseExtname();
    ImageMime();
    assert AllowedExtensions[2] == ".png";
    assert "text/html"[0] != "image/"[0];
  }

  lemma MixedCaseExtname()
    ensures LowerExtname("Cover.PNG") == ".png"
  {
    var s := "Cover.PNG";
    assert s[5] == '.' && s[6] != '.' && s[7] != '.' && s[8] != '.' && '/' !in s;
    assert Extname(s) == ".PNG";
    assert ToLower(".PNG") == ".png";
  }

  /** A script name with an image MIME type is refused by its extension. */
  lemma FilterRefusesScript()
    ensures FileFilter(IncomingFile("image/png", "shell.php")) == RejectExtension(".php")
  {
    ScriptExtname();
    ImageMime();
    NotAllowedPhp();
  }

  lemma ImageMime()
    ensures StartsWith("image/png", "image/")
  {
    assert "image/png"[..6] == "image/";
  }

  lemma NotAllowedPhp()
    ensures ".php" !in AllowedExtensions
  {
    assert ".php"[1] == 'p';
  }

  lemma ScriptExtname()
    ensures LowerExtname("shell.php") == ".php"
  {
    var s := "shell.php";
    assert s[5] == '.' && s[6] != '.' && s[7] != '.' && s[8] != '.' && '/' !in s;
    assert Extname(s) == ".php";
    assert ToLower(".php") == ".php";
  }

  /** A name that is only an extension is a dot-file: it has no extension and
      is refused. */
  lemma FilterRefusesDotFile()
    ensures FileFilter(IncomingFile("image/png", ".png")) == RejectExtension("")
  {
    var s := ".png";
    assert s[0] == '.' && s[1] != '.' && s[2] != '.' && s[3] != '.' && '/' !in s;
    assert Extname(s) == "";
  }

  /** Suffixes are compared exactly: an upper-case script suffix is not
      treated as dangerous. */
  lemma UpperCaseScriptNotDangerous()
    ensures !IsDangerousFile("evil.JS")
  {
    var p := "evil.JS";
    assert forall i :: 0 <= i < |DangerousExtensions| ==> |DangerousExtensions[i]| > 0 && 'S' !in DangerousExtensions[i];
    LastCharRulesOut(p, DangerousExtensions);
  }

  /** A path whose last character ends none of the suffixes ends with none
      of them. */
  lemma LastCharRulesOut(p: string, exts: seq<string>)
    requires |p| > 0
    requires forall i :: 0 <= i < |exts| ==> |exts[i]| > 0 && p[|p| - 1] !in exts[i]
    ensures !EndsWithAny(p, exts)
  {
    forall i | 0 <= i < |exts|
      ensures !EndsWith(p, exts[i])
    {
      var e := exts[i];
      if |e| <= |p| {
        assert p[|p| - |e|..][|e| - 1] == p[|p| - 1];
        assert e[|e| - 1] in e;
      }
    }
  }

  /** An HTML page is dangerous under the newer list, and the app.js check
      did not cover it. */
  lemma HtmlOnlyCoveredByNewerList()
    ensures IsDangerousFile("page.html") && !LegacyForcesPlainText("page.html")
  {
    assert EndsWith("page.html", DangerousExtensions[2]);
    assert "page.html"[|"page.html"| - 1] == 'l';
  }

  /** A file of exactly 5 MiB passes, one byte more does not. */
  lemma SizeLimitBoundary()
    ensures MaxFileSize == 5242880
    ensures WithinSizeLimit(5242880) && !WithinSizeLimit(5242881)
  {
  }
}

=== FILE: upload_validation.dfy ===
/** The upload form's submit check in the browser (public/js/upload-validation.js):
    main image size, then the number of captures, then each capture's size;
    the first failure is shown and the submission stopped. */
module UploadValidation {
  import opened Js
  import UploadPolicy

  /** `5 * 1024 * 1024` bytes, as the page writes it. */
  const ClientMaxFileSize: nat := 5 * 1024 * 1024
  const MaxCaptures: nat := 5

  /** A file picked in the form. */
  datatype PickedFile = PickedFile(name: string, size: nat)

  datatype Verdict =
    | ImageTooLarge
    | TooManyCaptures
    | CaptureTooLarge(name: string)
    | Proceed

  /** The position of the first capture over the limit, as the `for … of`
      loop meets it. */
  function FirstOversized(captures: seq<PickedFile>): (r: Option<nat>)
    ensures r.Some? ==> r.value < |captures| && captures[r.value].size > ClientMaxFileSize
    ensures r.Some? ==> forall j :: 0 <= j < r.value ==> captures[j].size <= ClientMaxFileSize
    ensures r.None? <==> forall j :: 0 <= j < |captures| ==> captures[j].size <= ClientMaxFileSize
  {
    if |captures| == 0 then None
    else if captures[0].size > ClientMaxFileSize then Some(0)
    else match FirstOversized(captures[1..])
      case None => None
      case Some(k) => Some(k + 1)
  }

  predicate ImageFits(image: Option<PickedFile>) {
    image.None? || image.value.size <= ClientMaxFileSize
  }

  /** The submit listener's decision. A missing image passes the first check. */
  function Validate(image: Option<PickedFile>, captures: seq<PickedFile>): (v: Verdict)
    ensures v == ImageTooLarge <==> !ImageFits(image)
    ensures v == TooManyCaptures <==> ImageFits(image) && |captures| > MaxCaptures
    ensures v.CaptureTooLarge? <==>
      ImageFits(image) && |captures| <= MaxCaptures
      && exists j :: 0 <= j < |captures| && captures[j].size > ClientMaxFileSize
    ensures v.CaptureTooLarge? ==>
      exists j :: 0 <= j < |captures| && captures[j].size > ClientMaxFileSize && v.name == captures[j].name
        && forall i :: 0 <= i < j ==> captures[i].size <= ClientMaxFileSize
    ensures v == Proceed <==>
      ImageFits(image) && |captures| <= MaxCaptures
      && forall j :: 0 <= j < |captures| ==> captures[j].size <= ClientMaxFileSize
  {
    if !ImageFits(image) then ImageTooLarge
    else if |captures| > MaxCaptures then TooManyCaptures
    else match FirstOversized(captures)
      case Some(k) => CaptureTooLarge(captures[k].name)
      case None => Proceed
  }

  /** What the listener does to the page: whether it calls `preventDefault`,
      and whether the submit button ends up disabled. */
  datatype PageEffect = PageEffect(prevented: bool, buttonDisabled: bool)

  function Effect(v: Verdict): (e: PageEffect)
    ensures e.prevented <==> v != Proceed
    ensures e.buttonDisabled <==> !e.prevented
  {
    if v == Proceed then PageEffect(false, true) else PageEffect(true, false)
  }

  // ---------------------------------------------------------------------------

  /** A form the browser lets through sends no file the server's size limit
      would stop: both sides use the same 5 MiB bound. */
  lemma ClientCheckImpliesServerLimit(image: Option<PickedFile>, captures: seq<PickedFile>)
    requires Validate(image, captures) == Proceed
    ensures image.Some? ==> UploadPolicy.WithinSizeLimit(image.value.size)
    ensures forall j :: 0 <= j < |captures| ==> UploadPolicy.WithinSizeLimit(captures[j].size)
    ensures |captures| <= MaxCaptures
  {
  }

  /** The image is judged first: an oversized image is reported even when the
      captures are also wrong, and exactly 5 MiB is allowed. */
  lemma CheckOrder(captures: seq<PickedFile>)
    ensures Validate(Some(PickedFile("cover.png", ClientMaxFileSize + 1)), captures) == ImageTooLarge
    ensures |captures| > MaxCaptures ==>
      Validate(Some(PickedFile("cover.png", ClientMaxFileSize)), captures) == TooManyCaptures
    ensures |captures| > MaxCaptures ==> Validate(None, captures) == TooManyCaptures
  {
  }
}
